=== FILE: README.md ===
# caas business core in Dafny

A model of the core of a small-business web application for a handyman service. The
back end is a Django REST API; the front end is a React single-page application.
Each Dafny module follows one area of the program:

- **Appointments.** Hour-long booking slots from per-weekday business hours, blackout
  dates and accepted bookings (`Scheduling`). The Pending/Accepted/Declined status and
  the save-time check that keeps one accepted appointment per date and time
  (`Appointments`). The reschedule, list, slot and create endpoints (`AppointmentViews`)
  and their permission class (`AppointmentPermissions`). The serializers' computed
  fields (`AppointmentSerializers`) and the admin day calendar (`AppointmentCalendar`).
- **Invoices.** Line totals, amount recalculation and invoice numbering (`Invoices`).
  Applying a payment (`Payments`). The save signals (`InvoiceSignals`) and the PDF totals (`InvoicePdf`).
  The endpoints' access rules (`InvoiceViews`) and the list screen's search
  (`InvoiceList`).
- **Invoice editing in the browser.** `arrayMove`, position renumbering, soft delete
  with undo and the add-row check (`LineItems`). The swipe-to-delete gesture (`Swipe`)
  and the one-pending-commit undo snackbar (`UndoSnackbar`).
- **Notifications.** The browser's notification store and bell (`NotificationStore`).
  The server's age text and socket frames (`Notifications`).
- **Messages.** The inbox screens (`MessagePages`) and the contact-message API (`Msgs`).
- **Accounts.** E-mail and username normalisation, one-shot e-mail verification and
  the username-or-e-mail login backend (`Users`). Token login, the admin dashboard
  and the activity middleware (`Handyman`).
- **Client plumbing.** The cookie and header rules of the HTTP client (`ApiClient`). The
  menu key, logout, the start-up authentication check and the root page
  (`Navigation`). The resend cooldown (`VerifyEmailPage`), the add-customer form
  (`CustomerForm`) and the review serializer (`Reviews`).

Shared modules hold `Option`/`Result` (`Wrappers`), ASCII string helpers (`Strings`),
civil dates counted as Python's `date.toordinal()` (`Dates`), times of day in minutes
(`Clock`), order-preserving filters (`Seqs`) and the state codes (`UsStates`).

Money is exact integers, never floating point. Prices, payments and the stored invoice
amount are in cents, and hours in hundredths. Line totals and their exact sums are in
ten-thousandths of a dollar; the amount column keeps two decimal places, so the sum is
rounded half to even into cents when it is stored. The PDF's tax figures are in
hundred-millionths. Database tables are
sequences of records and server answers are inputs. Timers are discrete events.

Notes on the code as modelled:

- A customer asking for another customer's invoice gets 404, not the 403 of the
  retrieve gate: the customer queryset hides the invoice before the gate runs
  (`InvoiceViews.RetrieveNeverForbids`).
- The serializers and the PDF use `tax_rate`, `discount` and `position`, which the
  models shown do not declare. The model carries them as plain fields: the tax rate
  in hundredths of a percent, the discount in cents, the position as an integer.
- On the public reschedule page a date or time that does not parse raises, a 500.
  The admin reschedule action catches the same error and answers 400.
- Not every view is reachable. handyman/urls.py:29-52 routes the viewsets, the public
  reschedule page and `/auth/`, and sends every other path to the single-page
  template. `/auth/` serves the framework's own `ObtainAuthToken`
  (`Handyman.RoutedTokenLogin`), which does not check e-mail confirmation. Four views
  are modelled as written but routed nowhere:
  - `CustomAuthToken` (`Handyman.TokenLogin`);
  - `DashboardView`: the admin page's request for `/api/dashboard/` gets the template;
  - `verify_email` (`Users.VerifyEmail`) and `login_view` (`Users.LoginStatus`);
  - `GoogleReviewViewSet`, the only user of the review serializer (`Reviews`).

  The defects found in these views are latent as the project stands.

## Model

| member | source | states |
|---|---|---|
| Scheduling.ExcludeId | appointments/scheduling.py:41-42 | `if exclude_appointment_id:`: an id of 0 excludes nothing, any other id excludes exactly itself |
| Scheduling.BookedTimes | appointments/scheduling.py:36-44 | a time is booked iff some row on that date with status A, other than the excluded one, holds it |
| Scheduling.SlotTimes | appointments/scheduling.py:46-59 | every slot starts at or after opening, ends by closing, lies on the hour grid from opening and is not booked; slots strictly increase; every unbooked grid hour that fits is present; at most (close − open) / 60 slots |
| Scheduling.UnbookedSlots | appointments/scheduling.py:49-59 | with nothing booked, exactly (close − open) / 60 slots, the i-th at open + 60·i |
| Scheduling.AvailableTimes | appointments/scheduling.py:17-61 | a blackout date gives no slots; every slot is a time of day |
| Scheduling.AvailableTimesExactly | appointments/scheduling.py:17-61 | t is offered iff the date is not blacked out, t is a whole hour from opening whose hour fits before closing, and t is not booked |
| Scheduling.SlotCounts | appointments/scheduling.py:5-15 | at most 10 slots Monday to Friday and at most 5 at the weekend; exactly 10 or 5 with no blackout and no bookings |
| Scheduling.GenerateTimeSlots | appointments/scheduling.py:46-61 | blackout gives []; one slot per offered time; each slot's date is the ISO date and its time is `HH:MM` |
| Scheduling.SlotStringMatchesTime | appointments/scheduling.py:53-55 | the `HH:MM` text of t is among the slot times iff t is an offered time |
| Scheduling.AcceptedTimeNeverOffered | appointments/scheduling.py:36-52 | the time of an accepted, not excluded appointment on that date is never offered |
| Appointments.ParseStatus | appointments/models.py:61-65 | only "P", "A" and "D" parse, and the parsed status prints back as the same code |
| Appointments.StatusCodeRoundTrip | appointments/models.py:61-65 | every status's code parses back to that status |
| Appointments.FullClean | appointments/models.py:66-114 | no error iff the fields meet their limits (the e-mail non-empty and at most 254 characters), no row with another key is accepted at the same date and time, and no other row holds the reschedule token; invalid fields are reported first, then a booked slot |
| Appointments.Save | appointments/models.py:113-115 | succeeds iff `full_clean` passes; the saved row is stored and rows with other keys are kept; invalid fields and a booked slot are each reported as such |
| Appointments.SavePreservesInvariant | appointments/models.py:79-115 | a successful save keeps keys and reschedule tokens unique and at most one accepted appointment per date and time |
| Appointments.AcceptRequest | appointments/models.py:93-95 | the saved row has status A; succeeds iff the accepted row passes `full_clean` |
| Appointments.DeclineRequest | appointments/models.py:97-99 | the saved row has status D; succeeds iff the declined row passes `full_clean` |
| Appointments.StatusChangeTouchesOnlyStatus | appointments/models.py:93-99 | accept and decline change no field but the status |
| Appointments.PendingBlockedByAccepted | appointments/models.py:102-111 | a pending row cannot be saved onto another row's accepted slot: its own status plays no part |
| Appointments.OwnRowNeverConflicts | appointments/models.py:106 | a row never conflicts with its own stored copy |
| AppointmentViews.FindByToken | appointments/views.py:19-23 | finds a row with the token only in status P or A; None when every row with the token is declined |
| AppointmentViews.Moved | appointments/views.py:61-63 | the new date and time, status forced to P, every other field unchanged |
| AppointmentViews.PublicRescheduleGet | appointments/views.py:17-35 | 404 iff no P/A row has the token; otherwise the public view of that row |
| AppointmentViews.SaveMoved | appointments/views.py:61-79 | as written a failed save is 500, and a successful save is followed by a 500 with the save kept: the stored table and row are those of the save |
| AppointmentViews.SaveMovedFixed | appointments/views.py:61-81 | with the e-mail call corrected, a successful save answers rescheduled with the saved table and row, and a failed save is 500 |
| AppointmentViews.PublicRescheduleChecks | appointments/views.py:37-59 | unknown token 404; missing date or time 400; a malformed one 500, since the parse raises; a time not offered (own booking excluded) 400; what passes is the token's row with a parsed, offered date and time |
| AppointmentViews.PublicReschedulePost | appointments/views.py:37-81 | the 404/400/500/400 answers of the checks; never "rescheduled": a request that passes them saves the row moved to an offered time with status P and then fails with 500, since `send_appointment_email` is called with keywords it does not take |
| AppointmentViews.PublicReschedulePostFixed | appointments/views.py:37-81 | with the e-mail call corrected: unknown token 404, never a failure after a save, and a reschedule moves the token's row to an offered time with status P |
| AppointmentViews.AdminRescheduleChecks | appointments/views.py:169-205 | unknown key 404; missing or malformed date or time 400; a time not offered (own booking excluded) 409; what passes is the keyed row with a parsed, offered date and time |
| AppointmentViews.AdminReschedule | appointments/views.py:169-233 | the 404/400/409 answers of the checks; never "rescheduled": a request that passes them commits the row moved to an offered time with status P and then fails with 500, since `send_mail` is given `recipient=` instead of `recipient_list` |
| AppointmentViews.AdminRescheduleFixed | appointments/views.py:169-233 | with `send_mail` corrected: unknown key 404, never a failure after a save, and a reschedule moves the keyed row to an offered time with status P |
| AppointmentViews.RescheduleVersionsDifferOnlyAfterSave | appointments/views.py:61-81 | on both paths the corrected view answers rescheduled with the same table and row exactly where the written one fails after its save, and gives the same answer everywhere else |
| AppointmentViews.MoveToOfferedTimeSaves | appointments/views.py:194-211 | moving a row to an offered time passes `save` and keeps the table invariant |
| AppointmentViews.RescheduleOfferedTimeSavesThenFails | appointments/views.py:194-227 | as written, an admin reschedule to a parsed date and an offered time always stores the moved row, keeping the table invariant, and answers 500 |
| AppointmentViews.RescheduleOfferedTimeSucceeds | appointments/views.py:194-233 | with `send_mail` corrected, the same request is answered as rescheduled, and the table invariant holds |
| AppointmentViews.PublicRescheduleOfferedTimeSavesThenFails | appointments/views.py:50-79 | as written, a public reschedule of a P/A appointment to a time its own slot list offers always stores the moved row, keeping the table invariant, and answers 500 |
| AppointmentViews.PublicRescheduleOfferedTimeSucceeds | appointments/views.py:50-81 | with the e-mail call corrected, the same request is answered as rescheduled, and the table invariant holds |
| AppointmentViews.ListQuery | appointments/views.py:91-113 | a non-numeric id is an error; otherwise a row is listed iff it passes the status (P/A/D only), id and date filters |
| AppointmentViews.ListIgnoresUnknownFilters | appointments/views.py:98-111 | a status outside P/A/D and an unparsable date filter change nothing |
| AppointmentViews.StatusFilterMatchesAction | appointments/views.py:98-99 | `?status=X` lists the same rows as the pending and accepted actions |
| AppointmentViews.AvailableSlots | appointments/views.py:147-167 | missing or bad date 400; otherwise the generated slots, with or without the excluded id |
| AppointmentViews.PerformCreate | appointments/views.py:235-236 | a created row has status P and a fresh key, all else as submitted, and the table grows by one |
| AppointmentPermissions.HasPermission | appointments/permissions.py:11-14 | GET and POST always allowed; a refusal implies the caller is not staff |
| AppointmentPermissions.OnlyEditsNeedStaff | appointments/permissions.py:11-14 | refused exactly for a non-staff caller on update, partial update or destroy; accept and decline (POST) are open to anyone |
| AppointmentPermissions.SuperuserIrrelevant | appointments/permissions.py:14 | the decision does not depend on superuser or authentication flags |
| AppointmentSerializers.AbsMinutesInjective | appointments/serializers.py:46-61 | distinct valid date-times are distinct instants |
| AppointmentSerializers.AddMinutes | appointments/serializers.py:56 | adding n minutes gives a valid date-time exactly n minutes later |
| AppointmentSerializers.FullName | appointments/serializers.py:43-44 | the first name, one space, then the last name |
| AppointmentSerializers.FullNameDeterminesNames | appointments/serializers.py:43-44 | two appointments with equally long first names have the same full name only when both names agree |
| AppointmentSerializers.FullNameSplits | appointments/serializers.py:43-44 | with no space in the first name, the text before the first space is the first name and the rest is the last name |
| AppointmentSerializers.Start | appointments/serializers.py:46-52 | start is the requested date at the requested time |
| AppointmentSerializers.End | appointments/serializers.py:55-61 | end is exactly 60 minutes after start |
| AppointmentSerializers.PublicViewExposesExactly | appointments/serializers.py:63-71 | two appointments look the same publicly iff first name, date, time and description agree |
| AppointmentCalendar.Hours | web_app/src/pages/Appointments.js:19-20 | the hour grid is END_HOUR − START_HOUR rows, 9 + i |
| AppointmentCalendar.HoursAreWeekdayHours | web_app/src/pages/Appointments.js:86-89 | an hour is on the grid iff it starts inside weekday business hours |
| AppointmentCalendar.Top | web_app/src/pages/Appointments.js:216-219 | top offset is the minutes elapsed since 09:00 |
| AppointmentCalendar.Height | web_app/src/pages/Appointments.js:221-223 | height is the minutes from start to end |
| AppointmentCalendar.SerializedHeight | web_app/src/pages/Appointments.js:221-223 | a serialized appointment is 60 high |
| AppointmentCalendar.OfferedSlotsFitGrid | web_app/src/pages/Appointments.js:212-223 | an appointment booked on an offered slot is drawn inside the grid |
| AppointmentCalendar.DayEntries | web_app/src/pages/Appointments.js:82-84 | an entry is drawn iff it starts on the picked day |
| AppointmentCalendar.ColourByStatus | web_app/src/pages/Appointments.js:234-239 | green iff accepted, yellow iff pending, an unknown code coloured as declined |
| AppointmentCalendar.CalendarShowsAccepted | web_app/src/pages/Appointments.js:32-39 | the calendar (loaded with `?status=A`) holds every accepted appointment and only green entries |
| Invoices.RecalculateAmount | invoices/models.py:62-70 | the amount becomes the exact sum of all part and labor line totals, rounded half-even to the column's cents; lines, payments and every other invoice field are untouched |
| Invoices.ToCents | invoices/models.py:12-17 | the nearest whole cent to an amount in ten-thousandths, the even one on a tie |
| Invoices.ToCentsUnique | invoices/models.py:12-17 | any whole cent that is nearest, and even on a tie, is the one `ToCents` gives |
| Invoices.ToCentsShift | invoices/models.py:62-70 | adding whole cents before rounding moves the result by those cents, within one cent, and exactly when there is no tie |
| Invoices.PartsSumWholeCents | invoices/models.py:94-95 | part line totals, cents times a whole quantity, always come to whole cents |
| Invoices.RecalculateIgnoresTaxAndDiscount | invoices/models.py:62-70 | tax rate and discount play no part in the recalculated amount |
| Invoices.PutLineContents | invoices/models.py:101-103 | `save()` of a line stores it; a new id is appended and an existing id replaced in place; with unique ids exactly the other lines remain and ids stay unique |
| Invoices.SavePart | invoices/models.py:101-103 | the part is stored, appended for a new id and replacing the row for an existing one; with unique ids exactly the other parts remain and ids stay unique; labor, payments and every invoice field but the amount are unchanged; the amount is the sum of the line totals in cents |
| Invoices.DeletePart | invoices/models.py:97-99 | after deleting, exactly the parts with other ids remain, labor is untouched and the amount is the sum of the line totals in cents |
| Invoices.SaveLabor | invoices/models.py:130-132 | the labor line is stored, appended for a new id and replacing the row for an existing one; with unique ids exactly the other lines remain and ids stay unique; parts, payments and every invoice field but the amount are unchanged; the amount is the sum of the line totals in cents |
| Invoices.DeleteLabor | invoices/models.py:126-128 | after deleting, exactly the labor lines with other ids remain and the amount is the sum of the line totals in cents |
| Invoices.AddPartAddsItsTotal | invoices/models.py:94-103 | adding a new part stores the old exact sum plus its line total, in cents: over a matching amount that is within a cent of the old amount plus quantity × unit price, and exactly that unless the labor sum ends on half a cent |
| Invoices.DeletePartSubtractsItsTotal | invoices/models.py:94-99 | deleting a uniquely identified part stores the old exact sum less its line total, in cents: over a matching amount exactly the part's cents less unless the labor sum ends on half a cent |
| Invoices.PartsSumSplit | invoices/models.py:63-65 | the parts sum splits into the parts kept and the parts removed by an id |
| Invoices.InvoiceNumber | invoices/models.py:49-60 | the number is the `%y%m%d` prefix of today followed by digits only; nine characters while fewer than 999 invoices exist that day |
| Invoices.InvoiceNumberRoundTrip | invoices/models.py:60 | the digits after the prefix read back as the day's count plus one |
| Invoices.InvoiceNumbersDistinct | invoices/models.py:49-60 | different day counts give different numbers on the same day |
| Invoices.DaysUntilDue | invoices/serializers.py:87-88 | null exactly when there is no due date |
| Invoices.DaysUntilDueReachesDueDate | invoices/models.py:40-43 | counting `days_until_due` days on from today lands on the due date |
| Invoices.OverdueIffNegativeDays | invoices/models.py:45-47 | overdue iff there is a due date, it is a negative number of days away and the invoice is unpaid; no due date is never overdue |
| Invoices.IsOverdue | invoices/models.py:45-47 | overdue only with a due date and unpaid, and then exactly when today is after the due date |
| Payments.ApplyToInvoice | invoices/models.py:156-159 | a NULL amount raises; otherwise paid iff it was paid or the payment covers the stored amount; the full saves' signal as written leaves the amount NULL; nothing else changes |
| Payments.OutstandingAmount | invoices/models.py:165-166 | a NULL amount raises; otherwise never negative, at least amount − payment, and either zero or exactly that difference |
| Payments.OutstandingZeroIffCovers | invoices/models.py:156-166 | nothing is outstanding iff the payment covers the stored amount, and then `apply_to_invoice` marks the invoice paid in both versions of the signal |
| Payments.SecondPaymentRaises | invoices/models.py:156-159 | as written, once a payment is applied any further payment to the same invoice raises, its amount being NULL |
| Payments.ApplyToInvoiceFixed | invoices/models.py:156-159 | under the corrected signal: the same paid outcome, and the stored amount matches the lines afterwards |
| Payments.FixedApplyKeepsAmount | invoices/models.py:156-159 | with the correction an invoice whose amount matches its lines always accepts a payment and keeps that amount |
| Payments.CentsPaymentCoversRoundedAmount | invoices/models.py:123-124 | 1.25 hours at $33.33 comes to $41.6625, stored as $41.66, and a payment of $41.66 leaves nothing outstanding |
| InvoiceSignals.SetInvoiceDefaults | invoices/signals.py:12-36 | an invoice with a key is unchanged; a new one gets the generated number, amount 0, due date today + 3 and issue date today, all else kept |
| InvoiceSignals.NewInvoiceDueInThreeDays | invoices/signals.py:35-36 | a new invoice is due in exactly 3 days and is not overdue |
| InvoiceSignals.UpdateInvoiceAmount | invoices/signals.py:38-53 | no change on creation or when `update_fields` names neither tax_rate nor discount; otherwise the amount is left NULL, nothing else changes |
| InvoiceSignals.FullSaveNullsAmount | invoices/signals.py:51-53 | as written, a plain save of an existing invoice leaves an amount that no longer matches its lines |
| InvoiceSignals.UpdateInvoiceAmountFixed | invoices/signals.py:38-53 | the corrected signal: same skip rules, and only the amount may change |
| InvoiceSignals.FixedSignalKeepsAmount | invoices/signals.py:43-53 | with the correction the amount matches the lines after every save that recalculates, and a matching amount stays matching otherwise |
| InvoiceSignals.PaidOnlySaveKeepsAmount | invoices/signals.py:47-49 | a save of only `paid` changes nothing in either version |
| InvoicePdf.RateText | invoices/pdf.py:151 | digits, a dot and two digits; the digits before the dot read back as the whole part of the rate and the two after as its hundredths |
| InvoicePdf.ComputeTotals | invoices/pdf.py:92-143 | subtotal = parts + labor, and tax × 100 = subtotal × tax rate in percent |
| InvoicePdf.SubtotalIsRecalculatedAmount | invoices/pdf.py:92-142 | the PDF subtotal, the exact sum of the part and labor line totals, lies within half a cent of the amount `recalculate_amount` stores |
| InvoicePdf.TaxCaption | invoices/pdf.py:151 | the tax caption starts with `Tax (` and so is never the discount caption |
| InvoicePdf.Breakdown | invoices/pdf.py:147-161 | a NULL amount raises; rows are Parts Total, Labor Total, Subtotal, Tax, [Discount], blank, Grand Total with the computed values; the Discount row is present iff discount > 0 |
| InvoicePdf.GrandTotalOmitsTaxAndDiscount | invoices/pdf.py:159-161 | the Grand Total shows the stored amount, the subtotal rounded to cents, whatever the tax rate and discount; when the line totals are whole cents it differs from subtotal + tax − discount whenever tax and discount differ |
| InvoicePdf.FractionalCentsCanMatchGrandTotal | invoices/pdf.py:159-161 | the whole-cent condition is needed: 1.25 h at $33.33 with 60% tax and a $25.00 discount give subtotal + tax − discount = $41.66, the Grand Total |
| InvoicePdf.Payments | invoices/pdf.py:184-231 | no payments gives no section; otherwise total paid is the sum of payments, balance + total paid = amount (unclamped), and the balance is a heading iff it is positive |
| InvoicePdf.OverpaymentGivesNegativeBalance | invoices/pdf.py:223-231 | an overpayment shows a negative balance in plain style |
| InvoiceViews.Queryset | invoices/views.py:50-63 | a non-numeric `customer` fails; otherwise an invoice is listed iff the user is a superuser or owns it ignoring case, and it matches the customer filter |
| InvoiceViews.GetObject | invoices/views.py:50-66 | finds an invoice with that key that the user may see; 404 only when every invoice with the key is hidden from the user |
| InvoiceViews.Retrieve | invoices/views.py:65-78 | a success returns the invoice with that key |
| InvoiceViews.RetrieveNeverForbids | invoices/views.py:65-78 | the 403 branch is unreachable: a non-owner gets 404 because the queryset already hides the invoice |
| InvoiceViews.ApplyPatch | invoices/serializers.py:77-85 | the read-only number and issue date are never changed; every writable field takes the sent value or keeps its own |
| InvoiceViews.ReadOnlyPatchIsIdentity | invoices/serializers.py:77-85 | a request carrying only read-only fields changes nothing |
| InvoiceViews.Update | invoices/views.py:80-90 | errors are 404 (missing or hidden) or 400 (an amount over ten digits); a success stores the patched invoice, whose amount the full save's signal as written leaves NULL |
| InvoiceViews.UpdateFixed | invoices/views.py:80-90 | under the corrected signal a success stores the patched invoice with its amount recalculated from its lines |
| InvoiceViews.UpdateVersionsDifferOnlyInAmount | invoices/views.py:80-90 | the two versions answer alike and store the same row except for the amount; a sent amount is never what is stored |
| InvoiceViews.CreateInvoiceNotification | invoices/views.py:18-42 | as written every call fails with 500: each branch passes `invoice=` and `type=`, which notifications/models.py:3-6 does not declare |
| InvoiceViews.CreateNotice | invoices/views.py:18-42 | a keyword the model has no column for fails with 500; otherwise title `Invoice <n> Updated`, type I, bound to the requester iff their e-mail equals the customer's exactly and they are not a superuser |
| InvoiceViews.CreateInvoiceNotificationFixed | invoices/views.py:18-42 | against a model with user, invoice and type columns the notice is always created, titled and bound as above |
| InvoiceViews.Destroy | invoices/views.py:92-103 | as written nothing is ever deleted: a non-superuser gets 403 and a superuser who finds the invoice 500 |
| InvoiceViews.DestroyFixed | invoices/views.py:92-103 | with the notice created, deletion succeeds iff a superuser finds the invoice, and removes exactly the invoices with that key |
| InvoiceViews.DestroyFailsWhereFixedSucceeds | invoices/views.py:92-103 | the written view answers 500 exactly where the corrected one deletes, and answers the same elsewhere |
| InvoiceViews.DestroyRemovesExactlyOne | invoices/views.py:92-103 | with unique keys the corrected deletion removes exactly that row and keeps the others in order |
| InvoiceViews.DestroyNoticeHasNoUser | invoices/views.py:95-103 | the corrected deletion's notice is never bound to a user |
| InvoiceViews.MarkPaid | invoices/views.py:120-129 | `paid` is flipped, nothing else changes, and the message names the new state |
| InvoiceViews.MarkPaidTwiceRestores | invoices/views.py:120-129 | marking twice gives back the original invoice |
| InvoiceViews.GetObjectFinds | invoices/views.py:50-66 | with unique keys, a visible invoice is found by its key |
| InvoiceViews.CustomerRetrieve | invoices/views.py:187-198 | errors are 404; with a non-empty `email` a success matches it ignoring case; with none, an existing invoice is always served |
| InvoiceList.FilterInvoices | web_app/src/components/Invoices.js:52-59 | exactly the matching rows are kept, in their original order |
| InvoiceList.BlankSearchShowsAll | web_app/src/components/Invoices.js:53 | a blank or whitespace-only search returns the list unchanged |
| InvoiceList.SearchKeepsExactlyMatches | web_app/src/components/Invoices.js:54-58 | otherwise a row is kept iff its lower-cased number or name (missing as "") contains the lower-cased term |
| InvoiceList.UntrimmedSearchMisses | web_app/src/components/Invoices.js:54 | the term is not trimmed: "001" finds invoice 250101001, "001 " does not |
| InvoiceList.CustomerLabel | web_app/src/components/Invoices.js:160-163 | the name when present and non-empty, else `Customer #<id>` |
| InvoiceList.Location | web_app/src/components/Invoices.js:165-170 | `city, state` when both are present and non-empty, otherwise "—" |
| LineItems.SpliceIndex | web_app/src/pages/Invoice.js:428-429 | `splice` reads a start index in range as itself and a negative one as counted from the end, clamped to the length |
| LineItems.ArrayMove | web_app/src/pages/Invoice.js:426-431 | a new list of the same length with the moved element at the target index, and the others in their original order |
| LineItems.ArrayMovePermutes | web_app/src/pages/Invoice.js:426-431 | the result is a permutation of the input |
| LineItems.ArrayMoveSameIndex | web_app/src/pages/Invoice.js:426-431 | `arrayMove(a, i, i)` equals `a` |
| LineItems.ArrayMoveInverse | web_app/src/pages/Invoice.js:426-431 | moving back from `to` to `from` restores the input |
| LineItems.Renumber | web_app/src/pages/Invoice.js:184-188 | one patch per row of the reordered list, giving row i position i |
| LineItems.DragEnd | web_app/src/pages/Invoice.js:175-191 | when the handler fires: no target or a drop on itself does nothing; an empty list throws; otherwise patch i gives row i of the `arrayMove` order position i, over the same ids |
| LineItems.Reorder | web_app/src/pages/Invoice.js:178-182 | the reordered list is a permutation of the rows |
| LineItems.ArrayMoveIds | web_app/src/pages/Invoice.js:426-431 | a move keeps the multiset of ids |
| LineItems.DragPlacesActiveAtTarget | web_app/src/pages/Invoice.js:175-188 | with unique ids, the dragged row is patched to the drop target's index, and the other rows' patches carry their ids in their original relative order |
| LineItems.LaborDragAsWritten | web_app/src/pages/Invoice.js:289-305 | the labor table's drag, as written, only ever patches the parts endpoint |
| LineItems.LaborDragSwapsLastTwoParts | web_app/src/pages/Invoice.js:289-305 | dragging labor rows whose ids are not part ids swaps the last two parts and renumbers the parts |
| LineItems.MoveLastOntoLast | web_app/src/pages/Invoice.js:426-431 | `arrayMove(a, -1, -1)` on two or more rows swaps the last two |
| LineItems.LaborDragFixed | web_app/src/components/tables/LaborTable.js:64-80 | the corrected drag patches the labor endpoint once per labor row, with positions 0..n−1 |
| LineItems.SoftDelete | web_app/src/components/tables/PartsTable.js:51-53 | the rows with that id are removed and every other row is kept |
| LineItems.RemoveUnique | web_app/src/components/tables/PartsTable.js:51-53 | for a unique id, soft delete removes exactly that row and keeps the order of the rest |
| LineItems.Insert | web_app/src/components/tables/PartsTable.js:56 | one row longer, holding the new row and the old rows |
| LineItems.InsertPermutes | web_app/src/components/tables/PartsTable.js:56 | insertion adds exactly the one row |
| LineItems.InsertKeepsSorted | web_app/src/components/tables/PartsTable.js:56 | insertion keeps a position-sorted list sorted |
| LineItems.SortByPosition | web_app/src/components/tables/PartsTable.js:56 | the sort is a permutation and ascending by position |
| LineItems.SortSortedIsIdentity | web_app/src/components/tables/PartsTable.js:56 | sorting a sorted list changes nothing (the sort is stable) |
| LineItems.Undo | web_app/src/components/tables/PartsTable.js:55-57 | undo holds the old rows plus the restored one, sorted ascending by position |
| LineItems.UndoIntoSorted | web_app/src/components/tables/PartsTable.js:55-57 | on a sorted list, undo is a single stable insertion |
| LineItems.RemoveKeepsSorted | web_app/src/components/tables/PartsTable.js:51-53 | removing a row keeps the list sorted |
| LineItems.DeleteThenUndoRestores | web_app/src/components/tables/PartsTable.js:51-57 | with unique ids and strictly increasing positions, soft delete then undo gives back the original list |
| LineItems.InsertRestores | web_app/src/components/tables/PartsTable.js:55-57 | re-inserting a removed row of a strictly sorted list puts it back in its place |
| LineItems.InsertAt | web_app/src/components/tables/PartsTable.js:56 | insertion goes after every row at or below the new position and before every row above it |
| LineItems.AddRowRequest | web_app/src/pages/Invoice.js:271-273 | a request is sent iff the description is non-empty, and it carries that description |
| Swipe.GetState | web_app/src/hooks/useSwipeToDelete.js:10 | a row's state when it has one, otherwise nothing |
| Swipe.PointerDown | web_app/src/hooks/useSwipeToDelete.js:12-18 | the row restarts at the pointer, offset 0, closed; other rows are unchanged |
| Swipe.PointerMove | web_app/src/hooks/useSwipeToDelete.js:20-27 | no state, no change; otherwise the offset is the leftward distance from the start, within [−80, 0], 0 for a rightward drag and exactly −80 past 80 px; other rows unchanged |
| Swipe.PointerUp | web_app/src/hooks/useSwipeToDelete.js:29-36 | no state, no change; otherwise open iff the offset's magnitude exceeds 60, and the offset snaps to −80 when open and 0 when closed |
| Swipe.Reset | web_app/src/hooks/useSwipeToDelete.js:38-41 | only that row's state is removed |
| Swipe.Step | web_app/src/hooks/useSwipeToDelete.js:10-41 | an event changes only its own row, and only a pointer-down gives a row a gesture state |
| Swipe.Run | web_app/src/hooks/useSwipeToDelete.js:10-41 | after any run a row has a state only if it had one before or some event pressed on it |
| Swipe.RunKeepsWellFormed | web_app/src/hooks/useSwipeToDelete.js:12-41 | after any event sequence every row's offset stays within [−80, 0] |
| Swipe.RunIsolatesRows | web_app/src/hooks/useSwipeToDelete.js:12-41 | events for other row ids never change a row's state |
| Swipe.PointerUpIdempotent | web_app/src/hooks/useSwipeToDelete.js:29-36 | releasing twice is releasing once |
| Swipe.TapStaysClosed | web_app/src/hooks/useSwipeToDelete.js:12-36 | a press and release without moving leaves the row closed at offset 0 |
| UndoSnackbar.DurationSeconds | web_app/src/hooks/useUndoSnackbar.js:4-25 | the message lasts timeout / 1000 seconds |
| UndoSnackbar.ShowUndo | web_app/src/hooks/useUndoSnackbar.js:7-21 | the earlier pending timer is cancelled, the new one is pending, live and shown, and nothing is committed or undone |
| UndoSnackbar.ShowUndoFixed | web_app/src/hooks/useUndoSnackbar.js:7-21 | corrected: the superseded deletion is committed at once instead of cancelled, and the new timer is pending, live and shown |
| UndoSnackbar.Fire | web_app/src/hooks/useUndoSnackbar.js:15-19 | a cleared timer does nothing; a live one commits exactly once, stops being live and clears the pending reference |
| UndoSnackbar.Expire | web_app/src/hooks/useUndoSnackbar.js:25 | the message closes and the timers are untouched |
| UndoSnackbar.ClickUndo | web_app/src/hooks/useUndoSnackbar.js:32-37 | as written: UNDO on a shown message clears its timer, calls `onUndo` and clears the pending reference whatever it refers to |
| UndoSnackbar.ClickUndoFixed | web_app/src/hooks/useUndoSnackbar.js:32-37 | the corrected UNDO clears the pending reference only when it is the clicked message's own timer |
| UndoSnackbar.Step | web_app/src/hooks/useUndoSnackbar.js:7-37 | as written, one event never takes back a commit or an undo, and timer numbers are never reused |
| UndoSnackbar.StepFixed | web_app/src/hooks/useUndoSnackbar.js:7-37 | the same for one event of the corrected hook |
| UndoSnackbar.Run | web_app/src/hooks/useUndoSnackbar.js:7-37 | as written, the commit and undo logs of a run only grow |
| UndoSnackbar.RunFixed | web_app/src/hooks/useUndoSnackbar.js:7-37 | the same for a run of the corrected hook |
| UndoSnackbar.StaleUndoLeavesTwoPending | web_app/src/hooks/useUndoSnackbar.js:8-37 | delete, delete, UNDO on the first message, delete: two commits are waiting as written; corrected, the first message has closed when superseded and one commit is waiting |
| UndoSnackbar.RunFixedKeepsOnePending | web_app/src/hooks/useUndoSnackbar.js:8-21 | with the corrected UNDO every event sequence keeps at most one commit waiting, the one `showUndo` would cancel |
| UndoSnackbar.NoSecondCommit | web_app/src/hooks/useUndoSnackbar.js:15-37 | a fired timer never commits again, and an undone one never commits |
| UndoSnackbar.SupersededNeverCommits | web_app/src/hooks/useUndoSnackbar.js:8-11 | as written, once a later `showUndo` cancels a pending timer, its firing changes nothing: that deletion's `onCommit` never runs |
| UndoSnackbar.SupersededDeletionIsLost | web_app/src/hooks/useUndoSnackbar.js:8-11 | delete, delete, the first message closes, the second timer fires: as written the first deletion is neither committed nor undone; corrected, both are committed |
| UndoSnackbar.RunFixedAccountsForEveryDeletion | web_app/src/hooks/useUndoSnackbar.js:7-37 | with both corrections every deletion is at all times waiting, committed or undone |
| NotificationStore.UnreadEntries | web_app/src/context/NotificationContext.js:29-31 | the number of entries shown unread never exceeds the list length |
| NotificationStore.Push | web_app/src/context/NotificationContext.js:60-66 | the frame is prepended whole and the counter goes up by one |
| NotificationStore.PushKeepsCounter | web_app/src/context/NotificationContext.js:60-66 | pushing an unread frame keeps a counter that matches the list matching |
| NotificationStore.FetchNotifications | web_app/src/context/NotificationContext.js:16-19 | a failure changes nothing; otherwise the list becomes `results`, or [] when absent, and the counter is kept |
| NotificationStore.FetchUnread | web_app/src/context/NotificationContext.js:21-24 | a failure changes nothing; otherwise the counter becomes the server's value, or 0 when absent, and the list is kept |
| NotificationStore.MarkEntries | web_app/src/context/NotificationContext.js:29-31 | same length and order; exactly the entries with that id become read, the rest are unchanged |
| NotificationStore.MarkRead | web_app/src/context/NotificationContext.js:26-32 | as written: after the POST the counter is max(0, unread − 1) whether or not the id is listed, and the list is marked |
| NotificationStore.MarkReadAbsentIdDesyncs | web_app/src/context/NotificationContext.js:26-29 | one unread notification 1 and `markRead(2)`: the badge shows 0 as written, 1 with the correction |
| NotificationStore.MarkReadFixed | web_app/src/context/NotificationContext.js:26-32 | the corrected `markRead` leaves the counter alone when no unread entry has the id, and keeps a matching counter matching |
| NotificationStore.MarkEntriesCount | web_app/src/context/NotificationContext.js:29-31 | marking never adds unread entries, and removes some iff an unread entry has the id |
| NotificationStore.MarkAllRead | web_app/src/context/NotificationContext.js:34-38 | a failed POST changes nothing; otherwise the counter is 0 and the list is fetched again |
| NotificationStore.MarkAllReadMatchesReadList | web_app/src/context/NotificationContext.js:34-38 | when the server returns only read rows, the counter matches the list afterwards |
| NotificationStore.ProviderSocketPath | web_app/src/context/NotificationContext.js:44-52 | no socket without a non-empty token and e-mail; otherwise the path names the raw e-mail as group |
| NotificationStore.RawEmailGroupIsRejected | notifications/consumers.py:10-15 | for any e-mail with an `@`, the raw-e-mail group the client puts in the socket path is refused by the channel layer, so the connect fails; a send to that group would raise too |
| NotificationStore.ProviderGroupFixed | notifications/consumers.py:5-6 | the corrected group is 37 characters, starts with `user_` and is the same for every case variant of the e-mail |
| NotificationStore.FixedGroupsMeet | notifications/consumers.py:5-15 | with both sides on the safe group, a user whose e-mail equals the customer's ignoring case connects and receives the customer's pushes |
| NotificationStore.BellOnAuth | web_app/src/components/Notification.js:41-80 | logged out: empty list, zero counter, socket closed; logged in: the counter is fetched and a socket opens iff a token is stored |
| NotificationStore.BellView | web_app/src/components/Notification.js:82-83 | the bell renders iff the user is authenticated, showing its store |
| NotificationStore.LogoutClearsStore | web_app/src/components/Notification.js:43-51 | logging out leaves an empty store whose counter matches |
| Notifications.DeltaSeconds | notifications/models.py:16-25 | `timedelta.seconds`: below 86400, and the whole seconds of an age under one day |
| Notifications.DeltaDays | notifications/models.py:27 | `timedelta.days`: the whole days of the age |
| Notifications.TimeSince | notifications/models.py:11-27 | under 20 s (negative ages included) "just now"; 20 s to under 1 min the uninterpolated placeholder text; from 1 min the minute, hour and day buckets |
| Notifications.AgeText | notifications/models.py:22-27 | minutes below one hour, hours below one day, days from one day on |
| Notifications.MinutesText | notifications/models.py:22-23 | "N minutes ago" with N in 1..59 the whole minutes elapsed |
| Notifications.HoursText | notifications/models.py:24-25 | "N hours ago" with N in 1..23 the whole hours elapsed |
| Notifications.DaysText | notifications/models.py:26-27 | "N days ago" with N ≥ 1 the whole days elapsed |
| Notifications.CountText | notifications/models.py:23-27 | the number printed before the unit reads back as itself |
| Notifications.TimeSinceFixed | notifications/models.py:20-21 | the corrected seconds bucket prints N in 20..59, the whole seconds elapsed; every other age reads as before |
| Notifications.SecondsBucketIsConstant | notifications/models.py:20-21 | as written 21 s and 58 s read the same; corrected they differ |
| Notifications.SafeGroup | notifications/consumers.py:5-6 | `user_` followed by the first 32 digits of the digest of the lower-cased e-mail, 37 characters in all |
| Notifications.SafeGroupIgnoresCase | notifications/consumers.py:5-6 | e-mails equal ignoring case give the same group |
| Notifications.SafeGroupIsValidName | notifications/consumers.py:5-6 | every safe group is a name the channel layer accepts |
| Notifications.Connect | notifications/consumers.py:10-15 | the connect succeeds iff the layer accepts the URL segment as a group name; the channel then joins that group verbatim and nothing else changes |
| Notifications.Disconnect | notifications/consumers.py:17-18 | the channel leaves the group and nothing is added |
| Notifications.ConnectThenDisconnect | notifications/consumers.py:10-18 | for an accepted group name, disconnect leaves exactly the group joined on connect, restoring the layer |
| Notifications.Publish | notifications/ws.py:11-18 | a send to a name the layer refuses raises; otherwise exactly the channels in that group receive the event |
| Notifications.Envelope | notifications/consumers.py:21-32 | the JSON text `{"type": kind, "payload": data}` with the payload recoverable from it |
| Notifications.Notify | notifications/consumers.py:21-25 | a frame of type "notification" whose payload reads back as the data |
| Notifications.MessageEvent | notifications/consumers.py:28-32 | a frame of type "message" whose payload reads back as the data |
| Notifications.FrameKindsDiffer | notifications/consumers.py:21-32 | a notification frame never equals a message frame |
| MessagePages.FilterMessages | web_app/src/pages/Messages.js:53-67 | the search step then the unread step equal one order-preserving filter by both tests |
| MessagePages.FilterStepsCompose | web_app/src/pages/Messages.js:53-67 | the two steps compose into a single filter by the conjunction of the tests |
| MessagePages.NoFiltersListsAll | web_app/src/pages/Messages.js:56 | a blank term with the switch off lists every message in order |
| MessagePages.UnreadOnlyKeepsUnread | web_app/src/pages/Messages.js:64 | with a blank term, unread-only keeps a message iff it is unread |
| MessagePages.RowBadges | web_app/src/pages/Messages.js:77-84 | the dot shows iff the message is unread; the paperclip iff it has at least one attachment |
| MessagePages.FileIcon | web_app/src/pages/Message.js:34-43 | the image icon iff the lower-cased text after the last dot is jpg, jpeg, png, gif or webp; the PDF icon iff it is pdf |
| MessagePages.Extension | web_app/src/pages/Message.js:35 | the extension contains no dot |
| MessagePages.AfterLastOfSuffix | web_app/src/pages/Message.js:35 | a name ending, ignoring case, in "." + ext has extension ext |
| MessagePages.DisplayName | web_app/src/pages/Message.js:170-172 | a non-empty name is used as it is; otherwise the last `/` segment of the file URL |
| MessagePages.PreviewImpliesImageIcon | web_app/src/pages/Message.js:185-192 | every name that opens a preview also shows the image icon |
| MessagePages.PreviewOpens | web_app/src/pages/Message.js:185-188 | only a present name of at least four characters can open the preview |
| MessagePages.BareExtensionIsNotPreviewed | web_app/src/pages/Message.js:34-38 | a bare "png" shows the image icon but opens no preview |
| MessagePages.ShortNameNeverPreviews | web_app/src/pages/Message.js:186 | a name shorter than four characters never previews |
| MessagePages.SendsReadPatch | web_app/src/pages/Message.js:68-78 | the read PATCH is sent iff the message is unread |
| MessagePages.ReplyLink | web_app/src/pages/Message.js:111 | `mailto:` + sender + `?subject=Re: ` + subject, with the sender recoverable from the link |
| Msgs.CustomersOnlyCreate | msgs/permissions.py:8-13 | a non-superuser, signed in or anonymous, is permitted exactly the create action |
| Msgs.HasPermission | msgs/permissions.py:8-13 | create is always permitted; any other action only for a signed-in superuser |
| Msgs.Gate | msgs/views.py:10-14 | a bad token is 401 for any action; a refused permission is 401 without credentials and 403 for a signed-in caller; otherwise the request passes |
| Msgs.GateFollowsPermission | msgs/views.py:10-14 | every action but create passes iff the caller is a superuser; create passes unless the token is bad |
| Msgs.Visible | msgs/views.py:16-43 | both `get_queryset` methods: a caller sees all rows or none, and of a non-empty table sees some rows exactly when a superuser |
| Msgs.VisibleFollowsPermission | msgs/views.py:16-19 | a caller who may not `List` under the permission class sees nothing; one who may sees every message |
| Msgs.MarkReadRequest | msgs/views.py:10-33 | no or a bad token 401 and a signed-in non-superuser 403, both with no change; an unknown id 404; otherwise 200 and exactly the message with that id becomes read |
| Msgs.MarkMessages | msgs/views.py:30-32 | same length; exactly the message with that id is read afterwards, the rest unchanged |
| Msgs.MarkReadIdempotent | msgs/views.py:25-33 | marking read twice is marking once |
| Msgs.CreateAttachment | msgs/views.py:35-47 | a bad token 401; a missing or unknown message id or a missing file 400; otherwise the attachment is appended, bound to the request's message id |
| Msgs.CreateAttachmentKeepsOwnership | msgs/views.py:45-47 | an upload keeps every attachment attached to an existing message |
| Users.NormalizeEmail | users/models.py:17 | the stored e-mail is lower-case; an address with an `@` is first stripped of surrounding whitespace |
| Users.VerificationLink | users/models.py:105 | the link is FRONTEND_URL + `/verify-email/` + token + `/` |
| Users.CreateUser | users/models.py:11-23 | a missing e-mail or username is refused; a taken one fails; otherwise the new account takes the next key, its e-mail is `NormalizeEmail` of the input and its username lower-cased, it is inactive and unconfirmed, and exactly its API token and verification token are added |
| Users.CreateSuperuser | users/models.py:25-34 | staff and superuser default to true and an explicit false for either is refused; otherwise it is `create_user` with both flags set |
| Users.StoredEmail | users/models.py:64-70 | the e-mail stored under that key, present iff a row has the key |
| Users.PrepareSave | users/models.py:57-72 | e-mail and username are lower-cased; the confirmation is dropped iff the stored e-mail differs; nothing else changes |
| Users.Store | users/models.py:72 | the saved row is present, rows with other keys are kept, nothing else appears |
| Users.EmailChangeUnconfirms | users/models.py:57-72 | changing an account's e-mail drops its confirmation; re-saving the same address in any case keeps it |
| Users.VerifyEmail | users/views.py:21-32 | routed nowhere; an unknown token is 400 with no change; a success deletes only that verification, activates the token's account, and leaves every other account, the API tokens and the key counter unchanged |
| Users.VerifyEmailConfirms | users/views.py:23-30 | on lower-case accounts a successful verification also confirms the address |
| Users.VerifyEmailIsOneShot | users/views.py:23-32 | a verification link works once; the second visit gets 400 |
| Users.SaveKeepsConfirmation | users/models.py:64-71 | re-saving a row's own lower-case e-mail keeps its confirmation |
| Users.VerifyAuthToken | users/views.py:55-87 | no header, or one whose key does not authenticate an active account, is 401; otherwise 200 iff some API token has the body's key, else 400 |
| Users.OwnKeyNeverRefusedWith400 | users/views.py:81-87 | with the same key in header and body, as the web client sends it, 200 iff the key still authenticates and never 400 |
| Users.UserQueryset | users/views.py:60-63 | a superuser sees every account; anyone else exactly their own |
| Users.DestroyUser | users/views.py:90-94 | 204 iff the account exists and the caller may see it; then only its active flag is cleared and the row is kept; otherwise 404 and no change |
| Users.Candidates | users/authentication.py:13-16 | an identifier with `@` matches exactly the accounts whose e-mail equals it ignoring case, otherwise exactly those whose username does |
| Users.Authenticate | users/authentication.py:6-23 | a missing username or password gives no user; no matching account gives no user; several raise; a single match is returned iff it is active and passes the password check; a returned user matches the identifier ignoring case |
| Users.UnknownIdentifierIsNoUser | users/authentication.py:12-18 | an identifier naming no stored account gives no user, whatever the password |
| Users.LoginStatus | users/views.py:42-47 | routed nowhere; 200 iff authenticated, 400 iff no user |
| Users.CanonicalLookupIsUnique | users/authentication.py:12-18 | on accounts stored lower-case with unique e-mails and usernames, the lookup never finds several rows |
| Users.CandidatesAtMostOne | users/authentication.py:13-16 | on such accounts an identifier names at most one account |
| Handyman.RoutedTokenLogin | handyman/urls.py:44 | the routed `/auth/` view: 200 iff the backend authenticates the credentials, confirmed or not; 400 for no user; the token is the stored one, created only when absent |
| Handyman.RoutedLoginIgnoresConfirmation | handyman/urls.py:44 | the routed view issues a token to an unconfirmed account, which `CustomAuthToken` refuses with 403, and otherwise answers as `CustomAuthToken` does |
| Handyman.TokenLogin | handyman/views.py:21-37 | `CustomAuthToken`, routed nowhere: 200 iff the credentials name a confirmed user; an unconfirmed e-mail is 403 and issues nothing; the token is the stored one, created only when absent |
| Handyman.TokenIsReused | handyman/views.py:36-37 | a second login returns the same token and creates nothing |
| Handyman.WeekStart | handyman/views.py:50 | the Monday on or before today, at most six days back |
| Handyman.WeekRange | handyman/views.py:50-51 | a Monday-to-Sunday range of seven days containing today |
| Handyman.BackToMonday | handyman/views.py:50 | stepping back `weekday()` days never leaves the calendar |
| Handyman.MondayOf | handyman/views.py:50 | the day `weekday()` days before today is a Monday |
| Handyman.SundayAfterMonday | handyman/views.py:51 | six days after a Monday is a Sunday |
| Handyman.SundayAfterMidnightIsMissed | handyman/views.py:55 | as written a sign-up after 00:00 on the week's Sunday is not counted; with whole days it is |
| Handyman.MomentRangesAgreeBeforeLastDay | handyman/views.py:55 | the corrected range agrees with the written one except after midnight on the last day |
| Handyman.InMomentRange | handyman/views.py:55 | inside the written range iff on one of its days and, on the last day, exactly at 00:00 |
| Handyman.WeeklyCounts | handyman/views.py:53-93 | each count is the number of rows passing its filter as written: invoices issued this week, the unpaid ones among them (never more), accepted appointments requested this week, and sign-ups inside the midnight-to-midnight `__range` |
| Handyman.WeeklyCountsFixed | handyman/views.py:53-93 | the corrected counts: sign-ups on any of the seven days, the other counts unchanged |
| Handyman.WeeklySignupsAtMostFixed | handyman/views.py:55 | the written sign-up count never exceeds the corrected one and equals it when no sign-up falls on the Sunday after 00:00 |
| Handyman.SqlSum | handyman/views.py:58-61 | SQL SUM is null iff no amount is non-null, otherwise the sum of the non-null amounts |
| Handyman.Revenue | handyman/views.py:58-61 | `or 0` gives 0 when no amount is non-null |
| Handyman.RevenueIsSumOfAmounts | handyman/views.py:58-61 | the revenue is always the sum of the non-null amounts, so `or 0` never hides a real total |
| Handyman.DashboardView | handyman/views.py:43-98 | 403 iff not a superuser; 500 iff a superuser's today has no same day a year back (29 February); otherwise the week containing today, the counts as written, the total revenue as the sum of all amounts (0 without invoices), the month's revenue and the chart bound a year back |
| Handyman.YearAgo | handyman/views.py:71 | `today.replace(year=today.year-1)`: the same month and day a year back, raising exactly on 29 February and in year 1 |
| Handyman.YearAgoFixed | handyman/views.py:71 | always a date, at most today, 365 or 366 days back after year 1, and equal to the written bound wherever that exists |
| Handyman.LeapDayDashboardFails | handyman/views.py:71 | as written a superuser opening the dashboard on 29 February gets 500 |
| Handyman.DashboardViewFixed | handyman/views.py:43-98 | corrected: a superuser always gets a report, with the corrected counts and a chart bound at most today |
| Handyman.DashboardVersionsAgree | handyman/views.py:43-98 | where the written view answers, the corrected one answers the same but for a sign-up count at least as large |
| Handyman.ClientIp | handyman/middleware.py:14-19 | the first comma-separated `X-Forwarded-For` entry, trimmed, when the header is non-empty; otherwise REMOTE_ADDR |
| Handyman.TrimHasNoNewChars | handyman/middleware.py:17 | the trimmed first entry contains no comma |
| Handyman.ChangedFields | handyman/middleware.py:22-28 | a field is listed iff its stored value differs from the new one |
| Handyman.ApplyFields | handyman/middleware.py:31-32 | exactly the listed fields take their new values |
| Handyman.Middleware | handyman/middleware.py:9-35 | the response passes through; anonymous requests save nothing; a save happens iff some field differs, with exactly the differing fields |
| Handyman.MiddlewareSettles | handyman/middleware.py:22-33 | a second request at the same moment from the same address writes nothing |
| ApiClient.Entries | web_app/src/components/axios.js:8-11 | one trimmed entry per `;`-separated piece, in order |
| ApiClient.FirstWithPrefix | web_app/src/components/axios.js:10-15 | the first entry starting with the prefix, or -1 exactly when none does |
| ApiClient.GetCookie | web_app/src/components/axios.js:4-20 | null for a missing or empty cookie string; otherwise null iff no entry starts with `name=`, else the decoded rest of the first such entry |
| ApiClient.LongerNameIsNotMatched | web_app/src/components/axios.js:10-15 | for every name and cookie string, an entry that starts with the name and continues with anything but `=` is never the one read; with no other `name=` entry the result is null |
| ApiClient.SingleCookie | web_app/src/components/axios.js:7-16 | a one-entry cookie string yields its value exactly when the entry starts with `name=` |
| ApiClient.WithAuthorization | web_app/src/components/axios.js:36-39 | a stored non-empty token sets `Authorization: Token <t>`; nothing else changes |
| ApiClient.WithCsrf | web_app/src/components/axios.js:42-47 | an unsafe method with a non-empty cookie sets `X-CSRFToken`; nothing else changes |
| ApiClient.Intercept | web_app/src/components/axios.js:33-50 | both headers as above; every other header is kept and none is added |
| ApiClient.MethodCaseIgnored | web_app/src/components/axios.js:42 | the method is matched without regard to letter case |
| Navigation.FirstMatch | web_app/src/components/Menu.js:50-51 | the key of the first matching rule, or "" when none matches |
| Navigation.SelectedKey | web_app/src/components/Menu.js:35-52 | "/" and "/home" select "home" |
| Navigation.ActiveKey | web_app/src/App.js:125-138 | one of the six keys or ""; home iff the path is "/" or "/home"; another key only when the path starts with "/" and that key; "" iff no listed prefix matches |
| Navigation.ActiveKeyAgreesWithMenu | web_app/src/App.js:125-138 | whenever the app's own chain picks a key, the menu's table picks the same key |
| Navigation.MenuCustomers | web_app/src/components/Menu.js:40 | a path under "/customers" selects "customers" |
| Navigation.MenuInvoices | web_app/src/components/Menu.js:41 | a path under "/invoices" selects "invoices" |
| Navigation.MenuContact | web_app/src/components/Menu.js:43 | a path under "/contact" selects "contact" |
| Navigation.MenuLogin | web_app/src/components/Menu.js:45 | a path under "/login" selects "login" |
| Navigation.MenuSignup | web_app/src/components/Menu.js:46 | a path under "/signup" selects "signup" |
| Navigation.HomeIsExact | web_app/src/components/Menu.js:39 | only "/" and "/home" are home; "/home/x" selects nothing |
| Navigation.PrefixHasNoBoundary | web_app/src/components/Menu.js:40 | the other patterns are bare prefixes: "/customersfoo" selects "customers" |
| Navigation.Logout | web_app/src/components/Menu.js:22-26 | the stored token is removed, every other stored item kept, and the login page is next |
| Navigation.ClearSession | web_app/src/App.js:59-60 | token and user are removed; every other stored item is kept |
| Navigation.CheckAuth | web_app/src/App.js:40-96 | no token: signed out without a request; signed in iff verify answered other than 400 and `/me/` answered OK with a parsed body; admin iff `is_superuser`; any failure clears the session |
| Navigation.OnlyVerify400SignsOut | web_app/src/App.js:58-63 | with a good `/me/`, the user is signed in iff verify's status is not exactly 400 |
| Navigation.RootPage | web_app/src/App.js:151-154 | the admin dashboard iff the user is an admin |
| Navigation.RootPageFollowsCheck | web_app/src/App.js:84-89 | "/" shows the dashboard iff the check signed in a superuser |
| VerifyEmailPage.Tick | web_app/src/pages/VerifyEmail.js:15-23 | a tick lowers a positive cooldown by one and leaves a finished one alone |
| VerifyEmailPage.TicksCountDown | web_app/src/pages/VerifyEmail.js:15-23 | after n ticks the cooldown is max(c - n, 0): it never goes negative |
| VerifyEmailPage.ButtonLabel | web_app/src/pages/VerifyEmail.js:98-100 | "Resend available in <n>s" while cooling down, whose digits read back as the cooldown; "Resend verification email" otherwise |
| VerifyEmailPage.ButtonDisabled | web_app/src/pages/VerifyEmail.js:95-100 | disabled exactly while cooling down or loading; an enabled button reads "Resend verification email", and any other label means disabled |
| VerifyEmailPage.StartResend | web_app/src/pages/VerifyEmail.js:25-34 | a missing or empty username is an error; a request goes out iff there is a username and no cooldown, and only then does loading start |
| VerifyEmailPage.FinishResend | web_app/src/pages/VerifyEmail.js:46-58 | success starts the 30-second cooldown, failure keeps the old one, and loading always stops |
| VerifyEmailPage.ResendCooldownLasts | web_app/src/pages/VerifyEmail.js:52-58 | after a successful resend the button stays disabled for exactly 30 ticks |
| VerifyEmailPage.ClickDuringCooldownIsIgnored | web_app/src/pages/VerifyEmail.js:31 | a click while cooling down sends nothing and changes nothing |
| CustomerForm.Required | web_app/src/pages/AddCustomer.js:62 | a required field passes iff it is non-empty and within its limit |
| CustomerForm.Optional | web_app/src/pages/AddCustomer.js:92 | an optional field passes iff it is within its limit |
| CustomerForm.StateChoice | web_app/src/pages/AddCustomer.js:9-27 | the state passes iff it is cleared or one of the fifty listed codes |
| CustomerForm.EmailRule | web_app/src/pages/AddCustomer.js:83 | the e-mail passes iff it is non-empty and well-formed |
| CustomerForm.NoProblemsIffAcceptable | web_app/src/pages/AddCustomer.js:59-148 | the form reports no problem iff every field meets its rule |
| CustomerForm.Submit | web_app/src/pages/AddCustomer.js:33-37 | the customer is posted, unchanged, iff every rule passes |
| CustomerForm.FirstNameLimit | web_app/src/pages/AddCustomer.js:62 | the 24-character limit is inclusive and an empty first name is reported missing |
| Reviews.ValidateRating | reviews/serializers.py:10-13 | accepted, unchanged, iff 1 <= rating <= 5 |
| Reviews.Validate | reviews/serializers.py:4-18 | the field validators derived from reviews/models.py:5-9 run first and report every fault at once: a missing rating on a full write, a rating outside 1..5, a name over 255 characters, a URL over 200 characters or refused by the URL validator; accepted iff none applies and the comment is absent or at most 1000 characters; a null comment on otherwise valid data raises |
| Reviews.NullCommentCrashes | reviews/serializers.py:16 | a null comment with a valid rating raises as written and passes when corrected |
| Reviews.ValidateFixed | reviews/serializers.py:15-18 | the corrected check never raises and refuses only a field fault or a comment over 1000 characters |
| Reviews.ValidateFixedAgrees | reviews/serializers.py:15-18 | on every input without a null comment the corrected check gives the written one's answer |
| Reviews.BoundsAreInclusive | reviews/serializers.py:10-18 | ratings 1 and 5, a 255-character name and a 1000-character comment pass; 0, 6, a 256-character name and 1001 characters do not; a full write needs a rating and a partial one does not |
| Reviews.Merge | reviews/serializers.py:24-27 | an absent field keeps the old value, a given one (null included) replaces it |
| Reviews.Update | reviews/serializers.py:23-29 | given fields change, absent ones keep their values, and the read-only id and time never change |
| Reviews.UpdateIsIdempotent | reviews/serializers.py:23-29 | an empty body changes nothing, and the same body applied twice is applied once |
| Reviews.ValidatedUpdateKeepsRatingInRange | reviews/serializers.py:10-25 | a validated update keeps the stored rating in 1..5 |
| Clock.FormatHHMM | appointments/scheduling.py:55 | five characters `HH:MM` whose two numbers read back as the time of day |
| Clock.FormatHHMMInjective | appointments/scheduling.py:55 | two times of day render the same `HH:MM` text iff they are the same time |
| Clock.Hour12 | appointments/scheduling.py:56 | the `%I` hour lies in 1..12 and agrees with the 24-hour hour modulo 12 |
| Clock.FormatLabel | appointments/scheduling.py:56 | `hh:MM AM/PM`: the twelve-hour hour and the minute read back, AM iff before noon |
| Dates.AddDays | handyman/views.py:50-51 | a valid date exactly n days away on the ordinal scale |
| Dates.Ordinal | handyman/views.py:50-51 | `date.toordinal()`: at least 1, after every day of the earlier years and within its own year |
| Dates.Weekday | handyman/views.py:50 | `date.weekday()`: in 0..6, with 1 January of year 1 a Monday |
| Dates.WeekdayOfNextDay | handyman/views.py:50 | the next day's weekday is the following one, Sunday wrapping to Monday |
| Dates.OrdinalInjective | handyman/views.py:53-55 | distinct dates have distinct ordinals, so the `__range` filters compare dates by ordinal |

## Left out

- E-mail sending, PDF layout, Firebase push and the Google review and business-info fetches: foreign I/O. Only the decisions around them are modelled. The two reschedule views' e-mail calls are modelled as far as they fail: their arguments do not match the callee, so they raise before any mail is sent.
- WebSocket transport and the channel layer: `Notifications` models the frames and the group names, not their delivery.
- `safe_group`'s SHA-256 is the uninterpreted parameter `hexdigest`; only its output of 64 hexadecimal digits is assumed.
- `decodeURIComponent` is the parameter `decode`, and the e-mail format check of the add-customer form is the parameter `isEmail`.
- Password hashing is the parameter `checkPassword`, and token and verification-key generation are fresh values passed in.
- Time zones: every date and time is local, and `timezone.now()` is the input `today` or `now`.
- Ordering clauses (`order_by`) are not modelled: table sequences are taken in the order the query would return them.
- The monthly revenue charts of the dashboard, its weekly review count and `weekly_data`: ORM aggregation and chart shaping. The review count has the same shape as the modelled sign-up count.
- Floating-point displays: `toFixed` currency text, the average rating and the chart conversions.
- The 150 ms delay before the menu drawer closes: it changes no state the model observes.
- Invoice numbering takes the day's invoice count as an input. The `select_for_update` race is concurrency.
- The internals of `save(update_fields=...)`: a save writes the whole record, except in `InvoiceSignals`, which models which saves recalculate.
- Rendering-only pages and components, configuration, management commands, and the unused `invoices/permissions.py` predicate.
- Strings.Trim: strips the six ASCII whitespace characters only, while Python's `str.strip()` and JavaScript's `trim()` also strip other Unicode spaces.
- Invoices.PartTotal and Invoices.LaborTotal carry no contract of their own. Their meaning is stated by the recalculation and line-save members that sum them.
- Users.PrepareSave: models `CustomUser.save` for an account that already has a primary key. The first save of a new account, where `self.pk` is unset and the confirmation flag is kept, is covered by the account-creation members instead.
- Invoices.DaysUntilDue: models the serializer's guarded version, which returns null without a due date. The model method it calls raises in that case.
- LineItems.ArrayMove: models the `arrayMove` of web_app/src/pages/Invoice.js. The copies under `components/invoice/` are the same handler and are not modelled separately.
- Appointments.FullClean: the EmailValidator's syntax check on `customer_email` is not modelled; only the field's non-emptiness and its 254-character limit are.
- Strings.Lower: lower-cases ASCII letters only, while Python's `str.lower()` and JavaScript's `toLowerCase()` also map other Unicode letters.
- Reviews.Validate: the comment and the reviewer name are measured as sent. DRF's `CharField` first strips surrounding whitespace (`trim_whitespace`), so a value padded past its limit is accepted by the program and refused by the model. The URL validator's pattern is the parameter `isUrl`. A JSON null for `rating`, and values of the wrong JSON type, are not representable in the input and so not modelled.
- Notifications.ValidGroupName: the channel layer's pattern uses Python's `\d`, which also admits non-ASCII Unicode digits; the model admits ASCII digits only.
- Invoices.RecalculateAmount: a sum of more than ten digits, which the amount column (`max_digits=10`) cannot hold, is stored like any other; the database error on that save is not modelled.
- InvoiceViews.Update: the serializer's `DecimalField` also refuses an amount with more than two decimal places; the model checks only the ten-digit bound.
- Users.UserQueryset and Users.DestroyUser take a signed-in caller. The 401 that token authentication gives a caller without a valid token is modelled in Users.VerifyAuthToken, Msgs.Gate and the message endpoints only.
- Handyman.DashboardView: takes only the caller's superuser flag, so an anonymous caller or a bad token gets the model's 403, where token authentication answers 401.
- LineItems.DragEnd: models the drag handlers' `onDragEnd` as written. No row of the invoice tables is made sortable (`useSortable` is never called), so as the pages stand no drag starts and the handlers do not fire.
- Notifications.Publish: takes notifications/ws.py as importable. As written it imports `Device`, which notifications/models.py does not declare, and reads `notification.invoice`, which the model lacks; both fail before the group send, and neither is modelled.
- MessagePages.FileIcon: a name without a dot is its own extension, as `split(".").pop()` gives, so a file named "pdf" gets the PDF icon.
- Scheduling.BookedTimes: times of day are whole minutes throughout (`Clock`). `requested_time` is a `TimeField` (appointments/models.py:76) and can hold seconds. appointments/scheduling.py:44-52 compares exact time values, so a row accepted at 10:00:30 does not block the 10:00 slot. The model cannot express such a row.
- Notifications.TimeSince: ages are whole microseconds, as `timedelta` counts them. Only the bucket boundaries matter.

## Findings

| source | as written | input that shows it | evidently intended | confidence | as-written member | corrected member |
|---|---|---|---|---|---|---|
| invoices/signals.py:51-53 | `amount = instance.recalculate_amount()` takes the return value, and `recalculate_amount` returns nothing, so `update(amount=amount)` writes NULL | any plain save of an existing invoice (an update through the API, `mark_as_paid`) stores a NULL amount, and applying a payment to it afterwards raises | keep the amount `recalculate_amount` has just stored | not executed | InvoiceSignals.FullSaveNullsAmount | InvoiceSignals.FixedSignalKeepsAmount |
| web_app/src/pages/Invoice.js:289-305 | the labor drag handler looks the dragged ids up in `invoice.parts` and reorders and patches parts; the defect is latent, since no row is made sortable (`useSortable` is never called) and the handler does not fire as the page stands | labor rows with ids 1 and 2 and no such part ids: `findIndex` gives -1 for both, and the last two parts swap | reorder the labor rows and patch the labor endpoint | not executed | LineItems.LaborDragSwapsLastTwoParts | LineItems.LaborDragFixed |
| notifications/models.py:21 | the 20-59 s bucket is a plain string, not an f-string | ages of 21 s and 58 s give the same text, with the braces left in | print the whole seconds elapsed | not executed | Notifications.SecondsBucketIsConstant | Notifications.TimeSinceFixed |
| web_app/src/context/NotificationContext.js:26-29 | `markRead` lowers the unread counter whatever the id | one unread notification with id 1, then `markRead(2)`: the badge shows 0 with one unread entry | lower the counter only when an unread entry has the id | not executed | NotificationStore.MarkReadAbsentIdDesyncs | NotificationStore.MarkReadFixed |
| notifications/consumers.py:10-15 | the consumer joins the URL segment as its group, and the client puts its raw e-mail there (web_app/src/context/NotificationContext.js:52); `push_notification` (notifications/ws.py:12) names the raw e-mail as well | any e-mail, which always holds an `@`: the channel layer accepts only letters, digits, `-`, `_` and `.` in a group name, so the socket's connect fails | use the safe group of notifications/consumers.py:5-6 on both sides | not executed | NotificationStore.RawEmailGroupIsRejected | NotificationStore.FixedGroupsMeet |
| web_app/src/hooks/useUndoSnackbar.js:31-37 | UNDO on an older message clears `pendingRef` even when it holds a newer timer | delete, delete, UNDO on the first message, delete: two commits are waiting | clear `pendingRef` only when it holds the clicked message's own timer | not executed | UndoSnackbar.StaleUndoLeavesTwoPending | UndoSnackbar.RunFixedKeepsOnePending |
| handyman/views.py:55 | `created_at__range=[week_start, week_end]` on a date-time column reads `week_end` as its midnight | a customer who signs up at 10:00 on the week's Sunday is not in `weekly_customers`; latent, since no URL pattern routes the dashboard view | count every moment of the seven days | not executed | Handyman.SundayAfterMidnightIsMissed | Handyman.WeeklyCountsFixed |
| reviews/serializers.py:16 | `len(data['comment'])` is taken of an explicit null comment | a review with rating 5 and `"comment": null` raises a TypeError, a 500; latent, since no URL pattern routes the review viewset | measure only a present comment | not executed | Reviews.NullCommentCrashes | Reviews.ValidateFixed |
| handyman/views.py:71 | `today.replace(year=today.year-1)` has no answer on 29 February, since the year before has no such day | a superuser opening the dashboard on 29 February 2028: `replace` raises, a 500; latent, since no URL pattern routes the dashboard view | bound the chart at 28 February of the year before | not executed | Handyman.LeapDayDashboardFails | Handyman.DashboardViewFixed |
| invoices/views.py:18-42 | `create_invoice_notification` passes `invoice=` and `type=` (and sometimes `user=`), which the `Notification` model of notifications/models.py:3-6 does not declare | a superuser deleting any invoice: the model's constructor raises before `instance.delete()`, a 500, and nothing is deleted | create the notice against a model that has those columns | not executed | InvoiceViews.DestroyFailsWhereFixedSucceeds | InvoiceViews.DestroyFixed |
| web_app/src/hooks/useUndoSnackbar.js:8-11 | a new `showUndo` clears the pending timer without running its `onCommit` | delete row A, delete row B within five seconds, let both messages close: A is hidden in the table but never deleted on the server | commit the superseded deletion when it is superseded | not executed | UndoSnackbar.SupersededDeletionIsLost | UndoSnackbar.RunFixedAccountsForEveryDeletion |
| appointments/views.py:66-78 | after the save, `send_appointment_email(subject=…, message=…, recipient=…)` is called, but appointments/utils.py:23 takes only the appointment and `accepted` | any public reschedule to an offered time: the row is saved with the new date, time and status P, then TypeError gives a 500 | send the reschedule e-mail with a matching call and answer "rescheduled" | not executed | AppointmentViews.PublicRescheduleOfferedTimeSavesThenFails | AppointmentViews.PublicRescheduleOfferedTimeSucceeds |
| appointments/views.py:213-227 | after the committed save, Django's `send_mail` is called with `recipient=`, where it expects `recipient_list` | any admin reschedule to an offered time: the row is committed with the new date, time and status P, then TypeError gives a 500 | pass `recipient_list=[…]` and answer "rescheduled" | not executed | AppointmentViews.RescheduleOfferedTimeSavesThenFails | AppointmentViews.RescheduleOfferedTimeSucceeds |
| handyman/urls.py:44 | `/auth/` routes the framework's `ObtainAuthToken`, and the `CustomAuthToken` of handyman/views.py:21-37, which refuses an unconfirmed e-mail, is routed nowhere | an active account whose e-mail was changed through the user endpoint, so that `CustomUser.save` dropped its confirmation, posts valid credentials to `/auth/` and receives a token | route `CustomAuthToken` at `/auth/` | not executed | Handyman.RoutedLoginIgnoresConfirmation | Handyman.TokenLogin |

=== FILE: api_client.dfy ===
/** The shared HTTP client of web_app/src/components/axios.js: reading a cookie from
    `document.cookie` and the headers the request interceptor adds. */
module ApiClient {
  import opened Wrappers
  import opened Strings
  import Seqs

  /** JavaScript truthiness of a possibly missing string: present and non-empty. */
  predicate Truthy(s: Option<string>) {
    s.Some? && s.value != ""
  }

  /** The cookie entries of `document.cookie`, each trimmed. */
  function Entries(cookie: string): (r: seq<string>)
    ensures |r| == |Split(cookie, ';')|
    ensures forall i :: 0 <= i < |r| ==> r[i] == Trim(Split(cookie, ';')[i])
  {
    var parts := Split(cookie, ';');
    seq(|parts|, i requires 0 <= i < |parts| => Trim(parts[i]))
  }

  /** The index of the first entry that starts with `name=`, or -1. */
  function FirstWithPrefix(entries: seq<string>, prefix: string): (r: int)
    ensures -1 <= r < |entries|
    ensures r >= 0 ==> StartsWith(entries[r], prefix) && forall j :: 0 <= j < r ==> !StartsWith(entries[j], prefix)
    ensures r == -1 <==> forall j :: 0 <= j < |entries| ==> !StartsWith(entries[j], prefix)
  {
    Seqs.FindIndex(entries, (e: string) => StartsWith(e, prefix))
  }

  /** `getCookie(name)`: nothing when `document.cookie` is missing or empty; otherwise the
      decoded text after `name=` in the first trimmed entry that starts with it.
      `decodeURIComponent` is the parameter `decode`. */
  function GetCookie(cookie: Option<string>, name: string, decode: string -> string): (r: Option<string>)
    ensures !Truthy(cookie) ==> r.None?
    ensures Truthy(cookie) ==> var es := Entries(cookie.value);
      && (r.None? <==> forall j :: 0 <= j < |es| ==> !StartsWith(es[j], name + "="))
      && (r.Some? ==> exists j :: 0 <= j < |es| && StartsWith(es[j], name + "=")
                        && (forall i :: 0 <= i < j ==> !StartsWith(es[i], name + "="))
                        && r.value == decode(es[j][|name| + 1..]))
  {
    if !Truthy(cookie) then None
    else
      var es := Entries(cookie.value);
      var k := FirstWithPrefix(es, name + "=");
      if k < 0 then None else Some(decode(es[k][|name| + 1..]))
  }

  /** An entry whose name merely begins with the queried name, continuing with anything
      but '=', is not that cookie: the value read is never taken from it, and when no
      other entry starts with `name=` there is no value at all. */
  lemma LongerNameIsNotMatched(cookie: Option<string>, name: string, decode: string -> string, j: nat)
    requires Truthy(cookie) && j < |Entries(cookie.value)|
    requires var e := Entries(cookie.value)[j]; StartsWith(e, name) && |e| > |name| && e[|name|] != '='
    ensures var es, r := Entries(cookie.value), GetCookie(cookie, name, decode);
            r.Some? ==> exists k :: 0 <= k < |es| && k != j && StartsWith(es[k], name + "=")
                                    && r.value == decode(es[k][|name| + 1..])
    ensures var es := Entries(cookie.value);
            (forall k :: 0 <= k < |es| && k != j ==> !StartsWith(es[k], name + "="))
            ==> GetCookie(cookie, name, decode).None?
  {
    var es := Entries(cookie.value);
    LongerNameEntry(es[j], name);
    var r := GetCookie(cookie, name, decode);
    if r.Some? {
      var k :| 0 <= k < |es| && StartsWith(es[k], name + "=")
               && (forall i :: 0 <= i < k ==> !StartsWith(es[i], name + "="))
               && r.value == decode(es[k][|name| + 1..]);
      assert k != j;
    }
  }

  /** An entry that continues past the name with anything but '=' does not start with
      `name=`. */
  lemma LongerNameEntry(e: string, name: string)
    requires |e| > |name| && e[|name|] != '='
    ensures !StartsWith(e, name + "=")
  {
    assert e[..|name| + 1] != name + "=" by {
      assert e[..|name| + 1][|name|] == e[|name|];
    }
  }

  /** A cookie string holding one entry yields its value exactly when the entry starts
      with `name=`. */
  lemma SingleCookie(s: string, name: string, decode: string -> string)
    requires |s| > 0 && !IsSpace(s[0]) && !IsSpace(s[|s| - 1])
    requires forall i :: 0 <= i < |s| ==> s[i] != ';'
    ensures GetCookie(Some(s), name, decode)
         == if StartsWith(s, name + "=") then Some(decode(s[|name| + 1..])) else None
  {
    OneEntry(s);
  }

  /** A cookie string with no ';' is one entry. */
  lemma OneEntry(s: string)
    requires |s| > 0 && !IsSpace(s[0]) && !IsSpace(s[|s| - 1])
    requires forall i :: 0 <= i < |s| ==> s[i] != ';'
    ensures Entries(s) == [s]
  {
    BeforeFirstAbsent(s, ';');
    TrimmedAlready(s);
  }

  lemma {:induction false} BeforeFirstAbsent(s: string, c: char)
    requires forall i :: 0 <= i < |s| ==> s[i] != c
    ensures BeforeFirst(s, c) == s
  {
    if |s| > 0 {
      BeforeFirstAbsent(s[1..], c);
    }
  }

  lemma TrimmedAlready(s: string)
    requires |s| > 0 && !IsSpace(s[0]) && !IsSpace(s[|s| - 1])
    ensures Trim(s) == s
  {
    assert TrimStart(s) == s;
  }

  /** Request methods that carry no CSRF token, matched without regard to case. */
  predicate IsSafeMethod(verb: string) {
    var m := Lower(verb);
    m == "get" || m == "head" || m == "options" || m == "trace"
  }

  /** The headers with `Authorization: Token <t>` added when a token is stored. */
  function WithAuthorization(headers: map<string, string>, storedToken: Option<string>): (r: map<string, string>)
    ensures Truthy(storedToken) ==> "Authorization" in r && r["Authorization"] == "Token " + storedToken.value
    ensures !Truthy(storedToken) ==> r == headers
    ensures forall h :: h in headers && h != "Authorization" ==> h in r && r[h] == headers[h]
    ensures forall h :: h in r ==> h in headers || h == "Authorization"
  {
    if Truthy(storedToken) then headers["Authorization" := "Token " + storedToken.value] else headers
  }

  /** The headers with `X-CSRFToken` added for an unsafe method when the cookie has a value. */
  function WithCsrf(headers: map<string, string>, verb: string, csrf: Option<string>): (r: map<string, string>)
    ensures !IsSafeMethod(verb) && Truthy(csrf) ==> "X-CSRFToken" in r && r["X-CSRFToken"] == csrf.value
    ensures IsSafeMethod(verb) || !Truthy(csrf) ==> r == headers
    ensures forall h :: h in headers && h != "X-CSRFToken" ==> h in r && r[h] == headers[h]
    ensures forall h :: h in r ==> h in headers || h == "X-CSRFToken"
  {
    if !IsSafeMethod(verb) && Truthy(csrf) then headers["X-CSRFToken" := csrf.value] else headers
  }

  /** The request interceptor: `Authorization: Token <t>` when a token is stored, and
      `X-CSRFToken` on unsafe methods when the `csrftoken` cookie has a value; every
      other header is left as it was. Reading the cookie has no effect, so reading it
      for every method is the same as reading it only for unsafe ones. */
  function Intercept(headers: map<string, string>, storedToken: Option<string>, verb: string, cookie: Option<string>, decode: string -> string): (r: map<string, string>)
    ensures Truthy(storedToken) ==> "Authorization" in r && r["Authorization"] == "Token " + storedToken.value
    ensures !Truthy(storedToken) ==> ("Authorization" in r <==> "Authorization" in headers)
    ensures !IsSafeMethod(verb) && Truthy(GetCookie(cookie, "csrftoken", decode)) ==>
              "X-CSRFToken" in r && r["X-CSRFToken"] == GetCookie(cookie, "csrftoken", decode).value
    ensures IsSafeMethod(verb) || !Truthy(GetCookie(cookie, "csrftoken", decode)) ==> ("X-CSRFToken" in r <==> "X-CSRFToken" in headers)
    ensures forall h :: h in headers && h != "Authorization" && h != "X-CSRFToken" ==> h in r && r[h] == headers[h]
    ensures forall h :: h in r ==> h in headers || h == "Authorization" || h == "X-CSRFToken"
  {
    WithCsrf(WithAuthorization(headers, storedToken), verb, GetCookie(cookie, "csrftoken", decode))
  }

  /** The method's letter case does not matter. */
  lemma MethodCaseIgnored(headers: map<string, string>, token: Option<string>, verb: string, cookie: Option<string>, decode: string -> string)
    ensures Intercept(headers, token, verb, cookie, decode) == Intercept(headers, token, Lower(verb), cookie, decode)
  {
    LowerIdempotent(verb);
  }
}

=== FILE: appointment_calendar.dfy ===
/** The admin day calendar (web_app/src/pages/Appointments.js): hour rows from 09:00 to
    19:00, one box per accepted appointment on the picked day, placed by its start and
    sized by its length, coloured by status. Pixel values are exact here; the page
    computes them in floating point. */
module AppointmentCalendar {
  import opened Wrappers
  import Dates
  import Clock
  import Seqs
  import Appointments
  import Scheduling
  import AppointmentSerializers
  import AppointmentViews

  const StartHour: int := 9
  const EndHour: int := 19
  const HourHeight: int := 60

  /** The hour labels of the grid: `END_HOUR - START_HOUR` rows from `START_HOUR`. */
  function Hours(): (r: seq<int>)
    ensures |r| == EndHour - StartHour
    ensures forall i :: 0 <= i < |r| ==> r[i] == StartHour + i
  {
    seq(EndHour - StartHour, i => StartHour + i)
  }

  /** The grid's rows are exactly the weekday opening hours: every hour a Monday-to-Friday
      slot can start in has a row, and no row lies outside them. */
  lemma HoursAreWeekdayHours(h: int)
    ensures h in Hours() <==> Scheduling.BusinessHours(0).0 <= h * 60 < Scheduling.BusinessHours(0).1
  {
    if 9 <= h < 19 {
      assert Hours()[h - 9] == h;
    }
  }

  /** What the page receives for an appointment: id, start, end and status code. */
  datatype Entry = Entry(id: Option<nat>, start: AppointmentSerializers.DateTime,
                         end: AppointmentSerializers.DateTime, accepted: string)

  function Serialize(a: Appointments.Appointment): (r: Entry)
    requires Appointments.FieldsValid(a)
    ensures AppointmentSerializers.ValidDateTime(r.start) && AppointmentSerializers.ValidDateTime(r.end)
  {
    Entry(a.pk, AppointmentSerializers.Start(a), AppointmentSerializers.End(a), Appointments.StatusCode(a.status))
  }

  /** `top`: (hour + minute / 60 - START_HOUR) * HOUR_HEIGHT. */
  function Top(e: Entry): (r: int)
    requires AppointmentSerializers.ValidDateTime(e.start)
    ensures r == e.start.minute - StartHour * 60
  {
    var h, m := e.start.minute / 60, e.start.minute % 60;
    ((h * 60 + m) - StartHour * 60) * HourHeight / 60
  }

  /** `height`: the minutes from start to end times HOUR_HEIGHT / 60. */
  function Height(e: Entry): (r: int)
    requires AppointmentSerializers.ValidDateTime(e.start) && AppointmentSerializers.ValidDateTime(e.end)
    ensures r == AppointmentSerializers.AbsMinutes(e.end) - AppointmentSerializers.AbsMinutes(e.start)
  {
    (AppointmentSerializers.AbsMinutes(e.end) - AppointmentSerializers.AbsMinutes(e.start)) * (HourHeight / 60)
  }

  /** Every appointment box is one hour, 60 pixels, tall. */
  lemma SerializedHeight(a: Appointments.Appointment)
    requires Appointments.FieldsValid(a)
    ensures Height(Serialize(a)) == 60
  {
  }

  /** An appointment booked on an offered slot is drawn inside the grid: its box starts
      at or below the first row and ends at or above the bottom of the last. */
  lemma OfferedSlotsFitGrid(blackouts: set<Dates.Date>, table: seq<Appointments.Appointment>, d: Dates.Date,
                            exclude: Option<nat>, a: Appointments.Appointment)
    requires Appointments.FieldsValid(a) && a.date == d
    requires a.time in Scheduling.AvailableTimes(blackouts, table, d, exclude)
    ensures 0 <= Top(Serialize(a))
    ensures Top(Serialize(a)) + Height(Serialize(a)) <= |Hours()| * HourHeight
  {
    Scheduling.AvailableTimesExactly(blackouts, table, d, exclude, a.time);
  }

  /** `dayAppointments`: entries whose start falls on the picked day. */
  function DayEntries(entries: seq<Entry>, day: Dates.Date): (r: seq<Entry>)
    ensures forall e :: e in r <==> e in entries && e.start.date == day
  {
    Seqs.Filter(entries, (e: Entry) => e.start.date == day)
  }

  const AcceptedColour: string := "#f6ffed"
  const PendingColour: string := "#fffbe6"
  const OtherColour: string := "#fff1f0"

  /** Box background: green for "A", yellow for "P", red for anything else. */
  function Colour(code: string): string {
    if code == "A" then AcceptedColour else if code == "P" then PendingColour else OtherColour
  }

  /** The three statuses get three different colours, and any code that is not a
      status at all shares the declined colour. */
  lemma ColourByStatus(s: Appointments.Status, code: string)
    ensures Colour(Appointments.StatusCode(s)) == AcceptedColour <==> s == Appointments.Accepted
    ensures Colour(Appointments.StatusCode(s)) == PendingColour <==> s == Appointments.Pending
    ensures Appointments.ParseStatus(code).None? ==> Colour(code) == Colour(Appointments.StatusCode(Appointments.Declined))
  {
  }

  /** The calendar's entries: the list endpoint queried with `?status=A`. */
  function CalendarEntries(table: seq<Appointments.Appointment>): (r: seq<Entry>)
    requires AppointmentViews.RowsValid(table)
  {
    var rows := AppointmentViews.ListQuery(table, Some("A"), AppointmentViews.Missing, AppointmentViews.Missing).value;
    seq(|rows|, i requires 0 <= i < |rows| => Serialize(rows[i]))
  }

  /** The calendar holds exactly the accepted appointments, so every box is green;
      pending requests appear only in the separate pending list. */
  lemma CalendarShowsAccepted(table: seq<Appointments.Appointment>)
    requires AppointmentViews.RowsValid(table)
    ensures forall e :: e in CalendarEntries(table) ==> Colour(e.accepted) == AcceptedColour
    ensures forall a :: a in table && a.status == Appointments.Accepted ==> Serialize(a) in CalendarEntries(table)
  {
    CalendarEntriesAreGreen(table);
    AcceptedAreOnCalendar(table);
  }

  lemma CalendarEntriesAreGreen(table: seq<Appointments.Appointment>)
    requires AppointmentViews.RowsValid(table)
    ensures forall e :: e in CalendarEntries(table) ==> Colour(e.accepted) == AcceptedColour
  {
    var rows := AppointmentViews.ListQuery(table, Some("A"), AppointmentViews.Missing, AppointmentViews.Missing).value;
    var r := CalendarEntries(table);
    forall e | e in r ensures Colour(e.accepted) == AcceptedColour {
      var i :| 0 <= i < |r| && r[i] == e;
      assert rows[i] in rows;
      assert AppointmentViews.ListKeeps(Some("A"), AppointmentViews.Missing, AppointmentViews.Missing, rows[i]);
    }
  }

  lemma AcceptedAreOnCalendar(table: seq<Appointments.Appointment>)
    requires AppointmentViews.RowsValid(table)
    ensures forall a :: a in table && a.status == Appointments.Accepted ==> Serialize(a) in CalendarEntries(table)
  {
    var rows := AppointmentViews.ListQuery(table, Some("A"), AppointmentViews.Missing, AppointmentViews.Missing).value;
    var r := CalendarEntries(table);
    forall a | a in table && a.status == Appointments.Accepted ensures Serialize(a) in r {
      assert AppointmentViews.ListKeeps(Some("A"), AppointmentViews.Missing, AppointmentViews.Missing, a);
      var i :| 0 <= i < |rows| && rows[i] == a;
      assert r[i] == Serialize(a);
    }
  }
}

=== FILE: appointment_permissions.dfy ===
/** `IsAdminOrReadCreateOnly` (appointments/permissions.py) and the HTTP methods the
    appointment endpoints use (appointments/views.py). */
module AppointmentPermissions {

  /** The requester as the permission check sees it; an anonymous requester is neither
      staff nor superuser. */
  datatype Requester = Requester(authenticated: bool, isStaff: bool, isSuperuser: bool)

  /** `has_permission`: GET and POST for everyone, any other method for staff only. */
  function HasPermission(verb: string, user: Requester): (r: bool)
    ensures verb == "GET" || verb == "POST" ==> r
    ensures !r ==> !user.isStaff
  {
    if verb in ["GET", "POST"] then true else user.isStaff
  }

  /** The endpoints of the appointment view set. */
  datatype Endpoint =
    | List | Retrieve | Create | Update | PartialUpdate | Destroy
    | Accept | Decline | PendingList | AcceptedList | AvailableSlots | Reschedule

  /** The HTTP method each endpoint is routed for; accept, decline and reschedule are
      POST actions. */
  function MethodOf(e: Endpoint): string {
    match e
    case List => "GET"
    case Retrieve => "GET"
    case Create => "POST"
    case Update => "PUT"
    case PartialUpdate => "PATCH"
    case Destroy => "DELETE"
    case Accept => "POST"
    case Decline => "POST"
    case PendingList => "GET"
    case AcceptedList => "GET"
    case AvailableSlots => "GET"
    case Reschedule => "POST"
  }

  /** Only updates and deletion are restricted; since accepting, declining and
      rescheduling are POST actions, any caller, anonymous included, may perform them. */
  lemma OnlyEditsNeedStaff(e: Endpoint, user: Requester)
    ensures !HasPermission(MethodOf(e), user) <==> !user.isStaff && e in {Update, PartialUpdate, Destroy}
  {
  }

  /** The decision reads `is_staff` only: superuser status neither grants nor denies. */
  lemma SuperuserIrrelevant(verb: string, user: Requester, superuser: bool, authenticated: bool)
    ensures HasPermission(verb, user) == HasPermission(verb, user.(isSuperuser := superuser, authenticated := authenticated))
  {
  }
}

=== FILE: appointment_serializers.dfy ===
/** The computed fields of the appointment serializers (appointments/serializers.py):
    the customer's full name, the start and end instants, and the public view shown on
    the reschedule page. Time zones are not modelled: instants are local date-times. */
module AppointmentSerializers {
  import opened Wrappers
  import Strings
  import Dates
  import Clock
  import Appointments

  /** A local date-time: a civil date and minutes after midnight. */
  datatype DateTime = DateTime(date: Dates.Date, minute: int)

  predicate ValidDateTime(t: DateTime) {
    Dates.Valid(t.date) && Clock.IsTimeOfDay(t.minute)
  }

  /** Minutes since the start of day 1 of the proleptic calendar. */
  function AbsMinutes(t: DateTime): int
    requires ValidDateTime(t)
  {
    Dates.Ordinal(t.date) * (24 * 60) + t.minute
  }

  /** Distinct valid date-times are distinct instants. */
  lemma AbsMinutesInjective(s: DateTime, t: DateTime)
    requires ValidDateTime(s) && ValidDateTime(t)
    requires AbsMinutes(s) == AbsMinutes(t)
    ensures s == t
  {
    DayMinuteUnique(Dates.Ordinal(s.date), s.minute, Dates.Ordinal(t.date), t.minute);
    Dates.OrdinalInjective(s.date, t.date);
  }

  /** A count of minutes splits into whole days and a minute of the day in one way only. */
  lemma DayMinuteUnique(d1: int, m1: int, d2: int, m2: int)
    requires 0 <= m1 < 24 * 60 && 0 <= m2 < 24 * 60
    requires d1 * (24 * 60) + m1 == d2 * (24 * 60) + m2
    ensures d1 == d2 && m1 == m2
  {
    if d1 < d2 {
      DaysApart(d1, d2);
    } else if d2 < d1 {
      DaysApart(d2, d1);
    }
  }

  lemma DaysApart(a: int, b: int)
    requires a < b
    ensures a * (24 * 60) + 24 * 60 <= b * (24 * 60)
  {
    assert b * (24 * 60) == a * (24 * 60) + (b - a) * (24 * 60);
  }

  /** `datetime + timedelta(minutes=n)` for a non-negative n below one day. */
  function AddMinutes(t: DateTime, n: int): (r: DateTime)
    requires ValidDateTime(t) && 0 <= n < 24 * 60
    ensures ValidDateTime(r)
    ensures AbsMinutes(r) == AbsMinutes(t) + n
  {
    if t.minute + n < 24 * 60 then DateTime(t.date, t.minute + n)
    else
      var next := Dates.NextDay(t.date);
      NextDayMinutes(Dates.Ordinal(t.date), t.minute + n);
      DateTime(next, t.minute + n - 24 * 60)
  }

  lemma NextDayMinutes(d: int, m: int)
    ensures (d + 1) * (24 * 60) + (m - 24 * 60) == d * (24 * 60) + m
  {
  }

  /** `get_customer_full_name`: first name, one space, last name. */
  function FullName(a: Appointments.Appointment): (r: string)
    ensures |r| == |a.firstName| + 1 + |a.lastName|
    ensures r[..|a.firstName|] == a.firstName && r[|a.firstName|] == ' ' && r[|a.firstName| + 1..] == a.lastName
  {
    var r := a.firstName + " " + a.lastName;
    assert r[..|a.firstName|] == a.firstName;
    assert r[|a.firstName| + 1..] == a.lastName;
    r
  }

  /** Knowing where the first name ends, the full name gives back both names. */
  lemma FullNameDeterminesNames(a: Appointments.Appointment, b: Appointments.Appointment)
    requires FullName(a) == FullName(b) && |a.firstName| == |b.firstName|
    ensures a.firstName == b.firstName && a.lastName == b.lastName
  {
  }

  /** A first name without spaces is read back as the text before the first space, and
      the last name as everything after it. */
  lemma FullNameSplits(a: Appointments.Appointment)
    requires forall i :: 0 <= i < |a.firstName| ==> a.firstName[i] != ' '
    ensures Strings.BeforeFirst(FullName(a), ' ') == a.firstName
    ensures FullName(a)[|a.firstName| + 1..] == a.lastName
  {
    var r := FullName(a);
    assert r[|a.firstName|] == ' ';
    assert r[..|a.firstName|] == a.firstName;
  }

  /** `get_start`: the requested date combined with the requested time. */
  function Start(a: Appointments.Appointment): (r: DateTime)
    ensures r.date == a.date && r.minute == a.time
  {
    DateTime(a.date, a.time)
  }

  /** `get_end`: one hour after the start, rolling over into the next day when needed. */
  function End(a: Appointments.Appointment): (r: DateTime)
    requires Appointments.FieldsValid(a)
    ensures ValidDateTime(r)
    ensures AbsMinutes(r) == AbsMinutes(Start(a)) + 60
  {
    AddMinutes(Start(a), 60)
  }

  /** `PublicAppointmentSerializer`: first name, requested date, requested time and
      description only. */
  datatype PublicAppointment = PublicAppointment(
    firstName: string, date: Dates.Date, time: int, description: Option<string>)

  function PublicView(a: Appointments.Appointment): (r: PublicAppointment)
  {
    PublicAppointment(a.firstName, a.date, a.time, a.description)
  }

  /** Two appointments look the same on the public page exactly when they agree on the
      four exposed fields; contact details, address, status and token never show. */
  lemma PublicViewExposesExactly(a: Appointments.Appointment, b: Appointments.Appointment)
    ensures PublicView(a) == PublicView(b) <==>
      a.firstName == b.firstName && a.date == b.date && a.time == b.time && a.description == b.description
  {
  }
}

=== FILE: appointment_views.dfy ===
/** The decision logic of the appointment endpoints (appointments/views.py): the public
    reschedule page, the list filters, available slots, the admin reschedule action and
    creation. E-mails are not modelled; the table and the blackout dates are inputs. */
module AppointmentViews {
  import opened Wrappers
  import Dates
  import Clock
  import Seqs
  import Appointments
  import Scheduling
  import AppointmentSerializers

  type Appointment = Appointments.Appointment

  /** A request parameter: missing or empty (falsy), present but rejected by its parser
      (`strptime` or the integer field), or parsed. */
  datatype Param<T> = Missing | Malformed | Parsed(value: T)

  /** What a parsed date or time can be: `strptime` yields only real dates and times. */
  predicate WellParsed(date: Param<Dates.Date>, time: Param<int>) {
    (date.Parsed? ==> Dates.Valid(date.value)) && (time.Parsed? ==> Clock.IsTimeOfDay(time.value))
  }

  /** The response of an endpoint: an error status, or its payload. `SavedThenFailed` is
      a request that raised after its save had committed: the client sees a 500 while the
      table already holds the moved row. */
  datatype Response =
    | Status(code: int)
    | SavedThenFailed(table: seq<Appointment>, row: Appointment)
    | Rescheduled(table: seq<Appointment>, row: Appointment)
    | PublicPage(view: AppointmentSerializers.PublicAppointment, slots: seq<Scheduling.Slot>)
    | SlotList(slots: seq<Scheduling.Slot>)

  /** Statuses the public reschedule link can still reach. */
  predicate Reschedulable(a: Appointment) {
    a.status == Appointments.Pending || a.status == Appointments.Accepted
  }

  /** `get_object_or_404(reschedule_token=token, accepted__in=["P", "A"])`. */
  function FindByToken(table: seq<Appointment>, token: nat): (r: Option<nat>)
    ensures r.Some? ==> r.value < |table| && table[r.value].rescheduleToken == token && Reschedulable(table[r.value])
    ensures r.None? ==> forall i :: 0 <= i < |table| && table[i].rescheduleToken == token ==> !Reschedulable(table[i])
  {
    if |table| == 0 then None
    else if table[|table| - 1].rescheduleToken == token && Reschedulable(table[|table| - 1]) then Some(|table| - 1)
    else FindByToken(table[..|table| - 1], token)
  }

  /** The slots offered when moving appointment `a` to `date`: its own booking does not
      block, because its id is excluded. */
  function SlotsFor(blackouts: set<Dates.Date>, table: seq<Appointment>, a: Appointment, date: Dates.Date): seq<Scheduling.Slot>
    requires Dates.Valid(date) && a.pk.Some?
  {
    Scheduling.GenerateTimeSlots(blackouts, table, date, Scheduling.ExcludeId(a.pk.value))
  }

  /** The update both reschedule paths make: new date and time, status back to pending. */
  function Moved(a: Appointment, date: Dates.Date, time: int): (r: Appointment)
    ensures r.date == date && r.time == time && r.status == Appointments.Pending
    ensures r.(date := a.date, time := a.time, status := a.status) == a
  {
    a.(date := date, time := time, status := Appointments.Pending)
  }

  /** A reschedule request that passed every check: the row to move, and where to. */
  datatype Move = Move(index: nat, date: Dates.Date, time: int)

  /** Save the moved row as both views are written. A validation error from `save` is not
      caught and becomes 500. After a successful save each view sends its e-mail with
      keywords the callee does not accept, which raises TypeError: nothing rolls the save
      back, so the row stays moved and the answer is 500. */
  function SaveMoved(table: seq<Appointment>, a: Appointment, date: Dates.Date, time: int, freshKey: nat): (r: Response)
    requires Appointments.FreshKey(table, freshKey)
    ensures r.Status? || r.SavedThenFailed?
    ensures r.Status? ==> r.code == 500
    ensures r.SavedThenFailed? <==> Appointments.Save(table, Moved(a, date, time), freshKey).Ok?
    ensures r.SavedThenFailed? ==> (r.table, r.row) == Appointments.Save(table, Moved(a, date, time), freshKey).value
  {
    match Appointments.Save(table, Moved(a, date, time), freshKey)
    case Ok((t, row)) => SavedThenFailed(t, row)
    case Err(_) => Status(500)
  }

  /** The same save with the e-mail call corrected: a successful save is answered as a
      reschedule. */
  function SaveMovedFixed(table: seq<Appointment>, a: Appointment, date: Dates.Date, time: int, freshKey: nat): (r: Response)
    requires Appointments.FreshKey(table, freshKey)
    ensures r.Status? || r.Rescheduled?
    ensures r.Status? ==> r.code == 500
    ensures r.Rescheduled? <==> Appointments.Save(table, Moved(a, date, time), freshKey).Ok?
    ensures r.Rescheduled? ==> (r.table, r.row) == Appointments.Save(table, Moved(a, date, time), freshKey).value
  {
    match Appointments.Save(table, Moved(a, date, time), freshKey)
    case Ok((t, row)) => Rescheduled(t, row)
    case Err(_) => Status(500)
  }

  /** `public_reschedule`, GET: the public view of the appointment and the slots of its
      current date. */
  function PublicRescheduleGet(blackouts: set<Dates.Date>, table: seq<Appointment>, token: nat): (r: Response)
    requires forall i :: 0 <= i < |table| ==> Dates.Valid(table[i].date) && table[i].pk.Some?
    ensures r.Status? <==> FindByToken(table, token).None?
    ensures r.Status? ==> r.code == 404
    ensures r.PublicPage? ==> (exists i :: 0 <= i < |table| && table[i].rescheduleToken == token && Reschedulable(table[i])
                                             && r.view == AppointmentSerializers.PublicView(table[i]))
  {
    match FindByToken(table, token)
    case None => Status(404)
    case Some(i) =>
      var a := table[i];
      PublicPage(AppointmentSerializers.PublicView(a), SlotsFor(blackouts, table, a, a.date))
  }

  /** The checks `public_reschedule` makes on a POST before it saves. A missing date or
      time is 400; a date or time that does not parse is an uncaught error (500); a time
      not offered is 400. */
  function PublicRescheduleChecks(blackouts: set<Dates.Date>, table: seq<Appointment>, token: nat,
                                  date: Param<Dates.Date>, time: Param<int>): (r: Result<Move, int>)
    requires WellParsed(date, time)
    requires forall i :: 0 <= i < |table| ==> table[i].pk.Some?
    ensures FindByToken(table, token).None? ==> r == Err(404)
    ensures FindByToken(table, token).Some? && (date.Missing? || time.Missing?) ==> r == Err(400)
    ensures FindByToken(table, token).Some? && !date.Missing? && !time.Missing? && (date.Malformed? || time.Malformed?) ==> r == Err(500)
    ensures FindByToken(table, token).Some? && date.Parsed? && time.Parsed?
            && time.value !in Scheduling.AvailableTimes(blackouts, table, date.value, Scheduling.ExcludeId(table[FindByToken(table, token).value].pk.value))
            ==> r == Err(400)
    ensures r.Ok? ==>
              && FindByToken(table, token) == Some(r.value.index)
              && date == Parsed(r.value.date) && time == Parsed(r.value.time)
              && r.value.time in Scheduling.AvailableTimes(blackouts, table, r.value.date, Scheduling.ExcludeId(table[r.value.index].pk.value))
  {
    match FindByToken(table, token)
    case None => Err(404)
    case Some(i) =>
      if date.Missing? || time.Missing? then Err(400)
      else if date.Malformed? || time.Malformed? then Err(500)
      else
        var a := table[i];
        var d, t := date.value, time.value;
        Scheduling.SlotStringMatchesTime(blackouts, table, d, Scheduling.ExcludeId(a.pk.value), t);
        if Clock.FormatHHMM(t) !in Scheduling.SlotTimeStrings(SlotsFor(blackouts, table, a, d)) then Err(400)
        else Ok(Move(i, d, t))
  }

  /** `public_reschedule`, POST, as written: after the checks the row is moved and saved,
      and then the call `send_appointment_email(subject=…, message=…, recipient=…)`
      raises, because that function takes only the appointment and `accepted`. So the
      request never answers "rescheduled": a request that passes the checks ends in a 500
      after the save. */
  function PublicReschedulePost(blackouts: set<Dates.Date>, table: seq<Appointment>, token: nat,
                                date: Param<Dates.Date>, time: Param<int>, freshKey: nat): (r: Response)
    requires WellParsed(date, time) && Appointments.FreshKey(table, freshKey)
    requires forall i :: 0 <= i < |table| ==> table[i].pk.Some?
    ensures FindByToken(table, token).None? ==> r == Status(404)
    ensures FindByToken(table, token).Some? && (date.Missing? || time.Missing?) ==> r == Status(400)
    ensures FindByToken(table, token).Some? && !date.Missing? && !time.Missing? && (date.Malformed? || time.Malformed?) ==> r == Status(500)
    ensures FindByToken(table, token).Some? && date.Parsed? && time.Parsed?
            && time.value !in Scheduling.AvailableTimes(blackouts, table, date.value, Scheduling.ExcludeId(table[FindByToken(table, token).value].pk.value))
            ==> r == Status(400)
    ensures !r.Rescheduled?
    ensures r.SavedThenFailed? ==>
              && date.Parsed? && time.Parsed?
              && r.row == Moved(table[FindByToken(table, token).value], date.value, time.value)
              && time.value in Scheduling.AvailableTimes(blackouts, table, date.value, Scheduling.ExcludeId(r.row.pk.value))
  {
    match PublicRescheduleChecks(blackouts, table, token, date, time)
    case Err(code) => Status(code)
    case Ok(m) => SaveMoved(table, table[m.index], m.date, m.time, freshKey)
  }

  /** `public_reschedule`, POST, with the e-mail call corrected: the same checks, and a
      successful save answers "rescheduled". */
  function PublicReschedulePostFixed(blackouts: set<Dates.Date>, table: seq<Appointment>, token: nat,
                                     date: Param<Dates.Date>, time: Param<int>, freshKey: nat): (r: Response)
    requires WellParsed(date, time) && Appointments.FreshKey(table, freshKey)
    requires forall i :: 0 <= i < |table| ==> table[i].pk.Some?
    ensures FindByToken(table, token).None? ==> r == Status(404)
    ensures !r.SavedThenFailed?
    ensures r.Rescheduled? ==>
              && date.Parsed? && time.Parsed?
              && r.row == Moved(table[FindByToken(table, token).value], date.value, time.value)
              && time.value in Scheduling.AvailableTimes(blackouts, table, date.value, Scheduling.ExcludeId(r.row.pk.value))
  {
    match PublicRescheduleChecks(blackouts, table, token, date, time)
    case Err(code) => Status(code)
    case Ok(m) => SaveMovedFixed(table, table[m.index], m.date, m.time, freshKey)
  }

  /** The checks of the admin `reschedule` action before it saves. Unknown id 404;
      missing or malformed date or time 400; a time not offered 409. */
  function AdminRescheduleChecks(blackouts: set<Dates.Date>, table: seq<Appointment>, key: nat,
                                 date: Param<Dates.Date>, time: Param<int>): (r: Result<Move, int>)
    requires WellParsed(date, time)
    ensures Appointments.IndexOf(table, key).None? ==> r == Err(404)
    ensures Appointments.IndexOf(table, key).Some? && !(date.Parsed? && time.Parsed?) ==> r == Err(400)
    ensures Appointments.IndexOf(table, key).Some? && date.Parsed? && time.Parsed?
            && time.value !in Scheduling.AvailableTimes(blackouts, table, date.value, Scheduling.ExcludeId(key))
            ==> r == Err(409)
    ensures r.Ok? ==>
              && Appointments.IndexOf(table, key) == Some(r.value.index)
              && date == Parsed(r.value.date) && time == Parsed(r.value.time)
              && r.value.time in Scheduling.AvailableTimes(blackouts, table, r.value.date, Scheduling.ExcludeId(key))
  {
    match Appointments.IndexOf(table, key)
    case None => Err(404)
    case Some(i) =>
      if !(date.Parsed? && time.Parsed?) then Err(400)
      else
        var a := table[i];
        var d, t := date.value, time.value;
        Scheduling.SlotStringMatchesTime(blackouts, table, d, Scheduling.ExcludeId(key), t);
        if Clock.FormatHHMM(t) !in Scheduling.SlotTimeStrings(SlotsFor(blackouts, table, a, d)) then Err(409)
        else Ok(Move(i, d, t))
  }

  /** `reschedule` (admin action), as written: after the checks the row is saved inside
      `transaction.atomic()`, which commits, and then `send_mail(…, recipient=…)` raises,
      since Django's `send_mail` takes `recipient_list`. A request that passes the checks
      ends in a 500 with the row moved. */
  function AdminReschedule(blackouts: set<Dates.Date>, table: seq<Appointment>, key: nat,
                           date: Param<Dates.Date>, time: Param<int>, freshKey: nat): (r: Response)
    requires WellParsed(date, time) && Appointments.FreshKey(table, freshKey)
    ensures Appointments.IndexOf(table, key).None? ==> r == Status(404)
    ensures Appointments.IndexOf(table, key).Some? && !(date.Parsed? && time.Parsed?) ==> r == Status(400)
    ensures Appointments.IndexOf(table, key).Some? && date.Parsed? && time.Parsed?
            && time.value !in Scheduling.AvailableTimes(blackouts, table, date.value, Scheduling.ExcludeId(key))
            ==> r == Status(409)
    ensures !r.Rescheduled?
    ensures r.SavedThenFailed? ==>
              && date.Parsed? && time.Parsed?
              && r.row == Moved(table[Appointments.IndexOf(table, key).value], date.value, time.value)
              && time.value in Scheduling.AvailableTimes(blackouts, table, date.value, Scheduling.ExcludeId(key))
  {
    match AdminRescheduleChecks(blackouts, table, key, date, time)
    case Err(code) => Status(code)
    case Ok(m) => SaveMoved(table, table[m.index], m.date, m.time, freshKey)
  }

  /** The admin action with the `send_mail` call corrected: a successful save answers
      "rescheduled". */
  function AdminRescheduleFixed(blackouts: set<Dates.Date>, table: seq<Appointment>, key: nat,
                                date: Param<Dates.Date>, time: Param<int>, freshKey: nat): (r: Response)
    requires WellParsed(date, time) && Appointments.FreshKey(table, freshKey)
    ensures Appointments.IndexOf(table, key).None? ==> r == Status(404)
    ensures !r.SavedThenFailed?
    ensures r.Rescheduled? ==>
              && date.Parsed? && time.Parsed?
              && r.row == Moved(table[Appointments.IndexOf(table, key).value], date.value, time.value)
              && time.value in Scheduling.AvailableTimes(blackouts, table, date.value, Scheduling.ExcludeId(key))
  {
    match AdminRescheduleChecks(blackouts, table, key, date, time)
    case Err(code) => Status(code)
    case Ok(m) => SaveMovedFixed(table, table[m.index], m.date, m.time, freshKey)
  }

  /** On both paths the corrected view differs from the written one only in the answer
      to a committed save: where the written view fails with the row saved, the corrected
      one reports that same table and row as rescheduled, and every other answer agrees. */
  lemma RescheduleVersionsDifferOnlyAfterSave(blackouts: set<Dates.Date>, table: seq<Appointment>, token: nat, key: nat,
                                              date: Param<Dates.Date>, time: Param<int>, freshKey: nat)
    requires WellParsed(date, time) && Appointments.FreshKey(table, freshKey)
    requires forall i :: 0 <= i < |table| ==> table[i].pk.Some?
    ensures var p, pf := PublicReschedulePost(blackouts, table, token, date, time, freshKey),
                         PublicReschedulePostFixed(blackouts, table, token, date, time, freshKey);
            (p.SavedThenFailed? <==> pf.Rescheduled?)
            && (p.SavedThenFailed? ==> p.table == pf.table && p.row == pf.row)
            && (!p.SavedThenFailed? ==> p == pf)
    ensures var a, af := AdminReschedule(blackouts, table, key, date, time, freshKey),
                         AdminRescheduleFixed(blackouts, table, key, date, time, freshKey);
            (a.SavedThenFailed? <==> af.Rescheduled?)
            && (a.SavedThenFailed? ==> a.table == af.table && a.row == af.row)
            && (!a.SavedThenFailed? ==> a == af)
  {
  }

  /** Every stored row passes field validation. */
  predicate RowsValid(table: seq<Appointment>) {
    forall i :: 0 <= i < |table| ==> Appointments.FieldsValid(table[i])
  }

  /** Moving a valid stored row onto a time the slot list offers always saves: the slot
      check already excludes every accepted row the save-time conflict check could find. */
  lemma MoveToOfferedTimeSaves(blackouts: set<Dates.Date>, table: seq<Appointment>, i: nat, d: Dates.Date, t: int, freshKey: nat)
    requires Appointments.TableInvariant(table) && RowsValid(table) && Appointments.FreshKey(table, freshKey)
    requires i < |table| && Dates.Valid(d) && Clock.IsTimeOfDay(t)
    requires t in Scheduling.AvailableTimes(blackouts, table, d, Scheduling.ExcludeId(table[i].pk.value))
    ensures Appointments.Save(table, Moved(table[i], d, t), freshKey).Ok?
    ensures Appointments.TableInvariant(Appointments.Save(table, Moved(table[i], d, t), freshKey).value.0)
  {
    var a := table[i];
    var m := Moved(a, d, t);
    var ex := Scheduling.ExcludeId(a.pk.value);
    Scheduling.AvailableTimesExactly(blackouts, table, d, ex, t);
    Appointments.SavePreservesInvariant(table, m, freshKey);
  }

  /** As written, an admin reschedule with a parsed date and an offered time always
      saves the moved row, keeping the table invariant, and then answers 500. */
  lemma RescheduleOfferedTimeSavesThenFails(blackouts: set<Dates.Date>, table: seq<Appointment>, key: nat,
                                            d: Dates.Date, t: int, freshKey: nat)
    requires Appointments.TableInvariant(table) && RowsValid(table) && Appointments.FreshKey(table, freshKey)
    requires Dates.Valid(d) && Clock.IsTimeOfDay(t)
    requires Appointments.IndexOf(table, key).Some?
    requires t in Scheduling.AvailableTimes(blackouts, table, d, Scheduling.ExcludeId(key))
    ensures var r := AdminReschedule(blackouts, table, key, Parsed(d), Parsed(t), freshKey);
            r.SavedThenFailed? && r.row in r.table && Appointments.TableInvariant(r.table)
            && r.row == Moved(table[Appointments.IndexOf(table, key).value], d, t)
  {
    var i := Appointments.IndexOf(table, key).value;
    Scheduling.SlotStringMatchesTime(blackouts, table, d, Scheduling.ExcludeId(key), t);
    MoveToOfferedTimeSaves(blackouts, table, i, d, t, freshKey);
  }

  /** With the e-mail call corrected, the same request is answered as a reschedule. */
  lemma RescheduleOfferedTimeSucceeds(blackouts: set<Dates.Date>, table: seq<Appointment>, key: nat,
                                      d: Dates.Date, t: int, freshKey: nat)
    requires Appointments.TableInvariant(table) && RowsValid(table) && Appointments.FreshKey(table, freshKey)
    requires Dates.Valid(d) && Clock.IsTimeOfDay(t)
    requires Appointments.IndexOf(table, key).Some?
    requires t in Scheduling.AvailableTimes(blackouts, table, d, Scheduling.ExcludeId(key))
    ensures var r := AdminRescheduleFixed(blackouts, table, key, Parsed(d), Parsed(t), freshKey);
            r.Rescheduled? && r.row in r.table && Appointments.TableInvariant(r.table)
  {
    var i := Appointments.IndexOf(table, key).value;
    Scheduling.SlotStringMatchesTime(blackouts, table, d, Scheduling.ExcludeId(key), t);
    MoveToOfferedTimeSaves(blackouts, table, i, d, t, freshKey);
  }

  /** As written, a public reschedule of a reschedulable appointment to a time its own
      slot list offers always saves the moved row, keeping the table invariant, and then
      answers 500. */
  lemma PublicRescheduleOfferedTimeSavesThenFails(blackouts: set<Dates.Date>, table: seq<Appointment>, token: nat,
                                                  d: Dates.Date, t: int, freshKey: nat)
    requires Appointments.TableInvariant(table) && RowsValid(table) && Appointments.FreshKey(table, freshKey)
    requires forall i :: 0 <= i < |table| ==> table[i].pk.Some?
    requires Dates.Valid(d) && Clock.IsTimeOfDay(t)
    requires FindByToken(table, token).Some?
    requires t in Scheduling.AvailableTimes(blackouts, table, d, Scheduling.ExcludeId(table[FindByToken(table, token).value].pk.value))
    ensures var r := PublicReschedulePost(blackouts, table, token, Parsed(d), Parsed(t), freshKey);
            r.SavedThenFailed? && r.row in r.table && Appointments.TableInvariant(r.table)
            && r.row == Moved(table[FindByToken(table, token).value], d, t)
  {
    var i := FindByToken(table, token).value;
    var a := table[i];
    Scheduling.SlotStringMatchesTime(blackouts, table, d, Scheduling.ExcludeId(a.pk.value), t);
    MoveToOfferedTimeSaves(blackouts, table, i, d, t, freshKey);
  }

  /** With the e-mail call corrected, the same public request is answered as a
      reschedule. */
  lemma PublicRescheduleOfferedTimeSucceeds(blackouts: set<Dates.Date>, table: seq<Appointment>, token: nat,
                                            d: Dates.Date, t: int, freshKey: nat)
    requires Appointments.TableInvariant(table) && RowsValid(table) && Appointments.FreshKey(table, freshKey)
    requires forall i :: 0 <= i < |table| ==> table[i].pk.Some?
    requires Dates.Valid(d) && Clock.IsTimeOfDay(t)
    requires FindByToken(table, token).Some?
    requires t in Scheduling.AvailableTimes(blackouts, table, d, Scheduling.ExcludeId(table[FindByToken(table, token).value].pk.value))
    ensures var r := PublicReschedulePostFixed(blackouts, table, token, Parsed(d), Parsed(t), freshKey);
            r.Rescheduled? && r.row in r.table && Appointments.TableInvariant(r.table)
  {
    var i := FindByToken(table, token).value;
    var a := table[i];
    Scheduling.SlotStringMatchesTime(blackouts, table, d, Scheduling.ExcludeId(a.pk.value), t);
    MoveToOfferedTimeSaves(blackouts, table, i, d, t, freshKey);
  }

  /** The row filter of `get_queryset`. The status filter applies only to "P", "A" and
      "D"; a malformed `date` is ignored. */
  predicate ListKeeps(status: Option<string>, id: Param<nat>, date: Param<Dates.Date>, a: Appointment) {
    && (status.Some? && status.value in ["P", "A", "D"] ==> Appointments.StatusCode(a.status) == status.value)
    && (id.Parsed? ==> a.pk == Some(id.value))
    && (date.Parsed? ==> a.date == date.value)
  }

  /** `get_queryset`. A non-numeric `appointment` id makes the id lookup raise, which is
      not caught (500). Ordering is not modelled: rows come in table order. */
  function ListQuery(table: seq<Appointment>, status: Option<string>, id: Param<nat>, date: Param<Dates.Date>): (r: Result<seq<Appointment>, int>)
    ensures r.Err? <==> id.Malformed?
    ensures r.Ok? ==> forall a :: a in r.value <==> a in table && ListKeeps(status, id, date, a)
  {
    if id.Malformed? then Err(500)
    else Ok(Seqs.Filter(table, a => ListKeeps(status, id, date, a)))
  }

  /** A status value other than "P", "A" or "D" is ignored, and so is a date that does
      not parse. */
  lemma ListIgnoresUnknownFilters(table: seq<Appointment>, status: string, id: Param<nat>, date: Param<Dates.Date>)
    requires status !in ["P", "A", "D"]
    ensures ListQuery(table, Some(status), id, date) == ListQuery(table, None, id, date)
    ensures ListQuery(table, Some(status), id, Malformed) == ListQuery(table, None, id, Missing)
  {
    if !id.Malformed? {
      Seqs.FilterCongruent(table, a => ListKeeps(Some(status), id, date, a), a => ListKeeps(None, id, date, a));
      Seqs.FilterCongruent(table, a => ListKeeps(Some(status), id, Malformed, a), a => ListKeeps(None, id, Missing, a));
    }
  }

  /** The `pending` and `accepted` actions. */
  function WithStatus(table: seq<Appointment>, s: Appointments.Status): (r: seq<Appointment>)
    ensures forall a :: a in r <==> a in table && a.status == s
  {
    Seqs.Filter(table, (a: Appointment) => a.status == s)
  }

  /** The list filtered by a known status code is the matching status action. */
  lemma StatusFilterMatchesAction(table: seq<Appointment>, s: Appointments.Status)
    ensures ListQuery(table, Some(Appointments.StatusCode(s)), Missing, Missing) == Ok(WithStatus(table, s))
  {
    Seqs.FilterCongruent(table, a => ListKeeps(Some(Appointments.StatusCode(s)), Missing, Missing, a), (a: Appointment) => a.status == s);
  }

  /** `available_slots`: a missing or malformed date is 400. A malformed `exclude` id
      raises when the booking query is built, which happens only after the blackout check. */
  function AvailableSlots(blackouts: set<Dates.Date>, table: seq<Appointment>, date: Param<Dates.Date>, exclude: Param<nat>): (r: Response)
    requires date.Parsed? ==> Dates.Valid(date.value)
    ensures !date.Parsed? ==> r == Status(400)
    ensures date.Parsed? && exclude.Missing? ==> r == SlotList(Scheduling.GenerateTimeSlots(blackouts, table, date.value, None))
    ensures date.Parsed? && exclude.Parsed? ==> r == SlotList(Scheduling.GenerateTimeSlots(blackouts, table, date.value, Some(exclude.value)))
    ensures date.Parsed? && exclude.Malformed? ==> r == (if date.value in blackouts then SlotList([]) else Status(500))
  {
    if !date.Parsed? then Status(400)
    else match exclude
      case Missing => SlotList(Scheduling.GenerateTimeSlots(blackouts, table, date.value, None))
      case Parsed(id) => SlotList(Scheduling.GenerateTimeSlots(blackouts, table, date.value, Some(id)))
      case Malformed => if date.value in blackouts then SlotList([]) else Status(500)
  }

  /** `perform_create`: the submitted row is saved as a new row with status "P",
      whatever status the request carried. */
  function PerformCreate(table: seq<Appointment>, submitted: Appointment, freshKey: nat): (r: Result<(seq<Appointment>, Appointment), Appointments.SaveError>)
    requires Appointments.FreshKey(table, freshKey)
    ensures r.Ok? ==> r.value.1.status == Appointments.Pending && r.value.1.pk == Some(freshKey)
    ensures r.Ok? ==> r.value.1.(status := submitted.status, pk := submitted.pk) == submitted
    ensures r.Ok? ==> |r.value.0| == |table| + 1
  {
    var row := submitted.(status := Appointments.Pending, pk := None);
    match Appointments.Save(table, row, freshKey)
    case Err(e) => Err(e)
    case Ok((t, stored)) =>
      assert Appointments.IndexOf(table, freshKey).None?;
      Ok((t, stored))
  }
}

=== FILE: appointments.dfy ===
/** Appointment requests (appointments/models.py): the Pending/Accepted/Declined status,
    field validation, and the save-time check that keeps at most one accepted
    appointment per date and time. The database table is a sequence of records. */
module Appointments {
  import opened Wrappers
  import Dates
  import UsStates
  import Clock

  /** `STATUS_CHOICES`: "P", "A", "D". */
  datatype Status = Pending | Accepted | Declined

  /** The one-letter code stored in the `accepted` column. */
  function StatusCode(s: Status): string {
    match s
    case Pending => "P"
    case Accepted => "A"
    case Declined => "D"
  }

  /** The status named by a code, if the code is one of the three choices. */
  function ParseStatus(code: string): (r: Option<Status>)
    ensures r.Some? <==> code in ["P", "A", "D"]
    ensures r.Some? ==> StatusCode(r.value) == code
  {
    if code == "P" then Some(Pending)
    else if code == "A" then Some(Accepted)
    else if code == "D" then Some(Declined)
    else None
  }

  /** Every status is read back from its own code. */
  lemma StatusCodeRoundTrip(s: Status)
    ensures ParseStatus(StatusCode(s)) == Some(s)
  {
  }

  /** One row of the appointment table. `time` is the requested time in minutes after
      midnight; `pk` is absent until the row is first saved. */
  datatype Appointment = Appointment(
    pk: Option<nat>,
    firstName: string,
    lastName: string,
    email: string,
    phone: Option<string>,
    street: string,
    aptSuite: Option<string>,
    city: string,
    state: Option<string>,
    zip: Option<string>,
    date: Dates.Date,
    time: int,
    description: Option<string>,
    status: Status,
    rescheduleToken: nat)

  predicate OptionalWithin(s: Option<string>, max: nat) {
    s.None? || |s.value| <= max
  }

  /** The per-field checks `full_clean` applies: required character fields are non-empty,
      every character field is within its `max_length` (254 for the e-mail field), the
      state is one of the choices. */
  predicate FieldsValid(a: Appointment) {
    && 0 < |a.firstName| <= 50
    && 0 < |a.lastName| <= 50
    && 0 < |a.email| <= 254
    && OptionalWithin(a.phone, 25)
    && 0 < |a.street| <= 100
    && OptionalWithin(a.aptSuite, 50)
    && 0 < |a.city| <= 50
    && (a.state.None? || UsStates.IsStateCode(a.state.value))
    && OptionalWithin(a.zip, 10)
    && Dates.Valid(a.date)
    && Clock.IsTimeOfDay(a.time)
  }

  /** Another stored row, accepted, at the same date and time (`clean`'s query; the row
      being saved is excluded by primary key). */
  predicate ConflictsWith(b: Appointment, a: Appointment) {
    b.status == Accepted && b.date == a.date && b.time == a.time && b.pk != a.pk
  }

  predicate HasConflict(table: seq<Appointment>, a: Appointment) {
    exists i :: 0 <= i < |table| && ConflictsWith(table[i], a)
  }

  /** Every stored row has a primary key and no key is used twice. */
  predicate KeysUnique(table: seq<Appointment>) {
    && (forall i :: 0 <= i < |table| ==> table[i].pk.Some?)
    && (forall i, j :: 0 <= i < j < |table| ==> table[i].pk != table[j].pk)
  }

  /** At most one accepted appointment per (date, time). */
  predicate OneAcceptedPerSlot(table: seq<Appointment>) {
    forall i, j :: 0 <= i < j < |table| && table[i].status == Accepted && table[j].status == Accepted
      ==> table[i].date != table[j].date || table[i].time != table[j].time
  }

  /** No two stored rows share a reschedule token. */
  predicate TokensUnique(table: seq<Appointment>) {
    forall i, j :: 0 <= i < j < |table| ==> table[i].rescheduleToken != table[j].rescheduleToken
  }

  predicate TableInvariant(table: seq<Appointment>) {
    KeysUnique(table) && OneAcceptedPerSlot(table) && TokensUnique(table)
  }

  /** Another stored row already has the row's reschedule token (`validate_unique` on
      the unique token column; the row being saved is excluded by primary key). */
  predicate TokenTaken(table: seq<Appointment>, a: Appointment) {
    exists i :: 0 <= i < |table| && table[i].rescheduleToken == a.rescheduleToken && table[i].pk != a.pk
  }

  /** A primary key no stored row uses, as the database would hand out. */
  predicate FreshKey(table: seq<Appointment>, key: nat) {
    forall i :: 0 <= i < |table| ==> table[i].pk != Some(key)
  }

  /** Why `save` refused a row. */
  datatype SaveError = InvalidFields | SlotAlreadyBooked | DuplicateToken

  /** `full_clean()`: field validation, then `clean()`'s booking check, then the
      uniqueness check of the reschedule token; the first failing check names the error. */
  function FullClean(table: seq<Appointment>, a: Appointment): (r: Option<SaveError>)
    ensures r.None? <==> FieldsValid(a) && !HasConflict(table, a) && !TokenTaken(table, a)
    ensures r == Some(InvalidFields) <==> !FieldsValid(a)
    ensures r == Some(SlotAlreadyBooked) <==> FieldsValid(a) && HasConflict(table, a)
  {
    if !FieldsValid(a) then Some(InvalidFields)
    else if HasConflict(table, a) then Some(SlotAlreadyBooked)
    else if TokenTaken(table, a) then Some(DuplicateToken)
    else None
  }

  /** Index of the stored row with primary key `key`. */
  function IndexOf(table: seq<Appointment>, key: nat): (r: Option<nat>)
    ensures r.Some? ==> r.value < |table| && table[r.value].pk == Some(key)
    ensures r.None? ==> FreshKey(table, key)
  {
    if |table| == 0 then None
    else if table[|table| - 1].pk == Some(key) then Some(|table| - 1)
    else IndexOf(table[..|table| - 1], key)
  }

  /** The row as stored: a row without a key receives `freshKey`. */
  function Keyed(a: Appointment, freshKey: nat): (r: Appointment) {
    if a.pk.Some? then a else a.(pk := Some(freshKey))
  }

  /** Write a keyed row: replace the row with its key, or append it. */
  function Upsert(table: seq<Appointment>, row: Appointment): (r: seq<Appointment>)
    requires row.pk.Some?
    ensures row in r
    ensures forall i :: 0 <= i < |table| && table[i].pk != row.pk ==> table[i] in r
  {
    match IndexOf(table, row.pk.value)
    case Some(p) =>
      var r := table[p := row];
      assert r[p] == row;
      assert forall i :: 0 <= i < |table| && table[i].pk != row.pk ==> r[i] == table[i];
      r
    case None =>
      var r := table + [row];
      assert r[|table|] == row;
      assert forall i :: 0 <= i < |table| ==> r[i] == table[i];
      r
  }

  /** `Appointment.save()`: validate, then insert or update. On success returns the new
      table and the stored row. */
  function Save(table: seq<Appointment>, a: Appointment, freshKey: nat): (r: Result<(seq<Appointment>, Appointment), SaveError>)
    requires FreshKey(table, freshKey)
    ensures r.Ok? <==> FieldsValid(a) && !HasConflict(table, a) && !TokenTaken(table, a)
    ensures r.Ok? ==> r.value.1 == Keyed(a, freshKey) && r.value.1 in r.value.0
    ensures r.Ok? ==> forall i :: 0 <= i < |table| && table[i].pk != r.value.1.pk ==> table[i] in r.value.0
    ensures r.Err? ==> (r.error == InvalidFields <==> !FieldsValid(a))
    ensures r.Err? && FieldsValid(a) && HasConflict(table, a) ==> r.error == SlotAlreadyBooked
  {
    match FullClean(table, a)
    case Some(e) => Err(e)
    case None =>
      var row := Keyed(a, freshKey);
      Ok((Upsert(table, row), row))
  }

  /** Every successful `save` keeps primary keys and reschedule tokens unique and at most
      one accepted appointment per date and time. */
  lemma SavePreservesInvariant(table: seq<Appointment>, a: Appointment, freshKey: nat)
    requires TableInvariant(table) && FreshKey(table, freshKey)
    requires Save(table, a, freshKey).Ok?
    ensures TableInvariant(Save(table, a, freshKey).value.0)
  {
    var row := Keyed(a, freshKey);
    var t' := Upsert(table, row);
    assert !HasConflict(table, a);
    // No other stored row is an accepted booking at the row's slot.
    forall k | 0 <= k < |table| && table[k].pk != row.pk
      ensures !(table[k].status == Accepted && table[k].date == row.date && table[k].time == row.time)
    {
      assert !ConflictsWith(table[k], a);
    }
    match IndexOf(table, row.pk.value)
    case Some(p) =>
      assert t' == table[p := row];
    case None =>
      assert t' == table + [row];
  }

  /** `accept_request`: status becomes "A" and the row is saved. */
  function AcceptRequest(table: seq<Appointment>, a: Appointment, freshKey: nat): (r: Result<(seq<Appointment>, Appointment), SaveError>)
    requires FreshKey(table, freshKey)
    ensures r.Ok? ==> r.value.1.status == Accepted
    ensures r.Ok? <==> FieldsValid(a) && !HasConflict(table, a.(status := Accepted)) && !TokenTaken(table, a)
  {
    Save(table, a.(status := Accepted), freshKey)
  }

  /** `decline_request`: status becomes "D" and the row is saved. */
  function DeclineRequest(table: seq<Appointment>, a: Appointment, freshKey: nat): (r: Result<(seq<Appointment>, Appointment), SaveError>)
    requires FreshKey(table, freshKey)
    ensures r.Ok? ==> r.value.1.status == Declined
    ensures r.Ok? <==> FieldsValid(a) && !HasConflict(table, a.(status := Declined)) && !TokenTaken(table, a)
  {
    Save(table, a.(status := Declined), freshKey)
  }

  /** Accepting or declining touches the status and nothing else of the stored row. */
  lemma StatusChangeTouchesOnlyStatus(table: seq<Appointment>, a: Appointment, freshKey: nat)
    requires FreshKey(table, freshKey) && a.pk.Some?
    ensures AcceptRequest(table, a, freshKey).Ok? ==> AcceptRequest(table, a, freshKey).value.1.(status := a.status) == a
    ensures DeclineRequest(table, a, freshKey).Ok? ==> DeclineRequest(table, a, freshKey).value.1.(status := a.status) == a
  {
  }

  /** The booking check ignores the saved row's own status: a pending row cannot be
      saved onto a slot another accepted row holds. */
  lemma PendingBlockedByAccepted(table: seq<Appointment>, a: Appointment, freshKey: nat, k: nat)
    requires FreshKey(table, freshKey)
    requires k < |table| && table[k].status == Accepted
    requires table[k].date == a.date && table[k].time == a.time && table[k].pk != a.pk
    ensures Save(table, a.(status := Pending), freshKey) == Err(if FieldsValid(a) then SlotAlreadyBooked else InvalidFields)
  {
    assert ConflictsWith(table[k], a.(status := Pending));
  }

  /** Declining never conflicts with the row's own earlier acceptance: the row is excluded
      from its own check. */
  lemma OwnRowNeverConflicts(table: seq<Appointment>, a: Appointment)
    requires KeysUnique(table) && a.pk.Some?
    requires forall i :: 0 <= i < |table| && table[i].pk != a.pk ==> !(table[i].status == Accepted && table[i].date == a.date && table[i].time == a.time)
    ensures !HasConflict(table, a)
  {
  }
}

=== FILE: clock.dfy ===
/** Times of day as whole minutes after midnight, and their `strftime` renderings. */
module Clock {
  import Strings

  predicate IsTimeOfDay(t: int) {
    0 <= t < 24 * 60
  }

  /** `%H:%M`: two-digit hour, colon, two-digit minute. */
  function FormatHHMM(t: int): (r: string)
    requires IsTimeOfDay(t)
    ensures |r| == 5 && r[2] == ':'
    ensures forall i :: 0 <= i < 5 && i != 2 ==> Strings.IsDigit(r[i])
    ensures Strings.ParseNat(r[..2]) * 60 + Strings.ParseNat(r[3..]) == t
  {
    Strings.ParsePad(t / 60, 2);
    Strings.ParsePad(t % 60, 2);
    var r := Strings.Pad(t / 60, 2) + ":" + Strings.Pad(t % 60, 2);
    assert r[..2] == Strings.Pad(t / 60, 2);
    assert r[3..] == Strings.Pad(t % 60, 2);
    r
  }

  /** Distinct times of day render differently, so comparing rendered times compares
      the times themselves. */
  lemma FormatHHMMInjective(s: int, t: int)
    requires IsTimeOfDay(s) && IsTimeOfDay(t)
    ensures FormatHHMM(s) == FormatHHMM(t) <==> s == t
  {
    if FormatHHMM(s) == FormatHHMM(t) {
      assert FormatHHMM(s)[..2] == FormatHHMM(t)[..2];
      assert FormatHHMM(s)[3..] == FormatHHMM(t)[3..];
    }
  }

  /** The hour on a twelve-hour clock, `%I`: 12 for midnight and noon. */
  function Hour12(t: int): (r: int)
    requires IsTimeOfDay(t)
    ensures 1 <= r <= 12
    ensures r % 12 == (t / 60) % 12
  {
    if (t / 60) % 12 == 0 then 12 else (t / 60) % 12
  }

  /** `%I:%M %p`: twelve-hour hour, minute, and "AM" before noon, "PM" from noon. */
  function FormatLabel(t: int): (r: string)
    requires IsTimeOfDay(t)
    ensures |r| == 8 && r[2] == ':' && r[5] == ' '
    ensures forall i :: 0 <= i < 5 && i != 2 ==> Strings.IsDigit(r[i])
    ensures r[6..] == (if t < 12 * 60 then "AM" else "PM")
    ensures Strings.ParseNat(r[..2]) == Hour12(t) && Strings.ParseNat(r[3..5]) == t % 60
  {
    Strings.ParsePad(Hour12(t), 2);
    Strings.ParsePad(t % 60, 2);
    var r := Strings.Pad(Hour12(t), 2) + ":" + Strings.Pad(t % 60, 2) + " " + (if t < 12 * 60 then "AM" else "PM");
    assert r[..2] == Strings.Pad(Hour12(t), 2);
    assert r[3..5] == Strings.Pad(t % 60, 2);
    r
  }
}

=== FILE: customer_form.dfy ===
/** The add-customer form of web_app/src/pages/AddCustomer.js: which fields are
    required, their length limits, and the state picker. An empty input counts as
    missing, as the form library treats it; the email format check is the parameter
    `isEmail`. */
module CustomerForm {
  import opened Wrappers
  import opened UsStates

  datatype Form = Form(
    firstName: string,
    lastName: string,
    email: string,
    phone: string,
    street: string,
    apt: string,
    city: string,
    state: string,
    zip: string)

  datatype Field = FirstName | LastName | Email | Phone | Street | Apt | City | State | Zip

  datatype Problem = Missing(field: Field) | TooLong(field: Field, limit: nat) | BadEmail | UnknownState

  /** A required field with a length limit. */
  function Required(f: Field, value: string, limit: nat): (r: seq<Problem>)
    ensures r == [] <==> value != "" && |value| <= limit
  {
    if value == "" then [Missing(f)] else if |value| > limit then [TooLong(f, limit)] else []
  }

  /** An optional field with a length limit: empty passes. */
  function Optional(f: Field, value: string, limit: nat): (r: seq<Problem>)
    ensures r == [] <==> |value| <= limit
  {
    if value != "" && |value| > limit then [TooLong(f, limit)] else []
  }

  /** The state picker: cleared, or one of the listed codes. */
  function StateChoice(value: string): (r: seq<Problem>)
    ensures r == [] <==> value == "" || IsStateCode(value)
  {
    if value == "" || IsStateCode(value) then [] else [UnknownState]
  }

  function EmailRule(value: string, isEmail: string -> bool): (r: seq<Problem>)
    ensures r == [] <==> value != "" && isEmail(value)
  {
    if value == "" then [Missing(Email)] else if !isEmail(value) then [BadEmail] else []
  }

  /** Every rule of the form, field by field. */
  function Problems(form: Form, isEmail: string -> bool): (r: seq<Problem>)
  {
    Required(FirstName, form.firstName, 24)
    + Required(LastName, form.lastName, 32)
    + EmailRule(form.email, isEmail)
    + Optional(Phone, form.phone, 15)
    + Required(Street, form.street, 128)
    + Optional(Apt, form.apt, 128)
    + Required(City, form.city, 128)
    + StateChoice(form.state)
    + Optional(Zip, form.zip, 10)
  }

  /** The form's acceptance condition stated field by field. */
  predicate Acceptable(form: Form, isEmail: string -> bool) {
    && 0 < |form.firstName| <= 24
    && 0 < |form.lastName| <= 32
    && form.email != "" && isEmail(form.email)
    && |form.phone| <= 15
    && 0 < |form.street| <= 128
    && |form.apt| <= 128
    && 0 < |form.city| <= 128
    && (form.state == "" || IsStateCode(form.state))
    && |form.zip| <= 10
  }

  /** `onFinish` runs, and the customer is posted, only when no rule fails. */
  function Submit(form: Form, isEmail: string -> bool): (r: Option<Form>)
    ensures r.Some? <==> Acceptable(form, isEmail)
    ensures r.Some? ==> r.value == form
  {
    NoProblemsIffAcceptable(form, isEmail);
    if Problems(form, isEmail) == [] then Some(form) else None
  }

  /** No reported problem exactly when the form is acceptable. */
  lemma NoProblemsIffAcceptable(form: Form, isEmail: string -> bool)
    ensures Problems(form, isEmail) == [] <==> Acceptable(form, isEmail)
  {
  }

  /** The limits are inclusive: 24 characters of first name pass, 25 do not. */
  lemma FirstNameLimit(form: Form, isEmail: string -> bool)
    requires Acceptable(form.(firstName := "a"), isEmail)
    ensures |form.firstName| == 24 ==> Submit(form, isEmail).Some?
    ensures |form.firstName| == 25 ==> Submit(form, isEmail).None?
    ensures form.firstName == "" ==> Missing(FirstName) in Problems(form, isEmail)
  {
  }
}

=== FILE: dates.dfy ===
/** Civil dates as Python's `datetime.date` counts them: proleptic Gregorian,
    day 1 of the ordinal scale is 0001-01-01 (a Monday), `weekday()` is 0 on Monday. */
module Dates {
  import Strings

  datatype Date = Date(year: int, month: int, day: int)

  predicate IsLeap(y: int) {
    y % 4 == 0 && (y % 100 != 0 || y % 400 == 0)
  }

  function DaysInMonth(y: int, m: int): (r: int)
    requires 1 <= m <= 12
    ensures 28 <= r <= 31
  {
    if m == 2 then (if IsLeap(y) then 29 else 28)
    else if m == 4 || m == 6 || m == 9 || m == 11 then 30
    else 31
  }

  function DaysInYear(y: int): int {
    if IsLeap(y) then 366 else 365
  }

  /** A date `datetime.date` accepts (the upper year bound 9999 is not modelled). */
  predicate Valid(d: Date) {
    d.year >= 1 && 1 <= d.month <= 12 && 1 <= d.day <= DaysInMonth(d.year, d.month)
  }

  /** Days in the months of year `y` before month `m`. */
  function DaysBeforeMonth(y: int, m: int): int
    requires 1 <= m <= 12
  {
    [0, 31, 59, 90, 120, 151, 181, 212, 243, 273, 304, 334][m - 1]
      + (if m > 2 && IsLeap(y) then 1 else 0)
  }

  /** Days in the years before year `y`, counting from year 1. */
  function DaysBeforeYear(y: int): (r: int)
    decreases y
    ensures r >= 0
  {
    if y <= 1 then 0 else DaysBeforeYear(y - 1) + DaysInYear(y - 1)
  }

  /** `date.toordinal()`: the day's place counting from 0001-01-01 as 1, which falls
      after every day of the earlier years and within its own year. */
  function Ordinal(d: Date): (r: int)
    requires Valid(d)
    ensures r >= 1
    ensures DaysBeforeYear(d.year) < r <= DaysBeforeYear(d.year) + DaysInYear(d.year)
  {
    DaysBeforeYear(d.year) + DaysBeforeMonth(d.year, d.month) + d.day
  }

  /** `date.weekday()`: Monday is 0, Sunday is 6. */
  function Weekday(d: Date): (r: int)
    requires Valid(d)
    ensures 0 <= r < 7
    ensures d == Date(1, 1, 1) ==> r == 0
  {
    (Ordinal(d) + 6) % 7
  }

  /** Each day's weekday follows the previous day's, Sunday wrapping to Monday. */
  lemma WeekdayOfNextDay(d: Date)
    requires Valid(d)
    ensures Weekday(NextDay(d)) == (Weekday(d) + 1) % 7
  {
  }

  /** The following day. */
  function NextDay(d: Date): (r: Date)
    requires Valid(d)
    ensures Valid(r) && Ordinal(r) == Ordinal(d) + 1
  {
    if d.day < DaysInMonth(d.year, d.month) then Date(d.year, d.month, d.day + 1)
    else if d.month < 12 then Date(d.year, d.month + 1, 1)
    else Date(d.year + 1, 1, 1)
  }

  /** The preceding day; 0001-01-01 has none. */
  function PrevDay(d: Date): (r: Date)
    requires Valid(d) && Ordinal(d) > 1
    ensures Valid(r) && Ordinal(r) == Ordinal(d) - 1
  {
    if d.day > 1 then Date(d.year, d.month, d.day - 1)
    else if d.month > 1 then
      assert DaysBeforeMonth(d.year, d.month) == DaysBeforeMonth(d.year, d.month - 1) + DaysInMonth(d.year, d.month - 1);
      Date(d.year, d.month - 1, DaysInMonth(d.year, d.month - 1))
    else
      assert d.year > 1;
      YearEnd(d.year - 1);
      Date(d.year - 1, 12, 31)
  }

  /** December 31st is the last day counted by the next year's start. */
  lemma YearEnd(y: int)
    requires y >= 1
    ensures Valid(Date(y, 12, 31))
    ensures Ordinal(Date(y, 12, 31)) == DaysBeforeYear(y + 1)
  {
  }

  /** `d + timedelta(days=n)`, for `n` of either sign. */
  function AddDays(d: Date, n: int): (r: Date)
    requires Valid(d) && Ordinal(d) + n >= 1
    ensures Valid(r) && Ordinal(r) == Ordinal(d) + n
    decreases if n < 0 then -n else n
  {
    if n == 0 then d
    else if n > 0 then AddDays(NextDay(d), n - 1)
    else AddDays(PrevDay(d), n + 1)
  }

  /** `date.isoformat()`: `YYYY-MM-DD`. */
  function IsoFormat(d: Date): (r: string)
    requires Valid(d)
  {
    Strings.Pad(d.year, 4) + "-" + Strings.Pad(d.month, 2) + "-" + Strings.Pad(d.day, 2)
  }

  /** `date.strftime("%y%m%d")`: two-digit year, month and day. */
  function YyMmDd(d: Date): (r: string)
    requires Valid(d)
    ensures |r| == 6
  {
    Strings.Pad(d.year % 100, 2) + Strings.Pad(d.month, 2) + Strings.Pad(d.day, 2)
  }

  /** The ordinal numbering is one-to-one on valid dates, so comparing ordinals compares dates. */
  lemma {:induction false} OrdinalInjective(a: Date, b: Date)
    requires Valid(a) && Valid(b) && Ordinal(a) == Ordinal(b)
    ensures a == b
  {
    if a.year < b.year {
      YearBounds(a);
      YearBounds(b);
      DaysBeforeYearMonotone(a.year + 1, b.year);
      assert false;
    } else if b.year < a.year {
      YearBounds(a);
      YearBounds(b);
      DaysBeforeYearMonotone(b.year + 1, a.year);
      assert false;
    } else {
      MonthBounds(a);
      MonthBounds(b);
    }
  }

  /** A date's ordinal lies within its year. */
  lemma YearBounds(d: Date)
    requires Valid(d)
    ensures DaysBeforeYear(d.year) < Ordinal(d) <= DaysBeforeYear(d.year + 1)
  {
  }

  /** A date's ordinal lies within its month, so months of one year do not overlap. */
  lemma MonthBounds(d: Date)
    requires Valid(d)
    ensures forall m :: 1 <= m < d.month ==> DaysBeforeMonth(d.year, m) + DaysInMonth(d.year, m) <= DaysBeforeMonth(d.year, d.month)
  {
  }

  lemma {:induction false} DaysBeforeYearMonotone(x: int, y: int)
    requires x <= y
    ensures DaysBeforeYear(x) <= DaysBeforeYear(y)
    decreases y - x
  {
    if x < y {
      DaysBeforeYearMonotone(x, y - 1);
    }
  }
}

=== FILE: handyman.dfy ===
/** The project-level views of handyman/views.py (token login and the admin
    dashboard), the token view handyman/urls.py actually routes, and the activity
    middleware of handyman/middleware.py. */
module Handyman {
  import opened Wrappers
  import opened Strings
  import opened Dates
  import Seqs
  import Users
  import Appointments

  // ---------------------------------------------------------------------------
  // Token login

  /** `CustomAuthToken.post`: credentials the backend rejects are a 400, a lookup that
      raises a 500; an unconfirmed email is a 403 and issues nothing; otherwise the
      user's token is returned, created with `freshKey` only when there is none. No URL
      pattern routes this view. */
  function TokenLogin(auth: Users.AuthResult, tokens: map<nat, string>, freshKey: string): (r: (int, Option<string>, map<nat, string>))
    ensures r.0 == 200 <==> auth.Authenticated? && auth.user.emailConfirmed
    ensures r.0 != 200 ==> r.1 == None && r.2 == tokens
    ensures auth.Authenticated? && !auth.user.emailConfirmed ==> r.0 == 403
    ensures r.0 == 200 ==> var pk := auth.user.pk;
      && pk in r.2 && r.1 == Some(r.2[pk])
      && (pk in tokens ==> r.2 == tokens)
      && (pk !in tokens ==> r.2 == tokens[pk := freshKey])
  {
    match auth
    case NoUser => (400, None, tokens)
    case MultipleMatches => (500, None, tokens)
    case Authenticated(u) =>
      if !u.emailConfirmed then (403, None, tokens)
      else if u.pk in tokens then (200, Some(tokens[u.pk]), tokens)
      else (200, Some(freshKey), tokens[u.pk := freshKey])
  }

  /** A confirmed user logging in twice gets the same token, and the second login
      creates nothing. */
  lemma TokenIsReused(u: Users.User, tokens: map<nat, string>, key1: string, key2: string)
    requires u.emailConfirmed
    ensures var (_, first, tokens') := TokenLogin(Users.Authenticated(u), tokens, key1);
            var (_, second, tokens'') := TokenLogin(Users.Authenticated(u), tokens', key2);
            second == first && tokens'' == tokens'
  {
  }

  /** The `/auth/` route (handyman/urls.py:44) serves the framework's own
      `ObtainAuthToken`, not `CustomAuthToken`: the same backend lookup and token
      reuse, with no check of the email confirmation. */
  function RoutedTokenLogin(auth: Users.AuthResult, tokens: map<nat, string>, freshKey: string): (r: (int, Option<string>, map<nat, string>))
    ensures r.0 == 200 <==> auth.Authenticated?
    ensures r.0 != 200 ==> r.1 == None && r.2 == tokens
    ensures auth.NoUser? ==> r.0 == 400
    ensures r.0 == 200 ==> var pk := auth.user.pk;
      && pk in r.2 && r.1 == Some(r.2[pk])
      && (pk in tokens ==> r.2 == tokens)
      && (pk !in tokens ==> r.2 == tokens[pk := freshKey])
  {
    match auth
    case NoUser => (400, None, tokens)
    case MultipleMatches => (500, None, tokens)
    case Authenticated(u) =>
      if u.pk in tokens then (200, Some(tokens[u.pk]), tokens)
      else (200, Some(freshKey), tokens[u.pk := freshKey])
  }

  /** The routed login and the unrouted confirmation-checking one differ exactly on an
      account whose email is not confirmed: the routed one issues it a token. */
  lemma RoutedLoginIgnoresConfirmation(auth: Users.AuthResult, tokens: map<nat, string>, freshKey: string)
    ensures auth.Authenticated? && !auth.user.emailConfirmed ==>
              RoutedTokenLogin(auth, tokens, freshKey).0 == 200 && TokenLogin(auth, tokens, freshKey).0 == 403
    ensures !(auth.Authenticated? && !auth.user.emailConfirmed) ==>
              RoutedTokenLogin(auth, tokens, freshKey) == TokenLogin(auth, tokens, freshKey)
  {
  }

  // ---------------------------------------------------------------------------
  // Dashboard

  /** The Monday-to-Sunday week containing `today`. */
  function WeekRange(today: Date): (r: (Date, Date))
    requires Valid(today)
    ensures Valid(r.0) && Valid(r.1)
    ensures Weekday(r.0) == 0 && Weekday(r.1) == 6
    ensures Ordinal(r.1) == Ordinal(r.0) + 6
    ensures Ordinal(r.0) <= Ordinal(today) <= Ordinal(r.1)
  {
    var start := WeekStart(today);
    var end := AddDays(start, 6);
    SundayAfterMonday(start, end);
    (start, end)
  }

  /** `today - timedelta(days=today.weekday())`: the Monday on or before `today`. */
  function WeekStart(today: Date): (r: Date)
    requires Valid(today)
    ensures Valid(r) && Weekday(r) == 0
    ensures Ordinal(today) - 6 <= Ordinal(r) <= Ordinal(today)
  {
    var w := Weekday(today);
    BackToMonday(Ordinal(today));
    var r := AddDays(today, -w);
    MondayOf(today, r);
    r
  }

  /** Stepping back `weekday()` days from ordinal `o` does not go before day 1. */
  lemma BackToMonday(o: int)
    requires o >= 1
    ensures o - (o + 6) % 7 >= 1
  {
    var w := (o + 6) % 7;
    var q := (o + 6) / 7;
    assert o + 6 == 7 * q + w;
  }

  /** The day `weekday()` days before `today` is a Monday. */
  lemma MondayOf(today: Date, r: Date)
    requires Valid(today) && Valid(r)
    requires Ordinal(r) == Ordinal(today) - Weekday(today)
    ensures Weekday(r) == 0
  {
    MondayArithmetic(Ordinal(today), Ordinal(r));
  }

  lemma MondayArithmetic(o: int, p: int)
    requires p == o - (o + 6) % 7
    ensures (p + 6) % 7 == 0
  {
    var q := (o + 6) / 7;
    assert o + 6 == 7 * q + (o + 6) % 7;
    assert p + 6 == 7 * q;
  }

  /** Six days after a Monday is a Sunday. */
  lemma SundayAfterMonday(start: Date, end: Date)
    requires Valid(start) && Valid(end) && Weekday(start) == 0
    requires Ordinal(end) == Ordinal(start) + 6
    ensures Weekday(end) == 6
  {
    SundayArithmetic(Ordinal(start), Ordinal(end));
  }

  lemma SundayArithmetic(o: int, p: int)
    requires (o + 6) % 7 == 0 && p == o + 6
    ensures (p + 6) % 7 == 6
  {
    var q := (o + 6) / 7;
    assert o + 6 == 7 * q;
    assert p + 6 == 7 * q + 6;
  }

  /** A `__range` filter on a date column: both ends included. */
  predicate InDateRange(d: Date, range: (Date, Date))
    requires Valid(d) && Valid(range.0) && Valid(range.1)
  {
    Ordinal(range.0) <= Ordinal(d) <= Ordinal(range.1)
  }

  /** A moment as the model counts it: a date and the minute of that day. */
  datatype Moment = Moment(date: Date, minute: nat)

  predicate ValidMoment(m: Moment) {
    Valid(m.date) && m.minute < 1440
  }

  /** Minutes from the start of the ordinal scale. */
  function Timestamp(m: Moment): int
    requires ValidMoment(m)
  {
    Ordinal(m.date) * 1440 + m.minute
  }

  /** A `__range` filter on a date-time column given two dates, as written: each date is
      read as midnight at its start, so the last day is cut off after 00:00. */
  function InMomentRange(m: Moment, range: (Date, Date)): (r: bool)
    requires ValidMoment(m) && Valid(range.0) && Valid(range.1)
    ensures r <==> InDateRange(m.date, range) && (Ordinal(m.date) < Ordinal(range.1) || m.minute == 0)
  {
    Ordinal(range.0) * 1440 <= Timestamp(m) <= Ordinal(range.1) * 1440
  }

  /** The evidently intended reading: every moment of every day of the range. */
  predicate InMomentRangeFixed(m: Moment, range: (Date, Date))
    requires ValidMoment(m) && Valid(range.0) && Valid(range.1)
  {
    InDateRange(m.date, range)
  }

  /** A customer signing up on the Sunday of the week after midnight is left out of
      the weekly count as written, and counted by the intended reading. */
  lemma SundayAfterMidnightIsMissed(today: Date, minute: nat)
    requires Valid(today) && 0 < minute < 1440
    ensures var week := WeekRange(today);
            var m := Moment(week.1, minute);
            ValidMoment(m) && !InMomentRange(m, week) && InMomentRangeFixed(m, week)
  {
  }

  /** The fixed reading agrees with the written one on every day but the last, and
      at 00:00 on the last. */
  lemma MomentRangesAgreeBeforeLastDay(m: Moment, range: (Date, Date))
    requires ValidMoment(m) && Valid(range.0) && Valid(range.1)
    requires Ordinal(m.date) != Ordinal(range.1) || m.minute == 0
    ensures InMomentRange(m, range) <==> InMomentRangeFixed(m, range)
  {
  }

  /** The rows the dashboard counts. */
  datatype InvoiceRow = InvoiceRow(issueDate: Date, amount: Option<int>, paid: bool)
  datatype AppointmentRow = AppointmentRow(requestedDate: Date, accepted: Appointments.Status)
  datatype SignupRow = SignupRow(createdAt: Moment)

  datatype Counts = Counts(weeklyInvoices: nat, unpaidInvoices: nat, weeklyAppointments: nat, weeklySignups: nat)

  /** Count of the elements passing `p`. */
  function CountWhere<T>(s: seq<T>, p: T -> bool): (r: nat)
    ensures r <= |s|
    ensures r == |Seqs.Filter(s, p)|
  {
    |Seqs.Filter(s, p)|
  }

  /** The row filters of the dashboard's week. */
  function IssuedIn(week: (Date, Date)): InvoiceRow -> bool
    requires Valid(week.0) && Valid(week.1)
  {
    (i: InvoiceRow) => Valid(i.issueDate) && InDateRange(i.issueDate, week)
  }

  function UnpaidIssuedIn(week: (Date, Date)): InvoiceRow -> bool
    requires Valid(week.0) && Valid(week.1)
  {
    (i: InvoiceRow) => Valid(i.issueDate) && InDateRange(i.issueDate, week) && !i.paid
  }

  function AcceptedIn(week: (Date, Date)): AppointmentRow -> bool
    requires Valid(week.0) && Valid(week.1)
  {
    (a: AppointmentRow) => a.accepted == Appointments.Accepted && Valid(a.requestedDate) && InDateRange(a.requestedDate, week)
  }

  /** `created_at__range=[week_start, week_end]` as written. */
  function SignedUpIn(week: (Date, Date)): SignupRow -> bool
    requires Valid(week.0) && Valid(week.1)
  {
    (c: SignupRow) => ValidMoment(c.createdAt) && InMomentRange(c.createdAt, week)
  }

  /** The sign-up filter with the intended reading of the range. */
  function SignedUpInFixed(week: (Date, Date)): SignupRow -> bool
    requires Valid(week.0) && Valid(week.1)
  {
    (c: SignupRow) => ValidMoment(c.createdAt) && InMomentRangeFixed(c.createdAt, week)
  }

  /** The "counts" block of `DashboardView.get`: invoices issued this week, the unpaid
      ones among them, accepted appointments requested this week, and sign-ups between
      Monday 00:00 and Sunday 00:00, as the range on the date-time column reads. */
  function WeeklyCounts(today: Date, invoices: seq<InvoiceRow>, appointments: seq<AppointmentRow>, signups: seq<SignupRow>): (r: Counts)
    requires Valid(today)
    ensures var week := WeekRange(today);
      && r.weeklyInvoices == |Seqs.Filter(invoices, IssuedIn(week))|
      && r.unpaidInvoices == |Seqs.Filter(invoices, UnpaidIssuedIn(week))|
      && r.unpaidInvoices <= r.weeklyInvoices
      && r.weeklyAppointments == |Seqs.Filter(appointments, AcceptedIn(week))|
      && r.weeklySignups == |Seqs.Filter(signups, SignedUpIn(week))|
  {
    var week := WeekRange(today);
    var unpaid := (i: InvoiceRow) => !i.paid;
    var inWeek := Seqs.Filter(invoices, IssuedIn(week));
    Seqs.FilterFilter(invoices, IssuedIn(week), unpaid, UnpaidIssuedIn(week));
    Counts(
      CountWhere(invoices, IssuedIn(week)),
      |Seqs.Filter(inWeek, unpaid)|,
      CountWhere(appointments, AcceptedIn(week)),
      CountWhere(signups, SignedUpIn(week)))
  }

  /** The counts with the intended sign-up range: sign-ups on any day of the week. */
  function WeeklyCountsFixed(today: Date, invoices: seq<InvoiceRow>, appointments: seq<AppointmentRow>, signups: seq<SignupRow>): (r: Counts)
    requires Valid(today)
    ensures r.weeklySignups == |Seqs.Filter(signups, SignedUpInFixed(WeekRange(today)))|
    ensures r.(weeklySignups := 0) == WeeklyCounts(today, invoices, appointments, signups).(weeklySignups := 0)
  {
    WeeklyCounts(today, invoices, appointments, signups).(weeklySignups := CountWhere(signups, SignedUpInFixed(WeekRange(today))))
  }

  /** A sign-up on the Sunday of the week after 00:00. */
  predicate LateSunday(week: (Date, Date), c: SignupRow)
    requires Valid(week.1)
  {
    ValidMoment(c.createdAt) && Ordinal(c.createdAt.date) == Ordinal(week.1) && c.createdAt.minute > 0
  }

  /** The written count never exceeds the intended one, and the two are equal exactly
      when no sign-up falls on the Sunday after 00:00 (the only moments the written
      range misses). */
  lemma WeeklySignupsAtMostFixed(today: Date, invoices: seq<InvoiceRow>, appointments: seq<AppointmentRow>, signups: seq<SignupRow>)
    requires Valid(today)
    ensures WeeklyCounts(today, invoices, appointments, signups).weeklySignups
            <= WeeklyCountsFixed(today, invoices, appointments, signups).weeklySignups
    ensures (forall i :: 0 <= i < |signups| ==> !LateSunday(WeekRange(today), signups[i])) ==>
              WeeklyCounts(today, invoices, appointments, signups) == WeeklyCountsFixed(today, invoices, appointments, signups)
  {
    var week := WeekRange(today);
    Seqs.FilterMonotone(signups, SignedUpIn(week), SignedUpInFixed(week));
    if forall i :: 0 <= i < |signups| ==> !LateSunday(week, signups[i]) {
      forall i | 0 <= i < |signups| ensures SignedUpIn(week)(signups[i]) == SignedUpInFixed(week)(signups[i]) {
        if ValidMoment(signups[i].createdAt) {
          MomentRangesAgreeBeforeLastDay(signups[i].createdAt, week);
        }
      }
      Seqs.FilterCongruent(signups, SignedUpIn(week), SignedUpInFixed(week));
    }
  }

  /** The sum of the non-null amounts. */
  function SumAmounts(amounts: seq<Option<int>>): int
  {
    if |amounts| == 0 then 0
    else (if amounts[0].Some? then amounts[0].value else 0) + SumAmounts(amounts[1..])
  }

  /** SQL `SUM`: null over a set of rows with no non-null amount. */
  function SqlSum(amounts: seq<Option<int>>): (r: Option<int>)
    ensures r.None? <==> forall k :: 0 <= k < |amounts| ==> amounts[k].None?
    ensures r.Some? ==> r.value == SumAmounts(amounts)
  {
    if |amounts| == 0 then None
    else
      var rest := SqlSum(amounts[1..]);
      assert forall k :: 1 <= k < |amounts| ==> amounts[k] == amounts[1..][k - 1];
      if amounts[0].None? then rest
      else if rest.None? then
        NullSumIsZero(amounts[1..]);
        Some(amounts[0].value)
      else Some(amounts[0].value + rest.value)
  }

  /** `aggregate(Sum("amount"))["total"] or 0`. */
  function Revenue(amounts: seq<Option<int>>): (r: int)
    ensures (forall k :: 0 <= k < |amounts| ==> amounts[k].None?) ==> r == 0
  {
    SqlSum(amounts).GetOr(0)
  }

  /** With no invoices, or only unpriced ones, the revenue is 0; otherwise it is the sum
      of the amounts, so the `or 0` never hides a real total. */
  lemma {:induction false} RevenueIsSumOfAmounts(amounts: seq<Option<int>>)
    ensures Revenue(amounts) == SumAmounts(amounts)
  {
    if SqlSum(amounts).None? {
      NullSumIsZero(amounts);
    }
  }

  lemma {:induction false} NullSumIsZero(amounts: seq<Option<int>>)
    requires forall k :: 0 <= k < |amounts| ==> amounts[k].None?
    ensures SumAmounts(amounts) == 0
  {
    if |amounts| > 0 {
      assert forall k :: 0 <= k < |amounts[1..]| ==> amounts[1..][k] == amounts[k + 1];
      NullSumIsZero(amounts[1..]);
    }
  }

  /** The amounts of the invoices issued in the month of `today`. */
  function MonthAmounts(today: Date, invoices: seq<InvoiceRow>): (r: seq<Option<int>>)
    ensures |r| <= |invoices|
  {
    var inMonth := Seqs.Filter(invoices, (i: InvoiceRow) => i.issueDate.year == today.year && i.issueDate.month == today.month);
    seq(|inMonth|, k requires 0 <= k < |inMonth| => inMonth[k].amount)
  }

  /** `today.replace(year=today.year-1)`, the lower bound of the twelve-month revenue
      chart: the same month and day a year earlier. It raises (None here) on 29 February,
      which the year before does not have, and in year 1, since there is no year 0. */
  function YearAgo(today: Date): (r: Option<Date>)
    requires Valid(today)
    ensures r.None? <==> today.year == 1 || (today.month == 2 && today.day == 29)
    ensures r.Some? ==> r.value == Date(today.year - 1, today.month, today.day) && Valid(r.value)
  {
    var d := Date(today.year - 1, today.month, today.day);
    if Valid(d) then Some(d) else None
  }

  /** The evidently intended bound: a year back, 28 February for 29 February, and the
      first day of the calendar in year 1. */
  function YearAgoFixed(today: Date): (r: Date)
    requires Valid(today)
    ensures Valid(r) && Ordinal(r) <= Ordinal(today)
    ensures YearAgo(today).Some? ==> r == YearAgo(today).value
    ensures today.year > 1 ==> 365 <= Ordinal(today) - Ordinal(r) <= 366
  {
    if today.year == 1 then Date(1, 1, 1)
    else
      var r := Date(today.year - 1, today.month, if today.month == 2 && today.day == 29 then 28 else today.day);
      OneYearBack(today, r);
      r
  }

  /** The same day a year earlier (28 February for 29 February) is 365 or 366 days back. */
  lemma OneYearBack(today: Date, r: Date)
    requires Valid(today) && today.year > 1
    requires r == Date(today.year - 1, today.month, if today.month == 2 && today.day == 29 then 28 else today.day)
    ensures Valid(r)
    ensures 365 <= Ordinal(today) - Ordinal(r) <= 366
  {
    var y := today.year;
    assert !(IsLeap(y) && IsLeap(y - 1)) by {
      if y % 4 == 0 {
        assert (y - 1) % 4 == 3;
      }
    }
    assert DaysBeforeYear(y) == DaysBeforeYear(y - 1) + DaysInYear(y - 1);
  }

  /** The dashboard's answer: a 403 for anyone but a superuser, a 500 when the view
      raises, else the week, the counts, the two revenue figures and the first day the
      twelve-month chart covers. */
  datatype Dashboard =
    | Forbidden
    | ServerError
    | Report(week: (Date, Date), counts: Counts, totalRevenue: int, revenueThisMonth: int, chartsFrom: Date)

  /** `DashboardView.get` as written. No URL pattern routes the view, so the page's
      request for `/api/dashboard/` reaches the catch-all template instead. */
  function DashboardView(isSuperuser: bool, today: Date, invoices: seq<InvoiceRow>, appointments: seq<AppointmentRow>, signups: seq<SignupRow>): (r: Dashboard)
    requires Valid(today)
    ensures r.Forbidden? <==> !isSuperuser
    ensures r.ServerError? <==> isSuperuser && YearAgo(today).None?
    ensures r.Report? ==> r.week == WeekRange(today) && Ordinal(r.week.0) <= Ordinal(today) <= Ordinal(r.week.1)
    ensures r.Report? ==> r.counts == WeeklyCounts(today, invoices, appointments, signups)
    ensures r.Report? && invoices == [] ==> r.totalRevenue == 0 && r.revenueThisMonth == 0
    ensures r.Report? ==> r.totalRevenue == SumAmounts(seq(|invoices|, k requires 0 <= k < |invoices| => invoices[k].amount))
    ensures r.Report? ==> r.revenueThisMonth == SumAmounts(MonthAmounts(today, invoices))
    ensures r.Report? ==> Some(r.chartsFrom) == YearAgo(today)
  {
    if !isSuperuser then Forbidden
    else if YearAgo(today).None? then ServerError
    else
      var all := seq(|invoices|, k requires 0 <= k < |invoices| => invoices[k].amount);
      var month := MonthAmounts(today, invoices);
      RevenueIsSumOfAmounts(all);
      RevenueIsSumOfAmounts(month);
      Report(WeekRange(today), WeeklyCounts(today, invoices, appointments, signups), Revenue(all), Revenue(month), YearAgo(today).value)
  }

  /** As written, a superuser opening the dashboard on 29 February gets a 500. */
  lemma LeapDayDashboardFails(today: Date, invoices: seq<InvoiceRow>, appointments: seq<AppointmentRow>, signups: seq<SignupRow>)
    requires Valid(today) && today.month == 2 && today.day == 29
    ensures DashboardView(true, today, invoices, appointments, signups) == ServerError
  {
  }

  /** The dashboard with both corrections: the intended sign-up range and a chart bound
      that exists on every day, so a superuser always gets a report. */
  function DashboardViewFixed(isSuperuser: bool, today: Date, invoices: seq<InvoiceRow>, appointments: seq<AppointmentRow>, signups: seq<SignupRow>): (r: Dashboard)
    requires Valid(today)
    ensures r.Forbidden? <==> !isSuperuser
    ensures isSuperuser ==> r.Report?
    ensures r.Report? ==> r.counts == WeeklyCountsFixed(today, invoices, appointments, signups)
    ensures r.Report? ==> Valid(r.chartsFrom) && Ordinal(r.chartsFrom) <= Ordinal(today)
    ensures r.Report? && today.year > 1 ==> 365 <= Ordinal(today) - Ordinal(r.chartsFrom) <= 366
  {
    if !isSuperuser then Forbidden
    else
      var all := seq(|invoices|, k requires 0 <= k < |invoices| => invoices[k].amount);
      var counts := WeeklyCountsFixed(today, invoices, appointments, signups);
      var from := YearAgoFixed(today);
      Report(WeekRange(today), counts, Revenue(all), Revenue(MonthAmounts(today, invoices)), from)
  }

  /** Wherever the written view answers, the corrected one answers the same but for the
      sign-up count, which it never makes smaller. */
  lemma DashboardVersionsAgree(isSuperuser: bool, today: Date, invoices: seq<InvoiceRow>, appointments: seq<AppointmentRow>, signups: seq<SignupRow>)
    requires Valid(today)
    requires !DashboardView(isSuperuser, today, invoices, appointments, signups).ServerError?
    ensures var r := DashboardView(isSuperuser, today, invoices, appointments, signups);
            var f := DashboardViewFixed(isSuperuser, today, invoices, appointments, signups);
            r.Report? ==> f == r.(counts := f.counts) && r.counts.weeklySignups <= f.counts.weeklySignups
    ensures DashboardView(isSuperuser, today, invoices, appointments, signups).Forbidden? ==>
              DashboardViewFixed(isSuperuser, today, invoices, appointments, signups).Forbidden?
  {
    WeeklySignupsAtMostFixed(today, invoices, appointments, signups);
  }

  // ---------------------------------------------------------------------------
  // Activity middleware

  /** What the middleware reads of a request. */
  datatype Request = Request(forwardedFor: Option<string>, remoteAddr: Option<string>)

  /** The client address: the first entry of a non-empty `X-Forwarded-For`, trimmed;
      otherwise `REMOTE_ADDR`. */
  function ClientIp(req: Request): (r: Option<string>)
    ensures req.forwardedFor.None? || req.forwardedFor == Some("") ==> r == req.remoteAddr
    ensures req.forwardedFor.Some? && req.forwardedFor != Some("") ==>
              r == Some(Trim(BeforeFirst(req.forwardedFor.value, ','))) && !HasChar(r.value, ',')
  {
    match req.forwardedFor
    case Some(xff) =>
      if xff != "" then
        var first := BeforeFirst(xff, ',');
        TrimHasNoNewChars(first, ',');
        Some(Trim(first))
      else req.remoteAddr
    case None => req.remoteAddr
  }

  /** Trimming removes characters and never adds one. */
  lemma TrimHasNoNewChars(s: string, c: char)
    requires !HasChar(s, c)
    ensures !HasChar(Trim(s), c)
  {
    var a := TrimStart(s);
    var t := Trim(s);
    assert t == a[..|t|];
  }

  datatype Field = LastActive | IpAddress

  /** The fields whose stored value differs from the new one, in the order checked. */
  function ChangedFields(user: Users.User, now: string, ip: Option<string>): (r: seq<Field>)
    ensures LastActive in r <==> user.lastActive != now
    ensures IpAddress in r <==> user.ipAddress != ip
    ensures |r| <= 2
  {
    (if user.lastActive != now then [LastActive] else []) + (if user.ipAddress != ip then [IpAddress] else [])
  }

  /** Apply the listed fields' new values. */
  function ApplyFields(user: Users.User, fields: seq<Field>, now: string, ip: Option<string>): (r: Users.User)
    ensures r.lastActive == (if LastActive in fields then now else user.lastActive)
    ensures r.ipAddress == (if IpAddress in fields then ip else user.ipAddress)
    ensures r.(lastActive := user.lastActive, ipAddress := user.ipAddress) == user
  {
    user.(lastActive := if LastActive in fields then now else user.lastActive,
          ipAddress := if IpAddress in fields then ip else user.ipAddress)
  }

  /** A write of some fields of an account. */
  datatype Save = Save(user: Users.User, fields: seq<Field>)

  /** `UpdateLastActiveMiddleware.__call__`: the response passes through untouched; for
      an authenticated user the changed fields, if any, are written, and only those. The
      clock reading is a parameter. */
  function Middleware<R>(user: Option<Users.User>, req: Request, now: string, response: R): (r: (R, Option<Save>))
    ensures r.0 == response
    ensures user.None? ==> r.1.None?
    ensures r.1.Some? ==> user.Some? && r.1.value.fields != []
    ensures r.1.Some? ==> r.1.value.user.lastActive == now && r.1.value.user.ipAddress == ClientIp(req)
    ensures r.1.Some? ==> forall f :: f in r.1.value.fields <==>
              (f == LastActive && user.value.lastActive != now) || (f == IpAddress && user.value.ipAddress != ClientIp(req))
    ensures user.Some? ==> (r.1.None? <==> user.value.lastActive == now && user.value.ipAddress == ClientIp(req))
  {
    match user
    case None => (response, None)
    case Some(u) =>
      var ip := ClientIp(req);
      var fields := ChangedFields(u, now, ip);
      if fields == [] then (response, None)
      else (response, Some(Save(ApplyFields(u, fields, now, ip), fields)))
  }

  /** A second request at the same moment from the same address writes nothing. */
  lemma MiddlewareSettles<R>(u: Users.User, req: Request, now: string, response: R)
    requires Middleware(Some(u), req, now, response).1.Some?
    ensures Middleware(Some(Middleware(Some(u), req, now, response).1.value.user), req, now, response).1.None?
  {
  }
}

=== FILE: invoice_list.dfy ===
/** The invoice list screen (web_app/src/components/Invoices.js): the search filter and
    the customer and location columns. */
module InvoiceList {
  import opened Wrappers
  import opened Strings
  import Seqs

  /** One row as the list endpoint returns it; missing texts are None. */
  datatype InvoiceRow = InvoiceRow(
    number: string,
    customer: nat,
    customerName: Option<string>,
    customerCity: Option<string>,
    customerState: Option<string>)

  /** JavaScript's `text || ""`: a missing text reads as empty. */
  function OrEmpty(t: Option<string>): string
  {
    t.GetOr("")
  }

  /** The per-row test: a blank search keeps everything; otherwise the lower-cased
      number or customer name must contain the lower-cased search, which is not
      trimmed. */
  predicate Matches(search: string, row: InvoiceRow)
  {
    Trim(search) == [] || Contains(Lower(row.number), Lower(search)) || Contains(Lower(OrEmpty(row.customerName)), Lower(search))
  }

  /** `filteredInvoices`. */
  function FilterInvoices(rows: seq<InvoiceRow>, search: string): (r: seq<InvoiceRow>)
    ensures forall i :: 0 <= i < |r| ==> r[i] in rows && Matches(search, r[i])
    ensures forall i :: 0 <= i < |rows| && Matches(search, rows[i]) ==> rows[i] in r
    ensures Seqs.IsSubsequence(r, rows)
  {
    Seqs.FilterIsSubsequence(rows, (row: InvoiceRow) => Matches(search, row));
    Seqs.Filter(rows, (row: InvoiceRow) => Matches(search, row))
  }

  /** An empty or all-whitespace search shows every invoice in its original order. */
  lemma BlankSearchShowsAll(rows: seq<InvoiceRow>, search: string)
    requires IsBlank(search)
    ensures FilterInvoices(rows, search) == rows
  {
    TrimEmptyIffBlank(search);
    Seqs.FilterAll(rows, (row: InvoiceRow) => Matches(search, row));
  }

  /** A non-blank search keeps a row exactly when it matches the number or the name. */
  lemma SearchKeepsExactlyMatches(rows: seq<InvoiceRow>, search: string, row: InvoiceRow)
    requires !IsBlank(search) && row in rows
    ensures row in FilterInvoices(rows, search)
        <==> Contains(Lower(row.number), Lower(search)) || Contains(Lower(OrEmpty(row.customerName)), Lower(search))
  {
    TrimEmptyIffBlank(search);
  }

  /** The search is not trimmed: a trailing space makes "001 " miss invoice
      "250101001", which "001" finds. */
  lemma UntrimmedSearchMisses()
    ensures Matches("001", InvoiceRow("250101001", 4, None, None, None))
    ensures !Matches("001 ", InvoiceRow("250101001", 4, None, None, None))
  {
    TermFindsNumber();
    PaddedTermMisses();
  }

  lemma TermFindsNumber()
    ensures Contains(Lower("250101001"), Lower("001"))
  {
    var number, term := "250101001", "001";
    LowerOfLowercase(number);
    LowerOfLowercase(term);
    assert number[6..9] == term;
    assert OccursAt(number, term, 6);
  }

  lemma PaddedTermMisses()
    ensures !Matches("001 ", InvoiceRow("250101001", 4, None, None, None))
  {
    PaddedNotBlank();
    PaddedNotInNumber();
    PaddedNotInEmpty();
  }

  lemma PaddedNotBlank()
    ensures Trim("001 ") != []
  {
    assert !IsSpace("001 "[0]);
    TrimEmptyIffBlank("001 ");
  }

  lemma PaddedNotInNumber()
    ensures !Contains(Lower("250101001"), Lower("001 "))
  {
    LowerOfLowercase("250101001");
    LowerOfLowercase("001 ");
    NoSpaceMissesPadded("250101001", "001 ");
  }

  lemma PaddedNotInEmpty()
    ensures !Contains(Lower(""), Lower("001 "))
  {
    LowerOfLowercase("001 ");
    NoSpaceMissesPadded("", "001 ");
  }

  /** A term ending in a space never occurs in a text without spaces. */
  lemma NoSpaceMissesPadded(text: string, term: string)
    requires |term| > 0 && term[|term| - 1] == ' '
    requires forall i :: 0 <= i < |text| ==> text[i] != ' '
    ensures !Contains(text, term)
  {
    forall i | 0 <= i <= |text| ensures !OccursAt(text, term, i) {
      if i + |term| <= |text| {
        assert text[i..i + |term|][|term| - 1] != term[|term| - 1];
      }
    }
  }

  /** Text without upper-case letters is its own lower-case form. */
  lemma LowerOfLowercase(s: string)
    requires forall i :: 0 <= i < |s| ==> !IsUpper(s[i])
    ensures Lower(s) == s
  {
  }

  /** A present, non-empty text (JavaScript truthiness). */
  predicate Truthy(t: Option<string>)
  {
    t.Some? && t.value != ""
  }

  /** The Customer column: the name, or `Customer #<id>` when it is missing or empty. */
  function CustomerLabel(row: InvoiceRow): (r: string)
    ensures Truthy(row.customerName) ==> r == row.customerName.value
    ensures !Truthy(row.customerName) ==> StartsWith(r, "Customer #") && r[10..] == NatToString(row.customer)
  {
    if Truthy(row.customerName) then row.customerName.value
    else
      "Customer #" + NatToString(row.customer)
  }

  /** The Location column: "city, state" when both are present and non-empty, else a dash. */
  function Location(row: InvoiceRow): (r: string)
    ensures Truthy(row.customerCity) && Truthy(row.customerState) ==>
              StartsWith(r, row.customerCity.value + ", ") && EndsWith(r, row.customerState.value)
              && |r| == |row.customerCity.value| + 2 + |row.customerState.value|
    ensures !(Truthy(row.customerCity) && Truthy(row.customerState)) ==> r == "—"
  {
    if Truthy(row.customerCity) && Truthy(row.customerState)
    then row.customerCity.value + ", " + row.customerState.value
    else "—"
  }
}

=== FILE: invoice_pdf.dfy ===
/** The totals of the invoice PDF (invoices/pdf.py): the breakdown rows and the payment
    summary. Layout and the `.2f` renderings are not modelled; every breakdown value is
    an exact amount in hundred-millionths of a dollar (1e-8), the unit in which
    `subtotal * tax_rate / 100` is exact. */
module InvoicePdf {
  import opened Wrappers
  import Strings
  import Invoices

  /** Ten-thousandths (line totals) and cents (amount, discount, payments) in 1e-8. */
  function FromE4(x: int): int { x * 10000 }
  function FromCents(x: int): int { x * 1000000 }

  /** `str(tax_rate)` for a two-place decimal given in hundredths: the whole part, a
      dot and two digits, which read back as the rate. */
  function RateText(hundredths: nat): (r: string)
    ensures |r| >= 4 && r[|r| - 3] == '.'
    ensures forall i :: 0 <= i < |r| && i != |r| - 3 ==> Strings.IsDigit(r[i])
    ensures Strings.ParseNat(r[..|r| - 3]) == hundredths / 100
    ensures Strings.ParseNat(r[|r| - 2..]) == hundredths % 100
    ensures 100 * Strings.ParseNat(r[..|r| - 3]) + Strings.ParseNat(r[|r| - 2..]) == hundredths
  {
    var whole := Strings.NatToString(hundredths / 100);
    var frac := Strings.Pad(hundredths % 100, 2);
    var r := whole + "." + frac;
    assert r[..|r| - 3] == whole;
    assert r[|r| - 2..] == frac;
    Strings.ParseNatToString(hundredths / 100);
    Strings.ParsePad(hundredths % 100, 2);
    r
  }

  /** One breakdown row: a label and an amount; the spacer row has neither. */
  datatype Row = Row(caption: string, value: Option<int>)

  /** The figures the PDF computes. */
  datatype Totals = Totals(partsSubtotal: int, laborSubtotal: int, subtotal: int, tax: int)

  /** Subtotals summed line by line, their sum, and `subtotal * (tax_rate / 100)`. */
  function ComputeTotals(g: Invoices.Ledger): (r: Totals)
    ensures r.subtotal == r.partsSubtotal + r.laborSubtotal
    ensures r.tax * 10000 == r.subtotal * g.invoice.taxRate
  {
    var parts := FromE4(Invoices.PartsSum(g.parts));
    var labor := FromE4(Invoices.LaborSum(g.labor));
    var subtotal := parts + labor;
    var lines := Invoices.PartsSum(g.parts) + Invoices.LaborSum(g.labor);
    assert subtotal == lines * 10000;
    assert subtotal * g.invoice.taxRate == (lines * g.invoice.taxRate) * 10000;
    Totals(parts, labor, subtotal, lines * g.invoice.taxRate)
  }

  /** The caption of the tax row, `Tax (<rate>%)`. */
  function TaxCaption(rate: int): (r: string)
    requires rate >= 0
    ensures Strings.StartsWith(r, "Tax (") && r != "Discount"
  {
    var r := "Tax (" + RateText(rate) + "%)";
    assert r[0] == 'T' && r[..5] == "Tax (";
    r
  }

  /** The breakdown rows. Formatting a NULL amount for the Grand Total raises. */
  function Breakdown(g: Invoices.Ledger): (r: Result<seq<Row>, Invoices.InvoiceError>)
    requires g.invoice.taxRate >= 0
    ensures r.Err? <==> g.invoice.amount.None?
    ensures r.Ok? ==> |r.value| == (if g.invoice.discount > 0 then 7 else 6)
    ensures r.Ok? ==>
              && r.value[0] == Row("Parts Total", Some(ComputeTotals(g).partsSubtotal))
              && r.value[1] == Row("Labor Total", Some(ComputeTotals(g).laborSubtotal))
              && r.value[2] == Row("Subtotal", Some(ComputeTotals(g).subtotal))
              && Strings.StartsWith(r.value[3].caption, "Tax (") && r.value[3].value == Some(ComputeTotals(g).tax)
    ensures r.Ok? ==> r.value[|r.value| - 1] == Row("Grand Total", Some(FromCents(g.invoice.amount.value)))
    ensures r.Ok? ==> r.value[|r.value| - 2] == Row("", None)
    ensures r.Ok? ==> ((exists i :: 0 <= i < |r.value| && r.value[i].caption == "Discount") <==> g.invoice.discount > 0)
  {
    if g.invoice.amount.None? then Err(Invoices.AmountIsNull)
    else
      var t := ComputeTotals(g);
      var head := [
        Row("Parts Total", Some(t.partsSubtotal)),
        Row("Labor Total", Some(t.laborSubtotal)),
        Row("Subtotal", Some(t.subtotal)),
        Row(TaxCaption(g.invoice.taxRate), Some(t.tax))
      ];
      var tail := [Row("", None), Row("Grand Total", Some(FromCents(g.invoice.amount.value)))];
      if g.invoice.discount > 0 then
        var rows := head + [Row("Discount", Some(-FromCents(g.invoice.discount)))] + tail;
        assert rows[4].caption == "Discount";
        Ok(rows)
      else
        var rows := head + tail;
        assert forall i :: 0 <= i < |rows| ==> rows[i].caption != "Discount";
        Ok(rows)
  }

  /** The subtotal row is the exact sum that `recalculate_amount` stores rounded to
      cents: the stored amount is within half a cent of it. */
  lemma SubtotalIsRecalculatedAmount(g: Invoices.Ledger)
    ensures var stored := FromCents(Invoices.RecalculateAmount(g).invoice.amount.value);
            stored - 500000 <= ComputeTotals(g).subtotal <= stored + 500000
  {
  }

  /** The Grand Total is the stored amount, whatever the tax rate and discount: it is
      the subtotal rounded to cents when the amount matches the lines, and when the
      lines are whole cents and tax and discount do not cancel, it differs from
      subtotal plus tax minus discount. */
  lemma GrandTotalOmitsTaxAndDiscount(g: Invoices.Ledger, taxRate: int, discount: int)
    requires Invoices.AmountMatchesLines(g) && g.invoice.taxRate >= 0 && taxRate >= 0
    ensures Breakdown(g).value[|Breakdown(g).value| - 1].value == Some(FromCents(Invoices.ToCents(ComputeTotals(g).subtotal / 10000)))
    ensures var h := g.(invoice := g.invoice.(taxRate := taxRate, discount := discount));
            Breakdown(h).value[|Breakdown(h).value| - 1] == Breakdown(g).value[|Breakdown(g).value| - 1]
    ensures Invoices.LinesTotal(g) % 100 == 0 && ComputeTotals(g).tax != FromCents(g.invoice.discount) ==>
              FromCents(g.invoice.amount.value) != ComputeTotals(g).subtotal + ComputeTotals(g).tax - FromCents(g.invoice.discount)
  {
    if Invoices.LinesTotal(g) % 100 == 0 {
      Invoices.ToCentsOfCents(Invoices.LinesTotal(g) / 100);
    }
  }

  /** The whole-cent condition above is needed: 1.25 hours at $33.33 with a 60% tax and
      a $25.00 discount make $41.6625 + $24.9975 − $25.00 = $41.66, the stored amount. */
  lemma FractionalCentsCanMatchGrandTotal(g: Invoices.Ledger)
    requires g.parts == [] && |g.labor| == 1 && g.labor[0].hours == 125 && g.labor[0].hourlyRate == 3333
    requires g.invoice.taxRate == 6000 && g.invoice.discount == 2500 && Invoices.AmountMatchesLines(g)
    ensures FromCents(g.invoice.amount.value) == ComputeTotals(g).subtotal + ComputeTotals(g).tax - FromCents(g.invoice.discount)
  {
    assert Invoices.LaborSum(g.labor) == 416625 + Invoices.LaborSum([]);
  }

  /** The payment section: absent without payments, else the total paid and the
      balance, shown as a heading exactly when something is still owed. */
  datatype PaymentSummary = NoPayments | Summary(totalPaid: int, balance: int, emphasised: bool)

  function PaymentsSum(ps: seq<Invoices.Payment>): int {
    if |ps| == 0 then 0 else ps[0].amount + PaymentsSum(ps[1..])
  }

  /** `balance_due = amount - total_paid`, not clamped at zero. */
  function Payments(g: Invoices.Ledger): (r: Result<PaymentSummary, Invoices.InvoiceError>)
    ensures |g.payments| == 0 ==> r == Ok(NoPayments)
    ensures |g.payments| > 0 ==> (r.Err? <==> g.invoice.amount.None?)
    ensures r.Ok? && r.value.Summary? ==>
              && r.value.totalPaid == FromCents(PaymentsSum(g.payments))
              && r.value.balance + r.value.totalPaid == FromCents(g.invoice.amount.value)
              && (r.value.emphasised <==> r.value.balance > 0)
  {
    if |g.payments| == 0 then Ok(NoPayments)
    else if g.invoice.amount.None? then Err(Invoices.AmountIsNull)
    else
      var paid := FromCents(PaymentsSum(g.payments));
      var balance := FromCents(g.invoice.amount.value) - paid;
      Ok(Summary(paid, balance, balance > 0))
  }

  /** Overpayment shows as a negative balance in plain style. */
  lemma OverpaymentGivesNegativeBalance(g: Invoices.Ledger)
    requires |g.payments| > 0 && g.invoice.amount.Some?
    requires FromCents(PaymentsSum(g.payments)) > FromCents(g.invoice.amount.value)
    ensures Payments(g).value.balance < 0 && !Payments(g).value.emphasised
  {
  }
}

=== FILE: invoice_signals.dfy ===
/** The invoice save signals (invoices/signals.py): creation defaults before the first
    save, and the amount recalculation after later saves. */
module InvoiceSignals {
  import opened Wrappers
  import Strings
  import Dates
  import Invoices

  /** `if instance.pk:` — a present, non-zero key. */
  predicate HasKey(inv: Invoices.Invoice) {
    inv.pk.Some? && inv.pk.value != 0
  }

  /** `set_invoice_defaults` (pre_save), together with the `auto_now_add` issue date.
      `countToday` is the number of invoices already issued today. */
  function SetInvoiceDefaults(inv: Invoices.Invoice, today: Dates.Date, countToday: nat): (r: Invoices.Invoice)
    requires Dates.Valid(today)
    ensures HasKey(inv) ==> r == inv
    ensures !HasKey(inv) ==>
              && r.number == Invoices.InvoiceNumber(today, countToday)
              && r.amount == Some(0)
              && r.dueDate == Some(Dates.AddDays(today, 3))
              && r.issueDate == today
              && r.(number := inv.number, amount := inv.amount, dueDate := inv.dueDate, issueDate := inv.issueDate) == inv
  {
    if HasKey(inv) then inv
    else inv.(number := Invoices.InvoiceNumber(today, countToday), amount := Some(0),
              dueDate := Some(Dates.AddDays(today, 3)), issueDate := today)
  }

  /** A new invoice is due three days after it is issued and is not yet overdue then. */
  lemma NewInvoiceDueInThreeDays(inv: Invoices.Invoice, today: Dates.Date, countToday: nat)
    requires Dates.Valid(today) && !HasKey(inv)
    ensures Invoices.DaysUntilDue(SetInvoiceDefaults(inv, today, countToday), today) == Some(3)
    ensures !Invoices.IsOverdue(SetInvoiceDefaults(inv, today, countToday), today)
  {
  }

  /** Whether `update_invoice_amount` recalculates: not on creation, and when
      `update_fields` is given only if it names `tax_rate` or `discount`. */
  predicate Recalculates(created: bool, updateFields: Option<set<string>>) {
    !created && (updateFields.None? || "tax_rate" in updateFields.value || "discount" in updateFields.value)
  }

  /** `update_invoice_amount` as written: `recalculate_amount()` stores the sum (its own
      `save(update_fields=["amount"])` does not trigger another recalculation), then
      returns None, and that None is written to the amount column. */
  function UpdateInvoiceAmount(g: Invoices.Ledger, created: bool, updateFields: Option<set<string>>): (r: Invoices.Ledger)
    ensures !Recalculates(created, updateFields) ==> r == g
    ensures Recalculates(created, updateFields) ==> r.invoice.amount.None?
    ensures r.invoice.(amount := g.invoice.amount) == g.invoice && r.parts == g.parts && r.labor == g.labor
  {
    if !Recalculates(created, updateFields) then g
    else
      var recalculated := Invoices.RecalculateAmount(g);
      assert !Recalculates(false, Some({"amount"}));
      var returned: Option<int> := None;
      recalculated.(invoice := recalculated.invoice.(amount := returned))
  }

  /** As written, every plain `save()` of an existing invoice leaves its amount NULL,
      whatever its lines add up to. */
  lemma FullSaveNullsAmount(g: Invoices.Ledger)
    ensures !Invoices.AmountMatchesLines(UpdateInvoiceAmount(g, false, None))
    ensures UpdateInvoiceAmount(g, false, None).invoice.amount == None
  {
  }

  /** The evidently intended signal: store the recalculated sum. */
  function UpdateInvoiceAmountFixed(g: Invoices.Ledger, created: bool, updateFields: Option<set<string>>): (r: Invoices.Ledger)
    ensures !Recalculates(created, updateFields) ==> r == g
    ensures r.invoice.(amount := g.invoice.amount) == g.invoice && r.parts == g.parts && r.labor == g.labor
  {
    if !Recalculates(created, updateFields) then g
    else Invoices.RecalculateAmount(g)
  }

  /** With the fix, whenever the signal recalculates, the stored amount matches the
      lines; a save that does not recalculate keeps a matching amount matching. */
  lemma FixedSignalKeepsAmount(g: Invoices.Ledger, created: bool, updateFields: Option<set<string>>)
    requires Recalculates(created, updateFields) || Invoices.AmountMatchesLines(g)
    ensures Invoices.AmountMatchesLines(UpdateInvoiceAmountFixed(g, created, updateFields))
  {
  }

  /** `mark_paid` saves only the `paid` field, so neither version touches the amount. */
  lemma PaidOnlySaveKeepsAmount(g: Invoices.Ledger)
    ensures UpdateInvoiceAmount(g, false, Some({"paid"})) == g
    ensures UpdateInvoiceAmountFixed(g, false, Some({"paid"})) == g
  {
  }
}

=== FILE: invoice_views.dfy ===
/** Access rules and actions of the invoice endpoints (invoices/views.py) and the
    writable fields of the invoice serializer (invoices/serializers.py). Each entry of
    the table is one invoice with its lines and payments. */
module InvoiceViews {
  import opened Wrappers
  import Strings
  import Seqs
  import Invoices
  import InvoiceSignals

  type Ledger = Invoices.Ledger

  /** The authenticated requester. */
  datatype User = User(email: string, isSuperuser: bool)

  /** A query parameter: missing or empty, not a number, or a number. */
  datatype Param = Missing | Malformed | Parsed(value: nat)

  /** `customer__email__iexact=user.email`. */
  predicate OwnsIgnoringCase(u: User, g: Ledger) {
    Strings.Lower(g.invoice.customer.email) == Strings.Lower(u.email)
  }

  predicate QueryKeeps(u: User, customer: Param, g: Ledger) {
    (u.isSuperuser || OwnsIgnoringCase(u, g)) && (customer.Parsed? ==> g.invoice.customer.id == customer.value)
  }

  /** `get_queryset`: superusers see every invoice, others only invoices whose customer
      e-mail equals theirs ignoring case; `?customer=` narrows to one customer, and a
      non-numeric value raises (500). */
  function Queryset(table: seq<Ledger>, u: User, customer: Param): (r: Result<seq<Ledger>, int>)
    ensures r.Err? <==> customer.Malformed?
    ensures r.Ok? ==> forall g :: g in r.value <==> g in table && QueryKeeps(u, customer, g)
  {
    if customer.Malformed? then Err(500)
    else Ok(Seqs.Filter(table, (g: Ledger) => QueryKeeps(u, customer, g)))
  }

  /** `get_object` for a detail route: the invoice with that key within the queryset,
      else 404. */
  function GetObject(table: seq<Ledger>, u: User, id: nat): (r: Result<Ledger, int>)
    ensures r.Err? ==> r.error == 404
    ensures r.Ok? ==> r.value in table && r.value.invoice.pk == Some(id) && (u.isSuperuser || OwnsIgnoringCase(u, r.value))
    ensures r.Err? ==> forall g :: g in table && g.invoice.pk == Some(id) ==> !u.isSuperuser && !OwnsIgnoringCase(u, g)
  {
    var visible := Queryset(table, u, Missing).value;
    var k := Seqs.FindIndex(visible, (g: Ledger) => g.invoice.pk == Some(id));
    if k == -1 then Err(404) else Ok(visible[k])
  }

  /** The explicit owner check of `retrieve` and `perform_update`. */
  predicate Forbidden(u: User, g: Ledger) {
    !u.isSuperuser && Strings.Lower(g.invoice.customer.email) != Strings.Lower(u.email)
  }

  /** `retrieve`: `get_object`, then 403 for a non-owner. */
  function Retrieve(table: seq<Ledger>, u: User, id: nat): (r: Result<Ledger, int>)
    ensures r.Ok? ==> r.value in table && r.value.invoice.pk == Some(id)
  {
    match GetObject(table, u, id)
    case Err(e) => Err(e)
    case Ok(g) => if Forbidden(u, g) then Err(403) else Ok(g)
  }

  /** The 403 answer cannot occur: `get_object` already hides other customers'
      invoices, so a non-owner asking for an existing invoice gets 404. */
  lemma RetrieveNeverForbids(table: seq<Ledger>, u: User, id: nat)
    ensures Retrieve(table, u, id) != Err(403)
    ensures !u.isSuperuser && (forall g :: g in table && g.invoice.pk == Some(id) ==> !OwnsIgnoringCase(u, g))
            ==> Retrieve(table, u, id) == Err(404)
  {
  }

  /** The fields an update request may carry; absent fields are None. */
  datatype InvoicePatch = InvoicePatch(
    number: Option<string>,
    customer: Option<Invoices.Customer>,
    amount: Option<Option<int>>,
    issueDate: Option<Invoices.Dates.Date>,
    dueDate: Option<Option<Invoices.Dates.Date>>,
    paid: Option<bool>,
    taxRate: Option<int>,
    discount: Option<int>)

  /** The serializer's update: writable fields take the sent value, the read-only
      `invoice_number` and `issue_date` are ignored. */
  function ApplyPatch(inv: Invoices.Invoice, p: InvoicePatch): (r: Invoices.Invoice)
    ensures r.number == inv.number && r.issueDate == inv.issueDate && r.pk == inv.pk
    ensures r.paid == p.paid.GetOr(inv.paid) && r.dueDate == p.dueDate.GetOr(inv.dueDate)
    ensures r.amount == p.amount.GetOr(inv.amount) && r.customer == p.customer.GetOr(inv.customer)
    ensures r.taxRate == p.taxRate.GetOr(inv.taxRate) && r.discount == p.discount.GetOr(inv.discount)
  {
    inv.(customer := p.customer.GetOr(inv.customer), amount := p.amount.GetOr(inv.amount),
         dueDate := p.dueDate.GetOr(inv.dueDate), paid := p.paid.GetOr(inv.paid),
         taxRate := p.taxRate.GetOr(inv.taxRate), discount := p.discount.GetOr(inv.discount))
  }

  /** A request that sends only read-only fields changes nothing. */
  lemma ReadOnlyPatchIsIdentity(inv: Invoices.Invoice, number: Option<string>, issueDate: Option<Invoices.Dates.Date>)
    ensures ApplyPatch(inv, InvoicePatch(number, None, None, issueDate, None, None, None, None)) == inv
  {
  }

  /** The serializer's `DecimalField(max_digits=10, decimal_places=2)` for `amount`
      rejects a value of more than ten digits. */
  predicate AmountTooWide(p: InvoicePatch) {
    p.amount.Some? && p.amount.value.Some?
    && !(-10_000_000_000 < p.amount.value.value < 10_000_000_000)
  }

  /** `update` / `perform_update`: `get_object` (404), the serializer's validation (400),
      the owner check, then a full save. Its post-save signal as written leaves the
      amount NULL, whatever was sent. */
  function Update(table: seq<Ledger>, u: User, id: nat, p: InvoicePatch): (r: Result<Ledger, int>)
    ensures r.Err? ==> r.error == 404 || r.error == 400
    ensures r.Err? && r.error == 400 <==> GetObject(table, u, id).Ok? && AmountTooWide(p)
    ensures r.Ok? ==> r.value.invoice.amount.None?
    ensures r.Ok? ==> exists g :: g in table && g.invoice.pk == Some(id)
                        && r.value == g.(invoice := ApplyPatch(g.invoice, p).(amount := None))
  {
    match GetObject(table, u, id)
    case Err(e) => Err(e)
    case Ok(g) =>
      if AmountTooWide(p) then Err(400)
      else if Forbidden(u, g) then Err(403)
      else Ok(InvoiceSignals.UpdateInvoiceAmount(g.(invoice := ApplyPatch(g.invoice, p)), false, None))
  }

  /** The update under the corrected signal: the amount is recalculated from the lines. */
  function UpdateFixed(table: seq<Ledger>, u: User, id: nat, p: InvoicePatch): (r: Result<Ledger, int>)
    ensures r.Err? ==> r.error == 404 || r.error == 400
    ensures r.Ok? ==> Invoices.AmountMatchesLines(r.value)
    ensures r.Ok? ==> exists g :: g in table && g.invoice.pk == Some(id)
                        && r.value == Invoices.RecalculateAmount(g.(invoice := ApplyPatch(g.invoice, p)))
  {
    match GetObject(table, u, id)
    case Err(e) => Err(e)
    case Ok(g) =>
      if AmountTooWide(p) then Err(400)
      else if Forbidden(u, g) then Err(403)
      else Ok(InvoiceSignals.UpdateInvoiceAmountFixed(g.(invoice := ApplyPatch(g.invoice, p)), false, None))
  }

  /** The two versions answer alike and store the same row but for the amount: NULL as
      written, the lines' total with the fix. An amount sent in the request is never
      what is stored. */
  lemma UpdateVersionsDifferOnlyInAmount(table: seq<Ledger>, u: User, id: nat, p: InvoicePatch)
    ensures Update(table, u, id, p).Ok? <==> UpdateFixed(table, u, id, p).Ok?
    ensures Update(table, u, id, p).Err? ==> Update(table, u, id, p) == UpdateFixed(table, u, id, p)
    ensures Update(table, u, id, p).Ok? ==>
              UpdateFixed(table, u, id, p).value.(invoice := UpdateFixed(table, u, id, p).value.invoice.(amount := None))
              == Update(table, u, id, p).value
  {
  }

  /** A notification row: its user (by e-mail) if bound to one, the invoice number,
      title, content and type. */
  datatype Notification = Notification(user: Option<string>, invoiceNumber: string, title: string, content: string, kind: string)

  /** The columns of the `Notification` model in notifications/models.py. */
  const NotificationColumns: set<string> := {"id", "title", "content", "created_at"}

  /** The columns the invoice notice needs: the model with a user, an invoice and a type. */
  const NoticeColumns: set<string> := NotificationColumns + {"user", "invoice", "type"}

  /** The notice is bound to the requester only when the requester's e-mail equals the
      customer's exactly and the requester is not a superuser. */
  predicate BoundToRequester(u: User, inv: Invoices.Invoice) {
    u.email == inv.customer.email && !u.isSuperuser
  }

  /** The keyword arguments `create_invoice_notification` passes to `create`. */
  function NoticeKeywords(u: User, inv: Invoices.Invoice): (r: set<string>)
    ensures "invoice" in r && "type" in r && "title" in r && "content" in r
    ensures "user" in r <==> BoundToRequester(u, inv)
  {
    {"invoice", "title", "content", "type"} + (if BoundToRequester(u, inv) then {"user"} else {})
  }

  /** `create_invoice_notification` against a model with the given columns: a keyword
      that names no column makes the model's constructor raise (500); otherwise the row
      is titled `Invoice <n> Updated`, has type I, and is bound to the requester exactly
      when `BoundToRequester` holds. */
  function CreateNotice(columns: set<string>, u: User, inv: Invoices.Invoice, message: string): (r: Result<Notification, int>)
    ensures r.Err? <==> !(NoticeKeywords(u, inv) <= columns)
    ensures r.Err? ==> r.error == 500
    ensures r.Ok? ==> (r.value.user.Some? <==> BoundToRequester(u, inv))
    ensures r.Ok? && r.value.user.Some? ==> r.value.user.value == u.email
    ensures r.Ok? ==> r.value.title == "Invoice " + inv.number + " Updated" && r.value.content == message && r.value.kind == "I"
  {
    if !(NoticeKeywords(u, inv) <= columns) then Err(500)
    else
      var title := "Invoice " + inv.number + " Updated";
      if BoundToRequester(u, inv) then Ok(Notification(Some(u.email), inv.number, title, message, "I"))
      else Ok(Notification(None, inv.number, title, message, "I"))
  }

  /** `create_invoice_notification` as written: every branch passes `invoice=` and
      `type=`, which the model lacks, so it always raises. */
  function CreateInvoiceNotification(u: User, inv: Invoices.Invoice, message: string): (r: Result<Notification, int>)
    ensures r == Err(500)
  {
    assert "invoice" in NoticeKeywords(u, inv) && "invoice" !in NotificationColumns;
    CreateNotice(NotificationColumns, u, inv, message)
  }

  /** The same call against a model carrying the user, invoice and type columns. */
  function CreateInvoiceNotificationFixed(u: User, inv: Invoices.Invoice, message: string): (r: Result<Notification, int>)
    ensures r.Ok?
    ensures r.value.user.Some? <==> BoundToRequester(u, inv)
    ensures r.value.title == "Invoice " + inv.number + " Updated" && r.value.content == message && r.value.kind == "I"
  {
    CreateNotice(NoticeColumns, u, inv, message)
  }

  /** `perform_destroy` with a given notice: `get_object`, then 403 for any
      non-superuser; a superuser's delete first records an "Invoice #N destroyed"
      notice, and a failure there stops the delete. */
  function DestroyWith(columns: set<string>, table: seq<Ledger>, u: User, id: nat): (r: Result<(seq<Ledger>, Notification), int>)
    ensures !u.isSuperuser ==> r.Err?
    ensures r.Ok? ==> forall g :: g in r.value.0 <==> g in table && g.invoice.pk != Some(id)
  {
    match GetObject(table, u, id)
    case Err(e) => Err(e)
    case Ok(g) =>
      if !u.isSuperuser then Err(403)
      else
        match CreateNotice(columns, u, g.invoice, "Invoice #" + g.invoice.number + " destroyed")
        case Err(e) => Err(e)
        case Ok(note) => Ok((Seqs.Filter(table, (h: Ledger) => h.invoice.pk != Some(id)), note))
  }

  /** `destroy` as written: it never deletes; a superuser reaching the notice gets 500. */
  function Destroy(table: seq<Ledger>, u: User, id: nat): (r: Result<(seq<Ledger>, Notification), int>)
    ensures r.Err?
    ensures u.isSuperuser && GetObject(table, u, id).Ok? ==> r == Err(500)
    ensures !u.isSuperuser && GetObject(table, u, id).Ok? ==> r == Err(403)
  {
    DestroyWith(NotificationColumns, table, u, id)
  }

  /** `destroy` against the model the notice needs: a superuser deletes every visible
      invoice with that key, and nothing else. */
  function DestroyFixed(table: seq<Ledger>, u: User, id: nat): (r: Result<(seq<Ledger>, Notification), int>)
    ensures r.Ok? <==> u.isSuperuser && GetObject(table, u, id).Ok?
    ensures r.Ok? ==> forall g :: g in r.value.0 <==> g in table && g.invoice.pk != Some(id)
  {
    DestroyWith(NoticeColumns, table, u, id)
  }

  /** The delete that answers 500 as written is exactly the one the corrected schema
      lets through; every other outcome is the same in both. */
  lemma DestroyFailsWhereFixedSucceeds(table: seq<Ledger>, u: User, id: nat)
    ensures Destroy(table, u, id) == Err(500) <==> DestroyFixed(table, u, id).Ok?
    ensures DestroyFixed(table, u, id).Err? ==> Destroy(table, u, id) == DestroyFixed(table, u, id)
  {
  }

  /** A superuser deleting an invoice whose key is unique removes exactly that row and
      keeps the others in order. */
  lemma DestroyRemovesExactlyOne(table: seq<Ledger>, u: User, id: nat, k: nat)
    requires KeyAt(table, id, k) && u.isSuperuser
    ensures DestroyFixed(table, u, id).Ok?
    ensures DestroyFixed(table, u, id).value.0 == table[..k] + table[k + 1..]
  {
    GetObjectFinds(table, u, id, k);
    Seqs.FilterDropsOne(table, (h: Ledger) => h.invoice.pk != Some(id), k);
  }

  /** Only superusers get this far, so the deletion notice is never bound to a user. */
  lemma DestroyNoticeHasNoUser(table: seq<Ledger>, u: User, id: nat)
    requires DestroyFixed(table, u, id).Ok?
    ensures DestroyFixed(table, u, id).value.1.user.None?
  {
  }

  /** `mark_paid`: flip `paid`, save only that field, report the new state. */
  function MarkPaid(table: seq<Ledger>, u: User, id: nat): (r: Result<(Ledger, string), int>)
    ensures r.Ok? ==> exists g :: g in table && g.invoice.pk == Some(id) && r.value.0.invoice.paid == !g.invoice.paid
                                  && r.value.0.invoice.(paid := g.invoice.paid) == g.invoice
    ensures r.Ok? ==> r.value.1 == (if r.value.0.invoice.paid then "Invoice marked as paid" else "Invoice marked as unpaid")
  {
    match GetObject(table, u, id)
    case Err(e) => Err(e)
    case Ok(g) =>
      var flipped := g.(invoice := g.invoice.(paid := !g.invoice.paid));
      var saved := InvoiceSignals.UpdateInvoiceAmount(flipped, false, Some({"paid"}));
      Ok((saved, if saved.invoice.paid then "Invoice marked as paid" else "Invoice marked as unpaid"))
  }

  /** Keys are unique within the table. */
  predicate KeyAt(table: seq<Ledger>, id: nat, k: nat) {
    k < |table| && table[k].invoice.pk == Some(id)
    && forall i :: 0 <= i < |table| && i != k ==> table[i].invoice.pk != Some(id)
  }

  /** With unique keys, `get_object` finds the visible invoice with that key. */
  lemma GetObjectFinds(table: seq<Ledger>, u: User, id: nat, k: nat)
    requires KeyAt(table, id, k) && (u.isSuperuser || OwnsIgnoringCase(u, table[k]))
    ensures GetObject(table, u, id) == Ok(table[k])
  {
    var r := GetObject(table, u, id);
    if r.Ok? {
      var i :| 0 <= i < |table| && table[i] == r.value;
    }
  }

  /** Marking twice restores the original paid flag. */
  lemma MarkPaidTwiceRestores(table: seq<Ledger>, u: User, id: nat, k: nat)
    requires KeyAt(table, id, k) && (u.isSuperuser || OwnsIgnoringCase(u, table[k]))
    ensures MarkPaid(table, u, id).Ok?
    ensures MarkPaid(table[k := MarkPaid(table, u, id).value.0], u, id).Ok?
    ensures MarkPaid(table[k := MarkPaid(table, u, id).value.0], u, id).value.0 == table[k]
  {
    GetObjectFinds(table, u, id, k);
    var first := MarkPaid(table, u, id).value.0;
    assert first == table[k].(invoice := table[k].invoice.(paid := !table[k].invoice.paid));
    var t2 := table[k := first];
    assert OwnsIgnoringCase(u, first) == OwnsIgnoringCase(u, table[k]);
    GetObjectFinds(t2, u, id, k);
  }

  /** `CustomerInvoiceViewSet.retrieve`: any caller; 404 for an unknown id, or when an
      `email` parameter is given and differs from the customer's ignoring case. */
  function CustomerRetrieve(table: seq<Ledger>, id: nat, email: Option<string>): (r: Result<Ledger, int>)
    ensures r.Err? ==> r.error == 404
    ensures r.Ok? ==> r.value in table && r.value.invoice.pk == Some(id)
    ensures r.Ok? && email.Some? && email.value != "" ==> Strings.Lower(r.value.invoice.customer.email) == Strings.Lower(email.value)
    ensures (exists g :: g in table && g.invoice.pk == Some(id)) && (email.None? || email.value == "") ==> r.Ok?
  {
    var k := Seqs.FindIndex(table, (g: Ledger) => g.invoice.pk == Some(id));
    if k == -1 then Err(404)
    else if email.Some? && email.value != "" && Strings.Lower(table[k].invoice.customer.email) != Strings.Lower(email.value) then Err(404)
    else Ok(table[k])
  }
}

=== FILE: invoices.dfy ===
/** Invoices, their part and labor lines, and payments (invoices/models.py). Money is
    held exactly in integer units: prices, payments and the stored invoice amount in
    cents, hours in hundredths, and line totals in ten-thousandths of a dollar, the
    exact value of `quantity * unit_price` and `hours * hourly_rate`. The amount column
    is a two-place `DecimalField`, so a sum of line totals is rounded to cents when it
    is stored and read back. */
module Invoices {
  import opened Wrappers
  import Strings
  import Dates
  import Seqs

  /** The customer an invoice belongs to (customers/models.py); `__str__` is the name. */
  datatype Customer = Customer(id: nat, firstName: string, lastName: string, email: string,
                               city: Option<string>, state: Option<string>)

  function CustomerName(c: Customer): string {
    c.firstName + " " + c.lastName
  }

  /** One invoice row. `amount` is None when the column is NULL. `taxRate` is in
      hundredths of a percent and `discount` in cents: both columns are used by the
      serializer and the PDF, though invoices/models.py does not declare them. */
  datatype Invoice = Invoice(
    pk: Option<nat>,
    number: string,
    customer: Customer,
    amount: Option<int>,
    issueDate: Dates.Date,
    dueDate: Option<Dates.Date>,
    paid: bool,
    taxRate: int,
    discount: int)

  datatype Part = Part(id: nat, description: string, quantity: int, unitPrice: int, position: int)
  datatype Labor = Labor(id: nat, description: string, hours: int, hourlyRate: int, position: int)
  datatype Payment = Payment(amount: int, date: Dates.Date, paymentMethod: string)

  /** `Part.total_price`: quantity times unit price, in ten-thousandths. */
  function PartTotal(p: Part): int {
    p.quantity * p.unitPrice * 100
  }

  /** `Labor.total_price`: hours times hourly rate, in ten-thousandths. */
  function LaborTotal(l: Labor): int {
    l.hours * l.hourlyRate
  }

  function PartsSum(ps: seq<Part>): int {
    if |ps| == 0 then 0 else PartTotal(ps[0]) + PartsSum(ps[1..])
  }

  function LaborSum(ls: seq<Labor>): int {
    if |ls| == 0 then 0 else LaborTotal(ls[0]) + LaborSum(ls[1..])
  }

  /** Sums over a concatenation add up. */
  lemma {:induction false} PartsSumConcat(a: seq<Part>, b: seq<Part>)
    ensures PartsSum(a + b) == PartsSum(a) + PartsSum(b)
  {
    if |a| > 0 {
      assert (a + b)[1..] == a[1..] + b;
      PartsSumConcat(a[1..], b);
    } else {
      assert a + b == b;
    }
  }

  lemma {:induction false} LaborSumConcat(a: seq<Labor>, b: seq<Labor>)
    ensures LaborSum(a + b) == LaborSum(a) + LaborSum(b)
  {
    if |a| > 0 {
      assert (a + b)[1..] == a[1..] + b;
      LaborSumConcat(a[1..], b);
    } else {
      assert a + b == b;
    }
  }

  /** Ten-thousandths rounded to cents, half to even: `Decimal.quantize` to two places
      under the default context, as the amount column is read back. The result is the
      nearest whole cent, and of two equally near the even one. */
  function ToCents(t: int): (r: int)
    ensures 100 * r - 50 <= t <= 100 * r + 50
    ensures t - 100 * r == 50 || t - 100 * r == -50 ==> r % 2 == 0
  {
    var q := t / 100;
    var rem := t % 100;
    if rem < 50 || (rem == 50 && q % 2 == 0) then q else q + 1
  }

  /** The rounding is determined by its two properties: any whole number of cents that
      is nearest, and even on a tie, is the one `ToCents` gives. */
  lemma ToCentsUnique(t: int, c: int)
    requires 100 * c - 50 <= t <= 100 * c + 50
    requires t - 100 * c == 50 || t - 100 * c == -50 ==> c % 2 == 0
    ensures c == ToCents(t)
  {
  }

  /** A whole number of cents is stored as it is. */
  lemma ToCentsOfCents(c: int)
    ensures ToCents(100 * c) == c
  {
    ToCentsUnique(100 * c, c);
  }

  /** Adding whole cents before rounding moves the rounded value by those cents, up to
      one cent more or less on a tie, and exactly when there is no tie. */
  lemma ToCentsShift(t: int, c: int)
    ensures -1 <= ToCents(t + 100 * c) - (ToCents(t) + c) <= 1
    ensures t % 100 != 50 ==> ToCents(t + 100 * c) == ToCents(t) + c
  {
    if t % 100 != 50 {
      var r := ToCents(t) + c;
      assert t + 100 * c - 100 * r == t - 100 * ToCents(t);
      ToCentsUnique(t + 100 * c, r);
    }
  }

  /** The database rows of one invoice: the invoice, its lines and its payments. */
  datatype Ledger = Ledger(invoice: Invoice, parts: seq<Part>, labor: seq<Labor>, payments: seq<Payment>)

  /** The exact sum of the line totals, in ten-thousandths. */
  function LinesTotal(g: Ledger): int {
    PartsSum(g.parts) + LaborSum(g.labor)
  }

  /** The stored amount is the sum of the line totals, rounded to cents. */
  predicate AmountMatchesLines(g: Ledger) {
    g.invoice.amount == Some(ToCents(LinesTotal(g)))
  }

  /** `recalculate_amount` and the column it writes: the amount becomes the sum of all
      part and labor line totals, rounded to cents; tax rate and discount play no part.
      Lines, payments and the other invoice fields are untouched. */
  function RecalculateAmount(g: Ledger): (r: Ledger)
    ensures r.invoice.amount.Some?
    ensures 100 * r.invoice.amount.value - 50 <= PartsSum(g.parts) + LaborSum(g.labor) <= 100 * r.invoice.amount.value + 50
    ensures AmountMatchesLines(r)
    ensures r.parts == g.parts && r.labor == g.labor && r.payments == g.payments
    ensures r.invoice.(amount := g.invoice.amount) == g.invoice
  {
    var partsTotal := PartsSum(g.parts);
    var laborTotal := LaborSum(g.labor);
    g.(invoice := g.invoice.(amount := Some(ToCents(partsTotal + laborTotal))))
  }

  /** Tax rate and discount do not affect the recalculated amount. */
  lemma RecalculateIgnoresTaxAndDiscount(g: Ledger, taxRate: int, discount: int)
    ensures RecalculateAmount(g.(invoice := g.invoice.(taxRate := taxRate, discount := discount))).invoice.amount
         == RecalculateAmount(g).invoice.amount
  {
  }

  /** No two lines share an id, as the primary key guarantees for stored rows. */
  predicate IdsUnique<T>(lines: seq<T>, id: T -> nat) {
    forall i, j :: 0 <= i < j < |lines| ==> id(lines[i]) != id(lines[j])
  }

  function PartId(p: Part): nat { p.id }
  function LaborId(l: Labor): nat { l.id }

  /** The lines after `save()` of `x`: the row with its id is overwritten, or `x` is
      inserted as a new row. */
  function PutLine<T>(lines: seq<T>, x: T, id: T -> nat): seq<T> {
    var k := Seqs.FindIndex(lines, (y: T) => id(y) == id(x));
    if k == -1 then lines + [x] else lines[k := x]
  }

  /** Saving a line stores it; a new id is appended and an existing one replaced in
      place; with unique ids, exactly the other lines stay, and the ids stay unique. */
  lemma PutLineContents<T>(lines: seq<T>, x: T, id: T -> nat)
    ensures x in PutLine(lines, x, id)
    ensures (forall i :: 0 <= i < |lines| ==> id(lines[i]) != id(x)) ==> PutLine(lines, x, id) == lines + [x]
    ensures (exists i :: 0 <= i < |lines| && id(lines[i]) == id(x)) ==> |PutLine(lines, x, id)| == |lines|
    ensures IdsUnique(lines, id) ==> IdsUnique(PutLine(lines, x, id), id)
    ensures IdsUnique(lines, id) ==> forall y :: y in PutLine(lines, x, id) <==> y == x || (y in lines && id(y) != id(x))
  {
    var k := Seqs.FindIndex(lines, (y: T) => id(y) == id(x));
    var r := PutLine(lines, x, id);
    if k == -1 {
      assert r[|lines|] == x;
    } else {
      assert r[k] == x;
      if IdsUnique(lines, id) {
        forall y | y in r
          ensures y == x || (y in lines && id(y) != id(x))
        {
          var j :| 0 <= j < |r| && r[j] == y;
          if j != k {
            assert y == lines[j];
            assert id(lines[j]) != id(lines[k]);
          }
        }
        forall y | y in lines && id(y) != id(x)
          ensures y in r
        {
          var j :| 0 <= j < |lines| && lines[j] == y;
          assert j != k;
          assert r[j] == y;
        }
        forall i, j | 0 <= i < j < |r|
          ensures id(r[i]) != id(r[j])
        {
          assert id(lines[i]) != id(lines[j]);
        }
      }
    }
  }

  /** `Part.save`: write the part (updating the row with its id, or appending a new
      row), then recalculate the invoice. Labor, payments and every invoice field but
      the amount are untouched. */
  function SavePart(g: Ledger, p: Part): (r: Ledger)
    ensures AmountMatchesLines(r)
    ensures p in r.parts && r.labor == g.labor && r.payments == g.payments
    ensures r.invoice.(amount := g.invoice.amount) == g.invoice
    ensures (forall i :: 0 <= i < |g.parts| ==> g.parts[i].id != p.id) ==> r.parts == g.parts + [p]
    ensures (exists i :: 0 <= i < |g.parts| && g.parts[i].id == p.id) ==> |r.parts| == |g.parts|
    ensures IdsUnique(g.parts, PartId) ==> IdsUnique(r.parts, PartId)
    ensures IdsUnique(g.parts, PartId) ==> forall q :: q in r.parts <==> q == p || (q in g.parts && q.id != p.id)
  {
    PutLineContents(g.parts, p, PartId);
    RecalculateAmount(g.(parts := PutLine(g.parts, p, PartId)))
  }

  /** `Part.delete`: remove the part, then recalculate the invoice. */
  function DeletePart(g: Ledger, id: nat): (r: Ledger)
    ensures AmountMatchesLines(r)
    ensures forall q :: q in r.parts <==> q in g.parts && q.id != id
    ensures r.labor == g.labor
  {
    RecalculateAmount(g.(parts := Seqs.Filter(g.parts, (q: Part) => q.id != id)))
  }

  /** `Labor.save`, the same for a labor line. */
  function SaveLabor(g: Ledger, l: Labor): (r: Ledger)
    ensures AmountMatchesLines(r)
    ensures l in r.labor && r.parts == g.parts && r.payments == g.payments
    ensures r.invoice.(amount := g.invoice.amount) == g.invoice
    ensures (forall i :: 0 <= i < |g.labor| ==> g.labor[i].id != l.id) ==> r.labor == g.labor + [l]
    ensures (exists i :: 0 <= i < |g.labor| && g.labor[i].id == l.id) ==> |r.labor| == |g.labor|
    ensures IdsUnique(g.labor, LaborId) ==> IdsUnique(r.labor, LaborId)
    ensures IdsUnique(g.labor, LaborId) ==> forall m :: m in r.labor <==> m == l || (m in g.labor && m.id != l.id)
  {
    PutLineContents(g.labor, l, LaborId);
    RecalculateAmount(g.(labor := PutLine(g.labor, l, LaborId)))
  }

  /** `Labor.delete`. */
  function DeleteLabor(g: Ledger, id: nat): (r: Ledger)
    ensures AmountMatchesLines(r)
    ensures forall m :: m in r.labor <==> m in g.labor && m.id != id
    ensures r.parts == g.parts
  {
    RecalculateAmount(g.(labor := Seqs.Filter(g.labor, (m: Labor) => m.id != id)))
  }

  /** Adding a new part stores the old lines' exact sum plus that part's line total,
      rounded to cents. Over a stored amount that matched the lines this is that amount
      plus the part's `quantity * unit_price` cents, exactly unless the labor lines end
      on half a cent, where the tie may round the other way by one cent. */
  lemma AddPartAddsItsTotal(g: Ledger, p: Part)
    requires forall i :: 0 <= i < |g.parts| ==> g.parts[i].id != p.id
    ensures SavePart(g, p).invoice.amount == Some(ToCents(LinesTotal(g) + PartTotal(p)))
    ensures AmountMatchesLines(g) ==>
              -1 <= SavePart(g, p).invoice.amount.value - (g.invoice.amount.value + p.quantity * p.unitPrice) <= 1
    ensures AmountMatchesLines(g) && LaborSum(g.labor) % 100 != 50 ==>
              SavePart(g, p).invoice.amount == Some(g.invoice.amount.value + p.quantity * p.unitPrice)
  {
    PartsSumConcat(g.parts, [p]);
    assert PartsSum([p]) == PartTotal(p) + PartsSum([]);
    PartsSumWholeCents(g.parts);
    ToCentsShift(LinesTotal(g), p.quantity * p.unitPrice);
  }

  /** Part totals are whole cents. */
  lemma {:induction false} PartsSumWholeCents(ps: seq<Part>)
    ensures PartsSum(ps) % 100 == 0
  {
    if |ps| > 0 {
      PartsSumWholeCents(ps[1..]);
      assert PartsSum(ps) == 100 * (ps[0].quantity * ps[0].unitPrice) + PartsSum(ps[1..]);
    }
  }

  /** Deleting a part splits the sum: what remains plus the removed lines. */
  lemma {:induction false} PartsSumSplit(ps: seq<Part>, id: nat)
    ensures PartsSum(ps) == PartsSum(Seqs.Filter(ps, (q: Part) => q.id != id)) + PartsSum(Seqs.Filter(ps, (q: Part) => q.id == id))
  {
    if |ps| > 0 {
      PartsSumSplit(ps[1..], id);
    }
  }

  /** Deleting the single part with an id stores the exact sum less that part's line
      total, rounded to cents; over a matching amount, exactly that part's cents less
      unless the labor lines end on half a cent. */
  lemma DeletePartSubtractsItsTotal(g: Ledger, k: nat)
    requires k < |g.parts|
    requires forall i :: 0 <= i < |g.parts| && i != k ==> g.parts[i].id != g.parts[k].id
    ensures DeletePart(g, g.parts[k].id).invoice.amount == Some(ToCents(LinesTotal(g) - PartTotal(g.parts[k])))
    ensures AmountMatchesLines(g) && LaborSum(g.labor) % 100 != 50 ==>
              DeletePart(g, g.parts[k].id).invoice.amount == Some(g.invoice.amount.value - g.parts[k].quantity * g.parts[k].unitPrice)
  {
    DeletePartLeavesTotal(g, k);
    PartsSumWholeCents(g.parts);
    ToCentsShift(LinesTotal(g), -(g.parts[k].quantity * g.parts[k].unitPrice));
  }

  lemma DeletePartLeavesTotal(g: Ledger, k: nat)
    requires k < |g.parts|
    requires forall i :: 0 <= i < |g.parts| && i != k ==> g.parts[i].id != g.parts[k].id
    ensures LinesTotal(DeletePart(g, g.parts[k].id)) == LinesTotal(g) - PartTotal(g.parts[k])
  {
    var id := g.parts[k].id;
    PartsSumSplit(g.parts, id);
    OnlyMatch(g.parts, k);
  }

  lemma {:induction false} OnlyMatch(ps: seq<Part>, k: nat)
    requires k < |ps|
    requires forall i :: 0 <= i < |ps| && i != k ==> ps[i].id != ps[k].id
    ensures PartsSum(Seqs.Filter(ps, (q: Part) => q.id == ps[k].id)) == PartTotal(ps[k])
  {
    var id := ps[k].id;
    var drop := (q: Part) => q.id == id;
    if k == 0 {
      Seqs.FilterNone(ps[1..], drop);
      assert Seqs.Filter(ps, drop) == [ps[0]] + Seqs.Filter(ps[1..], drop);
    } else {
      OnlyMatch(ps[1..], k - 1);
      assert Seqs.Filter(ps, drop) == Seqs.Filter(ps[1..], drop);
    }
  }

  /** `generate_invoice_number` and the creation signal: the `%y%m%d` date prefix, then
      the day's invoice count plus one, zero-padded to three digits. */
  function InvoiceNumber(today: Dates.Date, countToday: nat): (r: string)
    requires Dates.Valid(today)
    ensures |r| >= 9 && r[..6] == Dates.YyMmDd(today)
    ensures forall i :: 6 <= i < |r| ==> Strings.IsDigit(r[i])
    ensures countToday < 999 ==> |r| == 9
  {
    var suffix := Strings.Pad(countToday + 1, 3);
    var r := Dates.YyMmDd(today) + suffix;
    assert r[..6] == Dates.YyMmDd(today);
    r
  }

  /** The sequence number is read back from the digits after the prefix, so numbers
      issued on one day are distinct. */
  lemma InvoiceNumberRoundTrip(today: Dates.Date, countToday: nat)
    requires Dates.Valid(today)
    ensures Strings.ParseNat(InvoiceNumber(today, countToday)[6..]) == countToday + 1
  {
    var r := InvoiceNumber(today, countToday);
    assert r[6..] == Strings.Pad(countToday + 1, 3);
    Strings.ParsePad(countToday + 1, 3);
  }

  lemma InvoiceNumbersDistinct(today: Dates.Date, m: nat, n: nat)
    requires Dates.Valid(today) && m != n
    ensures InvoiceNumber(today, m) != InvoiceNumber(today, n)
  {
    InvoiceNumberRoundTrip(today, m);
    InvoiceNumberRoundTrip(today, n);
  }

  /** `get_days_until_due`: None without a due date, else the due date minus today in
      days. */
  function DaysUntilDue(inv: Invoice, today: Dates.Date): (r: Option<int>)
    requires Dates.Valid(today) && (inv.dueDate.Some? ==> Dates.Valid(inv.dueDate.value))
    ensures r.Some? <==> inv.dueDate.Some?
  {
    if inv.dueDate.None? then None
    else Some(Dates.Ordinal(inv.dueDate.value) - Dates.Ordinal(today))
  }

  /** Counting that many days on from today reaches the due date. */
  lemma DaysUntilDueReachesDueDate(inv: Invoice, today: Dates.Date)
    requires Dates.Valid(today) && inv.dueDate.Some? && Dates.Valid(inv.dueDate.value)
    ensures Dates.Ordinal(today) + DaysUntilDue(inv, today).value >= 1
    ensures Dates.AddDays(today, DaysUntilDue(inv, today).value) == inv.dueDate.value
  {
    Dates.YearBounds(inv.dueDate.value);
    var d := Dates.AddDays(today, DaysUntilDue(inv, today).value);
    Dates.OrdinalInjective(d, inv.dueDate.value);
  }

  /** `get_is_overdue`: false without a due date, else today is after the due date and
      the invoice is unpaid. */
  function IsOverdue(inv: Invoice, today: Dates.Date): (r: bool)
    requires Dates.Valid(today) && (inv.dueDate.Some? ==> Dates.Valid(inv.dueDate.value))
    ensures r ==> inv.dueDate.Some? && !inv.paid
    ensures inv.dueDate.Some? && !inv.paid ==> (r <==> Dates.Ordinal(inv.dueDate.value) < Dates.Ordinal(today))
  {
    if inv.dueDate.None? then false
    else Dates.Ordinal(today) > Dates.Ordinal(inv.dueDate.value) && !inv.paid
  }

  /** Overdue exactly when a due date exists, it is a negative number of days away, and
      the invoice is unpaid. */
  lemma OverdueIffNegativeDays(inv: Invoice, today: Dates.Date)
    requires Dates.Valid(today) && (inv.dueDate.Some? ==> Dates.Valid(inv.dueDate.value))
    ensures IsOverdue(inv, today) <==> DaysUntilDue(inv, today).Some? && DaysUntilDue(inv, today).value < 0 && !inv.paid
  {
  }

  /** Errors Python raises when the stored amount is NULL. */
  datatype InvoiceError = AmountIsNull
}

=== FILE: line_items.dfy ===
/** Editing the part and labor lists of the invoice page (web_app/src/pages/Invoice.js,
    web_app/src/components/tables/PartsTable.js and LaborTable.js): `arrayMove` with
    JavaScript's `splice` index rules, the drag-end handlers that renumber positions,
    soft delete with undo, and the add-row check. */
module LineItems {
  import opened Wrappers
  import Seqs

  /** A part or labor row as the page holds it; only id and position matter here. */
  datatype Item = Item(id: nat, position: int, description: string)

  /** `splice`'s reading of a start index: negative counts from the end, and the result
      is clamped to [0, len]. */
  function SpliceIndex(i: int, len: nat): (r: nat)
    ensures r <= len
    ensures 0 <= i <= len ==> r == i
    ensures -(len as int) <= i < 0 ==> r as int == len as int + i
  {
    if i < 0 then (if len + i < 0 then 0 else len + i) else if i > len then len else i
  }

  /** `arrayMove(array, from, to)`: take out the element at `from`, insert it at `to`.
      Callers pass a `findIndex` result, so `from` is an index or -1. */
  function ArrayMove(a: seq<Item>, from: int, to: int): (r: seq<Item>)
    requires -|a| <= from < |a|
    ensures |r| == |a|
    ensures r[SpliceIndex(to, |a| - 1)] == a[SpliceIndex(from, |a|)]
    ensures var f, t := SpliceIndex(from, |a|), SpliceIndex(to, |a| - 1);
            r[..t] + r[t + 1..] == a[..f] + a[f + 1..]
  {
    var f := SpliceIndex(from, |a|);
    var rest := a[..f] + a[f + 1..];
    var t := SpliceIndex(to, |rest|);
    var r := rest[..t] + [a[f]] + rest[t..];
    assert r[..t] + r[t + 1..] == rest;
    r
  }

  /** A move only reorders: the result is a permutation of the input. */
  lemma ArrayMovePermutes(a: seq<Item>, from: int, to: int)
    requires -|a| <= from < |a|
    ensures multiset(ArrayMove(a, from, to)) == multiset(a)
  {
    var f := SpliceIndex(from, |a|);
    var rest := a[..f] + a[f + 1..];
    var t := SpliceIndex(to, |rest|);
    assert a == a[..f] + [a[f]] + a[f + 1..];
    InsertMultiset(a[..f], a[f], a[f + 1..]);
    assert rest == rest[..t] + rest[t..];
    InsertMultiset(rest[..t], a[f], rest[t..]);
  }

  lemma InsertMultiset<T>(p: seq<T>, x: T, q: seq<T>)
    ensures multiset(p + [x] + q) == multiset(p + q) + multiset{x}
  {
  }

  /** Moving an element onto its own index changes nothing. */
  lemma ArrayMoveSameIndex(a: seq<Item>, i: int)
    requires 0 <= i < |a|
    ensures ArrayMove(a, i, i) == a
  {
    var rest := a[..i] + a[i + 1..];
    assert rest[..i] == a[..i];
    assert rest[i..] == a[i + 1..];
    assert a == a[..i] + [a[i]] + a[i + 1..];
  }

  /** Moving back undoes a move. */
  lemma ArrayMoveInverse(a: seq<Item>, from: int, to: int)
    requires 0 <= from < |a| && 0 <= to < |a|
    ensures ArrayMove(ArrayMove(a, from, to), to, from) == a
  {
    var b := ArrayMove(a, from, to);
    var c := ArrayMove(b, to, from);
    Reassemble(c, a, from);
  }

  /** Two lists of the same length that agree at `i` and agree once `i` is removed are equal. */
  lemma Reassemble<T>(c: seq<T>, a: seq<T>, i: nat)
    requires i < |a| && |c| == |a| && c[i] == a[i]
    requires c[..i] + c[i + 1..] == a[..i] + a[i + 1..]
    ensures c == a
  {
    var w := a[..i] + a[i + 1..];
    forall k | 0 <= k < |a| ensures c[k] == a[k] {
      if k < i {
        assert c[k] == (c[..i] + c[i + 1..])[k] && a[k] == w[k];
      } else if k > i {
        assert c[k] == (c[..i] + c[i + 1..])[k - 1] && a[k] == w[k - 1];
      }
    }
  }

  /** Where a request goes: the parts or the labor endpoint. */
  datatype Endpoint = PartsEndpoint | LaborEndpoint

  /** `PATCH /<endpoint>/<id>/ {position}`. */
  datatype Patch = Patch(endpoint: Endpoint, id: nat, position: int)

  /** What a drag end does: nothing, throw before sending anything (an empty list
      yields an `undefined` row), or send one patch per row. */
  datatype DragOutcome = NoOp | Throws | Patches(patches: seq<Patch>)

  /** Each row of the reordered list gets its index as its position. */
  function Renumber(endpoint: Endpoint, reordered: seq<Item>): (r: seq<Patch>)
    ensures |r| == |reordered|
    ensures forall i :: 0 <= i < |r| ==> r[i] == Patch(endpoint, reordered[i].id, i)
  {
    seq(|reordered|, i requires 0 <= i < |reordered| => Patch(endpoint, reordered[i].id, i))
  }

  /** The shared drag-end handler over `items`, patching `endpoint`. `over` is None when
      the drop has no target. */
  function DragEnd(items: seq<Item>, endpoint: Endpoint, active: nat, over: Option<nat>): (r: DragOutcome)
    ensures over.None? || over == Some(active) ==> r == NoOp
    ensures r.Patches? ==> |r.patches| == |items| && forall i :: 0 <= i < |items| ==> r.patches[i].position == i && r.patches[i].endpoint == endpoint
    ensures r.Patches? ==> multiset(Ids(r.patches)) == multiset(ItemIds(items))
    ensures over.Some? && over.value != active && |items| == 0 ==> r == Throws
    ensures over.Some? && over.value != active && |items| > 0 ==>
              r == Patches(Renumber(endpoint, Reorder(items, active, over.value)))
  {
    if over.None? || over.value == active then NoOp
    else if |items| == 0 then Throws
    else
      var reordered := Reorder(items, active, over.value);
      IdsMultiset(endpoint, reordered);
      ArrayMoveIds(items, Seqs.FindIndex(items, (i: Item) => i.id == active), Seqs.FindIndex(items, (i: Item) => i.id == over.value));
      Patches(Renumber(endpoint, reordered))
  }

  /** `arrayMove(items, findIndex(active), findIndex(over))`. */
  function Reorder(items: seq<Item>, active: nat, over: nat): (r: seq<Item>)
    requires |items| > 0
    ensures |r| == |items| && multiset(r) == multiset(items)
  {
    var oldIndex := Seqs.FindIndex(items, (i: Item) => i.id == active);
    var newIndex := Seqs.FindIndex(items, (i: Item) => i.id == over);
    ArrayMovePermutes(items, oldIndex, newIndex);
    ArrayMove(items, oldIndex, newIndex)
  }

  function Ids(ps: seq<Patch>): (r: seq<nat>)
    ensures |r| == |ps| && forall i :: 0 <= i < |ps| ==> r[i] == ps[i].id
  {
    seq(|ps|, i requires 0 <= i < |ps| => ps[i].id)
  }

  function ItemIds(items: seq<Item>): (r: seq<nat>)
    ensures |r| == |items| && forall i :: 0 <= i < |items| ==> r[i] == items[i].id
  {
    seq(|items|, i requires 0 <= i < |items| => items[i].id)
  }

  /** A move keeps the ids as a multiset. */
  lemma ArrayMoveIds(a: seq<Item>, from: int, to: int)
    requires -|a| <= from < |a|
    ensures multiset(ItemIds(ArrayMove(a, from, to))) == multiset(ItemIds(a))
  {
    var f := SpliceIndex(from, |a|);
    var rest := a[..f] + a[f + 1..];
    var t := SpliceIndex(to, |rest|);
    assert a == a[..f] + [a[f]] + a[f + 1..];
    assert rest == rest[..t] + rest[t..];
    IdsOfInsert(a[..f], a[f], a[f + 1..]);
    IdsOfInsert(rest[..t], a[f], rest[t..]);
  }

  lemma IdsOfInsert(p: seq<Item>, x: Item, q: seq<Item>)
    ensures multiset(ItemIds(p + [x] + q)) == multiset(ItemIds(p + q)) + multiset{x.id}
  {
    ItemIdsConcat(p + [x], q);
    ItemIdsConcat(p, [x]);
    ItemIdsConcat(p, q);
    InsertMultiset(ItemIds(p), x.id, ItemIds(q));
  }

  lemma ItemIdsConcat(a: seq<Item>, b: seq<Item>)
    ensures ItemIds(a + b) == ItemIds(a) + ItemIds(b)
  {
  }

  lemma IdsMultiset(endpoint: Endpoint, reordered: seq<Item>)
    ensures Ids(Renumber(endpoint, reordered)) == ItemIds(reordered)
  {
  }

  /** Where the dragged row lands: at the drop target's index, every other row
      keeping its relative order. */
  lemma DragPlacesActiveAtTarget(items: seq<Item>, endpoint: Endpoint, active: nat, over: nat, i: nat, j: nat)
    requires active != over
    requires i < |items| && j < |items|
    requires items[i].id == active && items[j].id == over
    requires forall k :: 0 <= k < |items| && k != i ==> items[k].id != active
    requires forall k :: 0 <= k < |items| && k != j ==> items[k].id != over
    ensures DragEnd(items, endpoint, active, Some(over)).Patches?
    ensures DragEnd(items, endpoint, active, Some(over)).patches[j] == Patch(endpoint, active, j)
    ensures var ids := Ids(DragEnd(items, endpoint, active, Some(over)).patches);
            ids[..j] + ids[j + 1..] == ItemIds(items[..i] + items[i + 1..])
  {
    var r := Reorder(items, active, over);
    assert Seqs.FindIndex(items, (x: Item) => x.id == active) == i;
    assert Seqs.FindIndex(items, (x: Item) => x.id == over) == j;
    assert r[j] == items[i];
    assert r[..j] + r[j + 1..] == items[..i] + items[i + 1..];
    var ids := Ids(DragEnd(items, endpoint, active, Some(over)).patches);
    assert ids == ItemIds(r);
    ItemIdsConcat(r[..j], r[j + 1..]);
    assert ItemIds(r[..j]) == ids[..j];
    assert ItemIds(r[j + 1..]) == ids[j + 1..];
  }

  /** The labor table's drag handler on the invoice page, as written: it reorders the
      invoice's parts (and patches the parts endpoint) using the labor rows' ids. */
  function LaborDragAsWritten(parts: seq<Item>, labor: seq<Item>, active: nat, over: Option<nat>): (r: DragOutcome)
    ensures r.Patches? ==> forall i :: 0 <= i < |r.patches| ==> r.patches[i].endpoint == PartsEndpoint
  {
    DragEnd(parts, PartsEndpoint, active, over)
  }

  /** The labor drag handler as the labor table writes it: labor rows, labor endpoint. */
  function LaborDragFixed(parts: seq<Item>, labor: seq<Item>, active: nat, over: Option<nat>): (r: DragOutcome)
    ensures r.Patches? ==> |r.patches| == |labor|
    ensures r.Patches? ==> forall i :: 0 <= i < |r.patches| ==> r.patches[i].endpoint == LaborEndpoint
    ensures r.Patches? ==> multiset(Ids(r.patches)) == multiset(ItemIds(labor))
  {
    DragEnd(labor, LaborEndpoint, active, over)
  }

  /** `arrayMove(a, -1, -1)` on two or more rows swaps the last two. */
  lemma MoveLastOntoLast(a: seq<Item>)
    requires |a| >= 2
    ensures ArrayMove(a, -1, -1) == a[..|a| - 2] + [a[|a| - 1], a[|a| - 2]]
  {
    var n := |a|;
    var rest := a[..n - 1];
    assert a[..n - 1] + a[n..] == rest;
    assert SpliceIndex(-1, n - 1) == n - 2;
    assert rest[..n - 2] == a[..n - 2];
    assert rest[n - 2..] == [a[n - 2]];
  }

  /** The invoice page's labor drag, when neither dragged id is a part id (the usual
      case, ids coming from the labor rows): `findIndex` gives -1 twice and the last two
      parts swap places, their new positions going to the parts endpoint. For parts
      [1, 2] and labor [7, 8], dragging 7 onto 8 patches part 2 to position 0 and part 1
      to position 1. */
  lemma LaborDragSwapsLastTwoParts(parts: seq<Item>, labor: seq<Item>, active: nat, over: nat)
    requires active != over && |parts| >= 2
    requires forall i :: 0 <= i < |parts| ==> parts[i].id != active && parts[i].id != over
    ensures LaborDragAsWritten(parts, labor, active, Some(over))
         == Patches(Renumber(PartsEndpoint, parts[..|parts| - 2] + [parts[|parts| - 1], parts[|parts| - 2]]))
  {
    assert Seqs.FindIndex(parts, (x: Item) => x.id == active) == -1;
    assert Seqs.FindIndex(parts, (x: Item) => x.id == over) == -1;
    MoveLastOntoLast(parts);
  }

  /** Ids unique within a list. */
  predicate UniqueIds(rows: seq<Item>)
  {
    forall i, j :: 0 <= i < j < |rows| ==> rows[i].id != rows[j].id
  }

  /** Positions ascending, as the API orders rows. */
  predicate SortedByPosition(rows: seq<Item>)
  {
    forall i, j :: 0 <= i < j < |rows| ==> rows[i].position <= rows[j].position
  }

  /** `softDeletePart(id)`: hide the row from the table until the delete is committed. */
  function SoftDelete(rows: seq<Item>, id: nat): (r: seq<Item>)
    ensures forall i :: 0 <= i < |r| ==> r[i].id != id && r[i] in rows
    ensures forall i :: 0 <= i < |rows| && rows[i].id != id ==> rows[i] in r
  {
    Seqs.Filter(rows, (p: Item) => p.id != id)
  }

  /** Stable insertion: `x` goes after every row whose position is not larger. */
  function Insert(x: Item, rows: seq<Item>): (r: seq<Item>)
    ensures |r| == |rows| + 1
    ensures forall k :: 0 <= k < |r| ==> r[k] == x || r[k] in rows
  {
    if |rows| == 0 then [x]
    else if x.position < rows[0].position then [x] + rows
    else
      assert rows == [rows[0]] + rows[1..];
      [rows[0]] + Insert(x, rows[1..])
  }

  /** Insertion keeps a sorted list sorted. */
  lemma {:induction false} InsertKeepsSorted(x: Item, rows: seq<Item>)
    requires SortedByPosition(rows)
    ensures SortedByPosition(Insert(x, rows))
  {
    if |rows| > 0 && x.position >= rows[0].position {
      var tail := Insert(x, rows[1..]);
      InsertKeepsSorted(x, rows[1..]);
      HeadBelowInsert(x, rows);
      ConsSorted(rows[0], tail);
    }
  }

  /** A row at or below every row of a sorted list can go in front of it. */
  lemma ConsSorted(h: Item, tail: seq<Item>)
    requires SortedByPosition(tail)
    requires forall k :: 0 <= k < |tail| ==> h.position <= tail[k].position
    ensures SortedByPosition([h] + tail)
  {
    var r := [h] + tail;
    forall i, j | 0 <= i < j < |r| ensures r[i].position <= r[j].position {
      assert r[j] == tail[j - 1];
      if i > 0 {
        assert r[i] == tail[i - 1];
      }
    }
  }

  /** The first row of a sorted list is at or below every row of the insertion into
      the rest, when the inserted row is not below it. */
  lemma HeadBelowInsert(x: Item, rows: seq<Item>)
    requires |rows| > 0 && x.position >= rows[0].position && SortedByPosition(rows)
    ensures forall k :: 0 <= k < |Insert(x, rows[1..])| ==> rows[0].position <= Insert(x, rows[1..])[k].position
  {
    var tail := Insert(x, rows[1..]);
    forall k | 0 <= k < |tail| ensures rows[0].position <= tail[k].position {
      if tail[k] != x {
        var j :| 0 <= j < |rows[1..]| && rows[1..][j] == tail[k];
        assert rows[j + 1] == tail[k];
      }
    }
  }

  /** `Array.prototype.sort` by `a.position - b.position`, which is stable. */
  function SortByPosition(rows: seq<Item>): (r: seq<Item>)
    ensures multiset(r) == multiset(rows)
    ensures SortedByPosition(r)
  {
    if |rows| == 0 then []
    else
      assert rows == rows[..|rows| - 1] + [rows[|rows| - 1]];
      var sorted := SortByPosition(rows[..|rows| - 1]);
      InsertKeepsSorted(rows[|rows| - 1], sorted);
      InsertPermutes(rows[|rows| - 1], sorted);
      Insert(rows[|rows| - 1], sorted)
  }

  /** `undoDeletePart(part)`: put the row back and re-sort by position. */
  function Undo(rows: seq<Item>, part: Item): (r: seq<Item>)
    ensures multiset(r) == multiset(rows) + multiset{part}
    ensures SortedByPosition(r)
  {
    SortByPosition(rows + [part])
  }

  /** Insertion adds exactly the one row. */
  lemma {:induction false} InsertPermutes(x: Item, rows: seq<Item>)
    ensures multiset(Insert(x, rows)) == multiset(rows) + multiset{x}
  {
    if |rows| > 0 && x.position >= rows[0].position {
      InsertPermutes(x, rows[1..]);
      assert rows == [rows[0]] + rows[1..];
    }
  }

  /** Insertion lands at `k` when the rows before `k` are at or below the new row's
      position and the rest above it. */
  lemma {:induction false} InsertAt(x: Item, rows: seq<Item>, k: nat)
    requires k <= |rows|
    requires forall i :: 0 <= i < k ==> rows[i].position <= x.position
    requires forall i :: k <= i < |rows| ==> x.position < rows[i].position
    ensures Insert(x, rows) == rows[..k] + [x] + rows[k..]
  {
    if k == 0 {
      assert rows[..0] + [x] + rows[0..] == [x] + rows;
    } else {
      var tail := rows[1..];
      InsertAt(x, tail, k - 1);
      assert rows[..k] == [rows[0]] + tail[..k - 1];
      assert rows[k..] == tail[k - 1..];
    }
  }

  /** Sorting an already sorted list changes nothing. */
  lemma {:induction false} SortSortedIsIdentity(rows: seq<Item>)
    requires SortedByPosition(rows)
    ensures SortByPosition(rows) == rows
  {
    if |rows| > 0 {
      var n := |rows|;
      var init, last := rows[..n - 1], rows[n - 1];
      SortedPrefix(rows);
      SortSortedIsIdentity(init);
      forall i | 0 <= i < |init| ensures init[i].position <= last.position {
        assert init[i] == rows[i];
      }
      assert SortByPosition(rows) == Insert(last, SortByPosition(init));
      InsertAt(last, init, |init|);
      assert init[..|init|] + [last] + init[|init|..] == rows;
    }
  }

  /** Dropping the last row of a sorted list leaves it sorted. */
  lemma SortedPrefix(rows: seq<Item>)
    requires |rows| > 0 && SortedByPosition(rows)
    ensures SortedByPosition(rows[..|rows| - 1])
  {
    var init := rows[..|rows| - 1];
    forall i, j | 0 <= i < j < |init| ensures init[i].position <= init[j].position {
      assert init[i] == rows[i] && init[j] == rows[j];
    }
  }

  /** Filtering out a unique id removes exactly that row. */
  lemma RemoveUnique(rows: seq<Item>, k: nat)
    requires k < |rows| && UniqueIds(rows)
    ensures SoftDelete(rows, rows[k].id) == rows[..k] + rows[k + 1..]
  {
    var id := rows[k].id;
    var keep := (p: Item) => p.id != id;
    var p, q := rows[..k], rows[k + 1..];
    assert rows == p + ([rows[k]] + q);
    Seqs.FilterConcat(p, [rows[k]] + q, keep);
    Seqs.FilterConcat([rows[k]], q, keep);
    OthersBefore(rows, k, p);
    OthersAfter(rows, k, q);
    Seqs.FilterAll(p, keep);
    Seqs.FilterAll(q, keep);
    assert Seqs.Filter([rows[k]], keep) == [];
  }

  lemma OthersBefore(rows: seq<Item>, k: nat, q: seq<Item>)
    requires k < |rows| && UniqueIds(rows) && q == rows[..k]
    ensures forall i :: 0 <= i < |q| ==> q[i].id != rows[k].id
  {
    forall i | 0 <= i < |q| ensures q[i].id != rows[k].id {
      assert q[i] == rows[i];
    }
  }

  lemma OthersAfter(rows: seq<Item>, k: nat, q: seq<Item>)
    requires k < |rows| && UniqueIds(rows) && q == rows[k + 1..]
    ensures forall i :: 0 <= i < |q| ==> q[i].id != rows[k].id
  {
    forall i | 0 <= i < |q| ensures q[i].id != rows[k].id {
      assert q[i] == rows[k + 1 + i];
    }
  }

  /** Undo on a sorted list is a single stable insertion. */
  lemma UndoIntoSorted(rest: seq<Item>, x: Item)
    requires SortedByPosition(rest)
    ensures Undo(rest, x) == Insert(x, rest)
  {
    SortSortedIsIdentity(rest);
    assert (rest + [x])[..|rest|] == rest;
  }

  /** Removing one row from a sorted list leaves it sorted. */
  lemma RemoveKeepsSorted(rows: seq<Item>, k: nat)
    requires k < |rows| && SortedByPosition(rows)
    ensures SortedByPosition(rows[..k] + rows[k + 1..])
  {
    var rest := rows[..k] + rows[k + 1..];
    forall i, j | 0 <= i < j < |rest| ensures rest[i].position <= rest[j].position {
      var i' := if i < k then i else i + 1;
      var j' := if j < k then j else j + 1;
      assert rest[i] == rows[i'] && rest[j] == rows[j'];
    }
  }

  /** Deleting a row and undoing restores the table when positions are strictly
      ascending and ids unique. */
  lemma DeleteThenUndoRestores(rows: seq<Item>, k: nat)
    requires k < |rows| && UniqueIds(rows)
    requires forall i, j :: 0 <= i < j < |rows| ==> rows[i].position < rows[j].position
    ensures Undo(SoftDelete(rows, rows[k].id), rows[k]) == rows
  {
    RemoveUnique(rows, k);
    UndoAfterRemove(rows, k);
    InsertRestores(rows, k);
  }

  lemma UndoAfterRemove(rows: seq<Item>, k: nat)
    requires k < |rows| && SortedByPosition(rows)
    ensures Undo(rows[..k] + rows[k + 1..], rows[k]) == Insert(rows[k], rows[..k] + rows[k + 1..])
  {
    RemoveKeepsSorted(rows, k);
    UndoIntoSorted(rows[..k] + rows[k + 1..], rows[k]);
  }

  lemma InsertRestores(rows: seq<Item>, k: nat)
    requires k < |rows|
    requires forall i, j :: 0 <= i < j < |rows| ==> rows[i].position < rows[j].position
    ensures Insert(rows[k], rows[..k] + rows[k + 1..]) == rows
  {
    var x, pq := rows[k], rows[..k] + rows[k + 1..];
    forall i | 0 <= i < k ensures pq[i].position <= x.position {
      assert pq[i] == rows[i];
    }
    forall i | k <= i < |pq| ensures x.position < pq[i].position {
      assert pq[i] == rows[i + 1];
    }
    InsertAt(x, pq, k);
    assert pq[..k] + [x] + pq[k..] == rows;
  }

  /** The add-row buttons send nothing while the description is empty. */
  function AddRowRequest(description: string): (r: Option<string>)
    ensures r.Some? <==> |description| > 0
    ensures r.Some? ==> r.value == description
  {
    if description == "" then None else Some(description)
  }
}

=== FILE: message_pages.dfy ===
/** The admin inbox screens: the list filter and row badges of
    web_app/src/pages/Messages.js, and the attachment, read and reply helpers of
    web_app/src/pages/Message.js. */
module MessagePages {
  import opened Wrappers
  import opened Strings
  import Seqs

  /** A message row as the list endpoint returns it. `attachments` is the list's length,
      None when the field is missing. */
  datatype MessageRow = MessageRow(id: nat, sender: string, subject: string, read: bool, attachments: Option<nat>)

  /** The text search: kept when the lower-cased sender or subject contains the
      lower-cased term. */
  predicate MatchesTerm(term: string, m: MessageRow)
  {
    Contains(Lower(m.sender), Lower(term)) || Contains(Lower(m.subject), Lower(term))
  }

  /** The test both filters together apply to one message. */
  predicate Shown(term: string, unreadOnly: bool, m: MessageRow)
  {
    (IsBlank(term) || MatchesTerm(term, m)) && (!unreadOnly || !m.read)
  }

  /** The list after the search box and the unread-only switch, in the page's two steps:
      the text filter for a non-blank term, then the unread filter when switched on. */
  function FilterMessages(messages: seq<MessageRow>, term: string, unreadOnly: bool): (r: seq<MessageRow>)
    ensures Seqs.IsSubsequence(r, messages)
    ensures r == Seqs.Filter(messages, (m: MessageRow) => Shown(term, unreadOnly, m))
  {
    FilterStepsCompose(messages, term, unreadOnly);
    Seqs.FilterIsSubsequence(messages, (m: MessageRow) => Shown(term, unreadOnly, m));
    FilterSteps(messages, term, unreadOnly)
  }

  function FilterSteps(messages: seq<MessageRow>, term: string, unreadOnly: bool): seq<MessageRow>
  {
    var searched := if Trim(term) != [] then Seqs.Filter(messages, (m: MessageRow) => MatchesTerm(term, m)) else messages;
    if unreadOnly then Seqs.Filter(searched, (m: MessageRow) => !m.read) else searched
  }

  /** The two steps compose into one order-preserving filter by both tests. */
  lemma FilterStepsCompose(messages: seq<MessageRow>, term: string, unreadOnly: bool)
    ensures FilterSteps(messages, term, unreadOnly) == Seqs.Filter(messages, (m: MessageRow) => Shown(term, unreadOnly, m))
  {
    TrimEmptyIffBlank(term);
    if IsBlank(term) {
      BlankStepsCompose(messages, term, unreadOnly);
    } else {
      SearchStepsCompose(messages, term, unreadOnly);
    }
  }

  lemma BlankStepsCompose(messages: seq<MessageRow>, term: string, unreadOnly: bool)
    requires IsBlank(term) && Trim(term) == []
    ensures FilterSteps(messages, term, unreadOnly) == Seqs.Filter(messages, (m: MessageRow) => Shown(term, unreadOnly, m))
  {
    var both := (m: MessageRow) => Shown(term, unreadOnly, m);
    if unreadOnly {
      Seqs.FilterCongruent(messages, (m: MessageRow) => !m.read, both);
    } else {
      Seqs.FilterAll(messages, both);
    }
  }

  lemma SearchStepsCompose(messages: seq<MessageRow>, term: string, unreadOnly: bool)
    requires !IsBlank(term) && Trim(term) != []
    ensures FilterSteps(messages, term, unreadOnly) == Seqs.Filter(messages, (m: MessageRow) => Shown(term, unreadOnly, m))
  {
    var both := (m: MessageRow) => Shown(term, unreadOnly, m);
    var search := (m: MessageRow) => MatchesTerm(term, m);
    if unreadOnly {
      var unread := (m: MessageRow) => !m.read;
      Seqs.FilterFilter(messages, search, unread, both);
    } else {
      Seqs.FilterCongruent(messages, search, both);
    }
  }

  /** With a blank term and the switch off, every message is listed in order. */
  lemma NoFiltersListsAll(messages: seq<MessageRow>, term: string)
    requires IsBlank(term)
    ensures FilterMessages(messages, term, false) == messages
  {
    Seqs.FilterAll(messages, (m: MessageRow) => Shown(term, false, m));
  }

  /** Unread-only keeps exactly the unread messages. */
  lemma UnreadOnlyKeepsUnread(messages: seq<MessageRow>, term: string, m: MessageRow)
    requires IsBlank(term) && m in messages
    ensures m in FilterMessages(messages, term, true) <==> !m.read
  {
  }

  /** The blue dot shows for unread rows; the paperclip when there is an attachment. */
  datatype Badges = Badges(unreadDot: bool, paperclip: bool)

  function RowBadges(m: MessageRow): (r: Badges)
    ensures r.unreadDot <==> !m.read
    ensures r.paperclip <==> m.attachments.Some? && m.attachments.value > 0
  {
    Badges(!m.read, m.attachments.Some? && m.attachments.value > 0)
  }

  // ---------------------------------------------------------------------------
  // One message

  datatype Icon = ImageIcon | PdfIcon | GenericIcon

  /** The extensions both the icon and the preview treat as images. */
  predicate IsImageExtension(ext: string)
  {
    ext == "jpg" || ext == "jpeg" || ext == "png" || ext == "gif" || ext == "webp"
  }

  /** `fileIcon(filename)`: the lower-cased text after the last dot (the whole name when
      there is no dot) picks the icon. */
  function FileIcon(filename: string): (r: Icon)
    ensures r == ImageIcon <==> IsImageExtension(Extension(filename))
    ensures r == PdfIcon <==> Extension(filename) == "pdf"
  {
    if IsImageExtension(Extension(filename)) then ImageIcon
    else if Extension(filename) == "pdf" then PdfIcon
    else GenericIcon
  }

  /** The lower-cased text after the last dot, the whole name when there is none. */
  function Extension(filename: string): (r: string)
    ensures !HasChar(r, '.')
    ensures |r| <= |filename|
  {
    Lower(AfterLast(filename, '.'))
  }

  /** The name shown for an attachment: its `name` when non-empty, else the last path
      segment of its file URL, else nothing. */
  function DisplayName(name: Option<string>, file: Option<string>): (r: Option<string>)
    ensures name.Some? && name.value != "" ==> r == name
    ensures !(name.Some? && name.value != "") && file.Some? ==>
              r.Some? && EndsWith(file.value, r.value) && !HasChar(r.value, '/')
    ensures !(name.Some? && name.value != "") && file.None? ==> r.None?
  {
    if name.Some? && name.value != "" then name
    else if file.Some? then
      var seg := AfterLast(file.value, '/');
      assert file.value[|file.value| - |seg|..] == seg;
      Some(seg)
    else None
  }

  /** Clicking previews the attachment when the name ends in "." and an image extension,
      ignoring case; a missing name never previews. */
  function PreviewOpens(filename: Option<string>): (r: bool)
    ensures r ==> filename.Some? && |filename.value| >= 4
  {
    filename.Some? && var l := Lower(filename.value);
    EndsWith(l, ".jpg") || EndsWith(l, ".jpeg") || EndsWith(l, ".png") || EndsWith(l, ".gif") || EndsWith(l, ".webp")
  }

  /** The text after the last dot, when the name ends in "." + ext and ext has no dot. */
  lemma AfterLastOfSuffix(f: string, ext: string)
    requires !HasChar(ext, '.') && |ext| > 0
    requires EndsWith(Lower(f), "." + ext)
    ensures Extension(f) == ext
  {
    var k := |f| - |ext| - 1;
    SuffixChars(f, ext);
    AfterLastAt(f, k);
    LowerSuffix(f, k + 1);
  }

  /** The characters of a name ending, ignoring case, in "." + ext. */
  lemma SuffixChars(f: string, ext: string)
    requires !HasChar(ext, '.') && |ext| > 0
    requires EndsWith(Lower(f), "." + ext)
    ensures f[|f| - |ext| - 1] == '.'
    ensures forall i :: |f| - |ext| <= i < |f| ==> f[i] != '.'
    ensures Lower(f)[|f| - |ext|..] == ext
  {
    var n, e := |f|, |ext|;
    var t := "." + ext;
    assert t[0] == '.' && t[1..] == ext;
    SliceHead(Lower(f), t, n - e - 1);
    LowerCharDot(f[n - e - 1]);
    SuffixHasNoDot(f, ext);
  }

  /** A slice from `k` that equals `t` starts with `t[0]` and continues with the rest of `t`. */
  lemma SliceHead<T>(l: seq<T>, t: seq<T>, k: nat)
    requires k < |l| && l[k..] == t
    ensures l[k] == t[0] && l[k + 1..] == t[1..]
  {
    assert l[k + 1..] == l[k..][1..];
  }

  lemma SuffixHasNoDot(f: string, ext: string)
    requires !HasChar(ext, '.') && |ext| <= |f|
    requires Lower(f)[|f| - |ext|..] == ext
    ensures forall i :: |f| - |ext| <= i < |f| ==> f[i] != '.'
  {
    var n, e := |f|, |ext|;
    forall i | n - e <= i < n ensures f[i] != '.' {
      assert Lower(f)[n - e..][i - (n - e)] == ext[i - (n - e)];
      LowerCharDot(f[i]);
    }
  }

  /** Only a dot lower-cases to a dot. */
  lemma LowerCharDot(c: char)
    ensures LowerChar(c) == '.' <==> c == '.'
  {
  }

  /** The text after the last dot, when the last dot is at `k`. */
  lemma {:induction false} AfterLastAt(f: string, k: nat)
    requires k < |f| && f[k] == '.'
    requires forall i :: k < i < |f| ==> f[i] != '.'
    ensures AfterLast(f, '.') == f[k + 1..]
    decreases |f|
  {
    if k < |f| - 1 {
      var g := f[..|f| - 1];
      AfterLastAt(g, k);
      assert f[k + 1..] == g[k + 1..] + [f[|f| - 1]];
    }
  }

  /** Lower-casing commutes with taking a suffix. */
  lemma LowerSuffix(f: string, j: nat)
    requires j <= |f|
    ensures Lower(f[j..]) == Lower(f)[j..]
  {
  }

  /** Every name that opens a preview also shows the image icon. The converse fails:
      a bare "png" shows the image icon but does not preview. */
  lemma PreviewImpliesImageIcon(filename: Option<string>)
    requires PreviewOpens(filename)
    ensures FileIcon(filename.value) == ImageIcon
  {
    var f := filename.value;
    var l := Lower(f);
    var suffix :=
      if EndsWith(l, ".jpg") then ".jpg" else if EndsWith(l, ".jpeg") then ".jpeg"
      else if EndsWith(l, ".png") then ".png" else if EndsWith(l, ".gif") then ".gif" else ".webp";
    ImageSuffix(suffix);
    ExtensionIcon(f, suffix);
  }

  /** The five dotted image suffixes. */
  lemma ImageSuffix(suffix: string)
    requires suffix == ".jpg" || suffix == ".jpeg" || suffix == ".png" || suffix == ".gif" || suffix == ".webp"
    ensures |suffix| > 1 && suffix == "." + suffix[1..] && IsImageExtension(suffix[1..])
  {
  }

  /** A name ending, ignoring case, in "." and an image extension shows the image icon. */
  lemma ExtensionIcon(f: string, suffix: string)
    requires |suffix| > 1 && suffix == "." + suffix[1..] && IsImageExtension(suffix[1..])
    requires EndsWith(Lower(f), suffix)
    ensures FileIcon(f) == ImageIcon
  {
    var ext := suffix[1..];
    assert !HasChar(ext, '.');
    AfterLastOfSuffix(f, ext);
  }

  lemma BareExtensionIsNotPreviewed()
    ensures FileIcon("png") == ImageIcon && !PreviewOpens(Some("png"))
  {
    PngExtension();
    ShortNameNeverPreviews("png");
  }

  lemma PngExtension()
    ensures Extension("png") == "png"
  {
    var s := "png";
    AfterLastAbsent(s, '.');
    assert forall i :: 0 <= i < |s| ==> Lower(s)[i] == s[i];
  }

  /** A name shorter than ".gif" never previews. */
  lemma ShortNameNeverPreviews(f: string)
    requires |f| < 4
    ensures !PreviewOpens(Some(f))
  {
    assert |Lower(f)| < 4;
  }

  /** Opening a message sends the read PATCH only when it is unread. */
  function SendsReadPatch(m: MessageRow): (r: bool)
    ensures r <==> !m.read
  {
    !m.read
  }

  /** The reply link `mailto:<sender>?subject=Re: <subject>`. */
  function ReplyLink(m: MessageRow): (r: string)
    ensures StartsWith(r, "mailto:") && EndsWith(r, "?subject=Re: " + m.subject)
    ensures |r| == 7 + |m.sender| + 13 + |m.subject|
    ensures r[7..|r| - |"?subject=Re: " + m.subject|] == m.sender
  {
    var r := "mailto:" + m.sender + "?subject=Re: " + m.subject;
    assert r[..7] == "mailto:";
    r
  }
}

=== FILE: msgs.dfy ===
/** The contact-message API: msgs/permissions.py and msgs/views.py. Customers may only
    send messages; the superuser reads and marks them. */
module Msgs {
  import opened Wrappers

  /** The router's action names for the two viewsets. */
  datatype Action = List | Retrieve | Create | Update | PartialUpdate | Destroy | MarkRead

  /** The caller as token authentication sees it: no `Authorization` header, a header
      whose token names no active user, or a signed-in user. */
  datatype Caller = Anonymous | BadToken | SignedIn(isSuperuser: bool)

  predicate IsSuperuser(user: Caller)
  {
    user.SignedIn? && user.isSuperuser
  }

  /** `AdminReadCustomerWrite.has_permission`: the superuser may do anything, anyone
      else only create. */
  function HasPermission(user: Caller, action: Action): (r: bool)
    ensures action == Create ==> r
    ensures r && action != Create ==> user.SignedIn? && user.isSuperuser
  {
    IsSuperuser(user) || action == Create
  }

  /** A non-superuser, signed in or not, may do exactly one thing: create. */
  lemma CustomersOnlyCreate(user: Caller, action: Action)
    requires !IsSuperuser(user)
    ensures HasPermission(user, action) <==> action == Create
  {
  }

  /** What the framework answers before the view runs: a bad token is refused with 401
      whatever the action; a refused permission is 401 for a caller without credentials
      and 403 for a signed-in one; None lets the request through. */
  function Gate(user: Caller, action: Action): (r: Option<int>)
    ensures r.None? <==> !user.BadToken? && HasPermission(user, action)
    ensures r.Some? ==> (r.value == 401 <==> !user.SignedIn?)
    ensures r.Some? ==> r.value == 401 || r.value == 403
  {
    if user.BadToken? then Some(401)
    else if HasPermission(user, action) then None
    else if user.Anonymous? then Some(401)
    else Some(403)
  }

  /** Every action but `Create` is open to the superuser alone; an anonymous visitor may
      create, a stale token may not. */
  lemma GateFollowsPermission(user: Caller, action: Action)
    ensures action != Create ==> (Gate(user, action).None? <==> IsSuperuser(user))
    ensures action == Create ==> (Gate(user, action).None? <==> !user.BadToken?)
  {
  }

  datatype Message = Message(id: nat, sender: string, subject: string, content: string, read: bool)

  /** An attachment row; its `message` foreign key is not nullable. */
  datatype Attachment = Attachment(message: nat, file: string)

  /** `get_queryset` of both viewsets: every row for the superuser (messages in the
      database's newest-first order, taken as given), none for anyone else. */
  function Visible<T>(user: Caller, all: seq<T>): (r: seq<T>)
    ensures r == all || r == []
    ensures |all| > 0 ==> (|r| > 0 <==> IsSuperuser(user))
  {
    if IsSuperuser(user) then all else []
  }

  /** What a caller can list follows the permission class: whoever may not perform
      `List` sees nothing, and whoever may sees every row. */
  lemma VisibleFollowsPermission<T>(user: Caller, all: seq<T>)
    ensures !HasPermission(user, List) ==> Visible(user, all) == []
    ensures HasPermission(user, List) ==> Visible(user, all) == all
  {
  }

  /** The index of the message with that id. */
  predicate MessageAt(table: seq<Message>, pk: nat, k: nat)
  {
    k < |table| && table[k].id == pk
  }

  /** `PATCH /messages/<pk>/mark-read/`: authentication and the permission check, the
      view's own superuser check, then 404 for an unknown id; otherwise the message is
      flagged read. Returns the status and the new table. */
  function MarkReadRequest(user: Caller, table: seq<Message>, pk: nat): (r: (int, seq<Message>))
    ensures !user.SignedIn? ==> r == (401, table)
    ensures user.SignedIn? && !user.isSuperuser ==> r == (403, table)
    ensures IsSuperuser(user) && (forall k :: 0 <= k < |table| ==> table[k].id != pk) ==> r == (404, table)
    ensures r.0 == 200 ==> |r.1| == |table|
    ensures r.0 == 200 ==> forall k :: 0 <= k < |table| ==> r.1[k] == (if table[k].id == pk then table[k].(read := true) else table[k])
    ensures r.0 == 200 <==> IsSuperuser(user) && exists k :: 0 <= k < |table| && table[k].id == pk
  {
    match Gate(user, MarkRead)
    case Some(code) => (code, table)
    case None =>
      if !IsSuperuser(user) then (403, table)
      else if forall k :: 0 <= k < |table| ==> table[k].id != pk then (404, table)
      else (200, MarkMessages(table, pk))
  }

  function MarkMessages(table: seq<Message>, pk: nat): (r: seq<Message>)
    ensures |r| == |table|
    ensures forall k :: 0 <= k < |table| ==> r[k] == (if table[k].id == pk then table[k].(read := true) else table[k])
  {
    seq(|table|, k requires 0 <= k < |table| => if table[k].id == pk then table[k].(read := true) else table[k])
  }

  /** Marking read twice is marking once. */
  lemma MarkReadIdempotent(user: Caller, table: seq<Message>, pk: nat)
    requires MarkReadRequest(user, table, pk).0 == 200
    ensures MarkReadRequest(user, MarkReadRequest(user, table, pk).1, pk) == MarkReadRequest(user, table, pk)
  {
    var t1 := MarkReadRequest(user, table, pk).1;
    var k :| 0 <= k < |table| && table[k].id == pk;
    assert t1[k].id == pk;
    assert MarkMessages(t1, pk) == t1;
  }

  /** Some message in the table has that id. */
  predicate MessageExists(messages: seq<Message>, id: nat)
  {
    exists k :: 0 <= k < |messages| && messages[k].id == id
  }

  /** Every attachment belongs to a message of the table. */
  predicate AttachmentsOwned(messages: seq<Message>, all: seq<Attachment>)
  {
    forall i :: 0 <= i < |all| ==> MessageExists(messages, all[i].message)
  }

  /** `POST /attachments/`: authentication and the permission check, then the
      serializer, which refuses with 400 a missing or null `message`, an id no message
      has, and a missing file; `perform_create` then stores the attachment under the
      request's `message` id. */
  function CreateAttachment(user: Caller, messages: seq<Message>, all: seq<Attachment>,
                            requestMessage: Option<nat>, file: Option<string>): (r: Result<seq<Attachment>, int>)
    ensures r.Ok? <==> !user.BadToken? && requestMessage.Some? && MessageExists(messages, requestMessage.value) && file.Some?
    ensures r.Err? ==> (r.error == 401 <==> user.BadToken?)
    ensures r.Err? ==> r.error == 401 || r.error == 400
    ensures r.Ok? ==> |r.value| == |all| + 1 && r.value[..|all|] == all
    ensures r.Ok? ==> r.value[|all|] == Attachment(requestMessage.value, file.value)
  {
    match Gate(user, Create)
    case Some(code) => Err(code)
    case None =>
      if requestMessage.None? || !MessageExists(messages, requestMessage.value) || file.None? then Err(400)
      else Ok(all + [Attachment(requestMessage.value, file.value)])
  }

  /** The upload keeps every attachment attached to an existing message. */
  lemma CreateAttachmentKeepsOwnership(user: Caller, messages: seq<Message>, all: seq<Attachment>,
                                       requestMessage: Option<nat>, file: Option<string>)
    requires AttachmentsOwned(messages, all)
    requires CreateAttachment(user, messages, all, requestMessage, file).Ok?
    ensures AttachmentsOwned(messages, CreateAttachment(user, messages, all, requestMessage, file).value)
  {
    var r := CreateAttachment(user, messages, all, requestMessage, file).value;
    forall i | 0 <= i < |r|
      ensures MessageExists(messages, r[i].message)
    {
      if i < |all| {
        assert r[i] == all[i];
      }
    }
  }
}

=== FILE: navigation.dfy ===
/** Client-side navigation: the highlighted menu key of web_app/src/components/Menu.js
    and web_app/src/App.js, logout, the start-up authentication check of App.js, and the
    page the root route renders. */
module Navigation {
  import opened Wrappers
  import opened Strings

  /** One row of the menu's route table: a key and the pattern that selects it. */
  datatype Pattern = HomeExact | Prefix(p: string)
  datatype Rule = Rule(key: string, pattern: Pattern)

  /** `/^\/(home)?$/` matches exactly "/" and "/home"; `/^\/x/` matches a prefix. */
  predicate Matches(pattern: Pattern, path: string) {
    match pattern
    case HomeExact => path == "/" || path == "/home"
    case Prefix(p) => StartsWith(path, p)
  }

  /** The menu's route table, in its order. */
  const MenuRules: seq<Rule> := [
    Rule("home", HomeExact),
    Rule("customers", Prefix("/customers")),
    Rule("invoices", Prefix("/invoices")),
    Rule("appointments", Prefix("/appointments")),
    Rule("contact", Prefix("/contact")),
    Rule("schedule", Prefix("/schedule")),
    Rule("login", Prefix("/login")),
    Rule("signup", Prefix("/signup")),
    Rule("about", Prefix("/about"))
  ]

  /** `routeMap.find(...)`: the key of the first rule matching `path`, or "". */
  function FirstMatch(rules: seq<Rule>, path: string): (r: string)
    ensures (forall i :: 0 <= i < |rules| ==> !Matches(rules[i].pattern, path)) ==> r == ""
    ensures forall i :: (0 <= i < |rules| && Matches(rules[i].pattern, path)
                         && (forall j :: 0 <= j < i ==> !Matches(rules[j].pattern, path))) ==> r == rules[i].key
  {
    if |rules| == 0 then ""
    else if Matches(rules[0].pattern, path) then rules[0].key
    else
      var rest := rules[1..];
      assert forall i :: 1 <= i < |rules| ==> rules[i] == rest[i - 1];
      assert !Matches(rules[0].pattern, path);
      FirstMatch(rest, path)
  }

  /** `getSelectedKey` of the top menu. */
  function SelectedKey(path: string): (r: string)
    ensures (path == "/" || path == "/home") ==> r == "home"
  {
    FirstMatch(MenuRules, path)
  }

  /** The app's own active-key chain: "home" for exactly "/" and "/home", otherwise the
      key whose "/" + key the path starts with, or "" when no listed prefix matches. */
  function ActiveKey(path: string): (r: string)
    ensures r in {"home", "contact", "customers", "login", "signup", "invoices", ""}
    ensures r == "home" <==> path == "/" || path == "/home"
    ensures r != "home" && r != "" ==> StartsWith(path, "/" + r)
    ensures r == "" ==> forall k :: k in ["contact", "customers", "login", "signup", "invoices"] ==> !StartsWith(path, "/" + k)
  {
    if path == "/" || path == "/home" then "home"
    else if StartsWith(path, "/contact") then "contact"
    else if StartsWith(path, "/customers") then "customers"
    else if StartsWith(path, "/login") then "login"
    else if StartsWith(path, "/signup") then "signup"
    else if StartsWith(path, "/invoices") then "invoices"
    else ""
  }

  /** Whatever the app highlights, the menu highlights the same key: the prefixes are
      pairwise unrelated, so the two different orders agree. */
  lemma ActiveKeyAgreesWithMenu(path: string)
    requires ActiveKey(path) != ""
    ensures SelectedKey(path) == ActiveKey(path)
  {
    if path == "/" || path == "/home" {
    } else if StartsWith(path, "/contact") {
      MenuContact(path);
    } else if StartsWith(path, "/customers") {
      MenuCustomers(path);
    } else if StartsWith(path, "/login") {
      MenuLogin(path);
    } else if StartsWith(path, "/signup") {
      MenuSignup(path);
    } else {
      MenuInvoices(path);
    }
  }

  lemma MenuCustomers(path: string)
    requires StartsWith(path, "/customers")
    ensures SelectedKey(path) == "customers"
  {
    assert Matches(MenuRules[1].pattern, path);
  }

  lemma MenuInvoices(path: string)
    requires StartsWith(path, "/invoices")
    ensures SelectedKey(path) == "invoices"
  {
    NotBoth(path, "/invoices", "/customers", 1);
    assert Matches(MenuRules[2].pattern, path);
  }

  lemma MenuContact(path: string)
    requires StartsWith(path, "/contact")
    ensures SelectedKey(path) == "contact"
  {
    NotBoth(path, "/contact", "/customers", 2);
    NotBoth(path, "/contact", "/invoices", 1);
    NotBoth(path, "/contact", "/appointments", 1);
    assert Matches(MenuRules[4].pattern, path);
  }

  lemma MenuLogin(path: string)
    requires StartsWith(path, "/login")
    ensures SelectedKey(path) == "login"
  {
    NotBoth(path, "/login", "/customers", 1);
    NotBoth(path, "/login", "/invoices", 1);
    NotBoth(path, "/login", "/appointments", 1);
    NotBoth(path, "/login", "/contact", 1);
    NotBoth(path, "/login", "/schedule", 1);
    assert Matches(MenuRules[6].pattern, path);
  }

  lemma MenuSignup(path: string)
    requires StartsWith(path, "/signup")
    ensures SelectedKey(path) == "signup"
  {
    NotBoth(path, "/signup", "/customers", 1);
    NotBoth(path, "/signup", "/invoices", 1);
    NotBoth(path, "/signup", "/appointments", 1);
    NotBoth(path, "/signup", "/contact", 1);
    NotBoth(path, "/signup", "/schedule", 2);
    NotBoth(path, "/signup", "/login", 1);
    assert Matches(MenuRules[7].pattern, path);
  }

  /** Two prefixes that differ at some position cannot both start a path. */
  lemma NotBoth(path: string, p: string, q: string, n: nat)
    requires n < |p| && n < |q| && p[n] != q[n]
    ensures !(StartsWith(path, p) && StartsWith(path, q))
  {
  }

  /** Only the exact paths are home; "/home/x" highlights nothing. */
  lemma HomeIsExact()
    ensures SelectedKey("/home") == "home" && SelectedKey("/") == "home"
    ensures SelectedKey("/home/x") == ""
  {
    var path := "/home/x";
    assert path[1] == 'h';
    NoPrefixStartsWithH();
    forall i | 1 <= i < |MenuRules|
      ensures !Matches(MenuRules[i].pattern, path)
    {
      assert MenuRules[i].pattern.p[1] != path[1];
    }
  }

  lemma NoPrefixStartsWithH()
    ensures forall i :: 1 <= i < |MenuRules| ==> MenuRules[i].pattern.Prefix? && |MenuRules[i].pattern.p| > 1 && MenuRules[i].pattern.p[1] != 'h'
  {
  }

  /** The other keys match any continuation, with no boundary at a '/'. */
  lemma PrefixHasNoBoundary()
    ensures SelectedKey("/customers/5") == "customers"
    ensures SelectedKey("/customersfoo") == "customers"
  {
    assert StartsWith("/customers/5", "/customers");
    assert StartsWith("/customersfoo", "/customers");
  }

  // ---------------------------------------------------------------------------
  // Stored session

  /** `localStorage`. */
  type Storage = map<string, string>

  /** `handleLogout`: the stored token is removed and the login page is next. */
  function Logout(storage: Storage): (r: (Storage, string))
    ensures "authToken" !in r.0
    ensures forall k :: k in storage && k != "authToken" ==> k in r.0 && r.0[k] == storage[k]
    ensures forall k :: k in r.0 ==> k in storage
    ensures r.1 == "/login"
  {
    (storage - {"authToken"}, "/login")
  }

  /** The answer of one `fetch`: it threw, or it came back with a status. */
  datatype Reply = Threw | Status(code: int)

  /** `/me/`: it threw, came back with a status and a body whose JSON did not parse, or
      with a parsed body carrying `is_superuser`. */
  datatype MeReply = MeThrew | MeStatus(code: int, body: Option<bool>)

  /** The outcome of `checkAuth`. */
  datatype AuthCheck = AuthCheck(authenticated: bool, isAdmin: bool, storage: Storage, requests: nat)

  /** `response.ok`. */
  predicate Ok(code: int) {
    200 <= code <= 299
  }

  /** Forget the stored session. */
  function ClearSession(storage: Storage): (r: Storage)
    ensures "authToken" !in r && "user" !in r
    ensures forall k :: k in storage && k != "authToken" && k != "user" ==> k in r && r[k] == storage[k]
  {
    storage - {"authToken", "user"}
  }

  /** `checkAuth`: no stored token means signed out without a request; a verify status
      of exactly 400, a non-OK `/me/`, or anything thrown clears the session; otherwise
      the user is signed in and is an admin exactly when `is_superuser`. The user's JSON
      text is the parameter `userJson`. */
  function CheckAuth(storage: Storage, verify: Reply, me: MeReply, userJson: string): (r: AuthCheck)
    ensures !("authToken" in storage && storage["authToken"] != "") ==> r == AuthCheck(false, false, storage, 0)
    ensures r.authenticated <==> "authToken" in storage && storage["authToken"] != ""
                                  && verify.Status? && verify.code != 400
                                  && me.MeStatus? && Ok(me.code) && me.body.Some?
    ensures r.authenticated ==> r.isAdmin == me.body.value && r.storage == storage["user" := userJson] && r.requests == 2
    ensures !r.isAdmin ==> !r.authenticated || !me.body.value
    ensures !r.authenticated && r.requests > 0 ==> r.storage == ClearSession(storage) && !r.isAdmin
  {
    if !("authToken" in storage && storage["authToken"] != "") then AuthCheck(false, false, storage, 0)
    else match verify
      case Threw => AuthCheck(false, false, ClearSession(storage), 1)
      case Status(code) =>
        if code == 400 then AuthCheck(false, false, ClearSession(storage), 1)
        else match me
          case MeThrew => AuthCheck(false, false, ClearSession(storage), 2)
          case MeStatus(c, body) =>
            if !Ok(c) || body.None? then AuthCheck(false, false, ClearSession(storage), 2)
            else AuthCheck(true, body.value, storage["user" := userJson], 2)
  }

  /** Only a verify status of exactly 400 signs out early: a 401 or 500 from verify falls
      through to `/me/`, and a good `/me/` then signs the user in. */
  lemma OnlyVerify400SignsOut(storage: Storage, code: int, isSuperuser: bool, userJson: string)
    requires "authToken" in storage && storage["authToken"] != ""
    ensures CheckAuth(storage, Status(code), MeStatus(200, Some(isSuperuser)), userJson).authenticated <==> code != 400
  {
  }

  /** The pages the root route can show. */
  datatype Page = AdminPage | HomePage

  /** The root route: the admin dashboard for an admin, the public home page otherwise. */
  function RootPage(isAdmin: bool): (r: Page)
    ensures r == AdminPage <==> isAdmin
  {
    if isAdmin then AdminPage else HomePage
  }

  /** After a check that signs a superuser in, "/" shows the dashboard; after any
      check that fails, it shows the home page. */
  lemma RootPageFollowsCheck(storage: Storage, verify: Reply, me: MeReply, userJson: string)
    ensures var c := CheckAuth(storage, verify, me, userJson);
            RootPage(c.isAdmin) == AdminPage <==> c.authenticated && me.body.value
  {
  }
}

=== FILE: notification_store.dfy ===
/** The browser's notification store: the provider of
    web_app/src/context/NotificationContext.js and the bell of
    web_app/src/components/Notification.js. Server answers are inputs. */
module NotificationStore {
  import opened Wrappers
  import Strings
  import Notifications

  /** A list entry: a row from the list endpoint, or a socket frame prepended whole
      (frames carry no id and no read flag, which read as absent and false). */
  datatype Entry = Entry(id: Option<nat>, isRead: bool, body: string)

  /** The list and the unread counter, kept independently of each other. */
  datatype Store = Store(notifications: seq<Entry>, unread: nat)

  const Empty := Store([], 0)

  /** The outcome of a GET: failed, or the JSON field (absent or null is None). */
  datatype Fetch<T> = Failed | Fetched(field: Option<T>)

  /** How many entries are shown as unread. */
  function UnreadEntries(s: seq<Entry>): (r: nat)
    ensures r <= |s|
  {
    if |s| == 0 then 0 else (if s[0].isRead then 0 else 1) + UnreadEntries(s[1..])
  }

  /** The counter agrees with the list. The client never recomputes it; the lemmas below
      say which events keep it. */
  predicate CounterMatches(s: Store)
  {
    s.unread == UnreadEntries(s.notifications)
  }

  /** `onmessage`: prepend the frame, count one more unread. */
  function Push(s: Store, frame: Entry): (r: Store)
    ensures r.notifications == [frame] + s.notifications
    ensures r.unread == s.unread + 1
  {
    Store([frame] + s.notifications, s.unread + 1)
  }

  /** `fetchNotifications`: replace the list with `results`, or [] when absent; a failed
      request changes nothing. */
  function FetchNotifications(s: Store, f: Fetch<seq<Entry>>): (r: Store)
    ensures f.Failed? ==> r == s
    ensures f.Fetched? ==> r.notifications == f.field.GetOr([]) && r.unread == s.unread
  {
    match f
    case Failed => s
    case Fetched(results) => s.(notifications := results.GetOr([]))
  }

  /** `fetchUnread`: the server's count, or 0 when absent; a failed request changes
      nothing. */
  function FetchUnread(s: Store, f: Fetch<nat>): (r: Store)
    ensures f.Failed? ==> r == s
    ensures f.Fetched? ==> r.unread == f.field.GetOr(0) && r.notifications == s.notifications
  {
    match f
    case Failed => s
    case Fetched(count) => s.(unread := count.GetOr(0))
  }

  /** Flag the entries with that id as read; length, order and other entries kept. */
  function MarkEntries(list: seq<Entry>, id: nat): (r: seq<Entry>)
    ensures |r| == |list|
    ensures forall i :: 0 <= i < |list| ==>
              r[i] == (if list[i].id == Some(id) then list[i].(isRead := true) else list[i])
  {
    seq(|list|, i requires 0 <= i < |list| => if list[i].id == Some(id) then list[i].(isRead := true) else list[i])
  }

  /** `markRead(id)` as written, after the POST succeeds: one less unread, never below
      0, whether or not the id is listed or already read. A failed POST changes nothing. */
  function MarkRead(s: Store, id: nat, posted: bool): (r: Store)
    ensures !posted ==> r == s
    ensures posted ==> r.unread == (if s.unread == 0 then 0 else s.unread - 1)
    ensures posted ==> r.notifications == MarkEntries(s.notifications, id)
  {
    if !posted then s
    else Store(MarkEntries(s.notifications, id), if s.unread == 0 then 0 else s.unread - 1)
  }

  /** An unread entry carries the id. */
  predicate HasUnread(list: seq<Entry>, id: nat)
  {
    exists i :: 0 <= i < |list| && list[i].id == Some(id) && !list[i].isRead
  }

  /** `markRead(id)` counting down only by the entries it actually marks. */
  function MarkReadFixed(s: Store, id: nat, posted: bool): (r: Store)
    ensures !posted ==> r == s
    ensures posted ==> r.notifications == MarkEntries(s.notifications, id)
    ensures posted && !HasUnread(s.notifications, id) ==> r.unread == s.unread
    ensures CounterMatches(s) ==> CounterMatches(r)
  {
    if !posted then s
    else
      var marked := MarkEntries(s.notifications, id);
      MarkEntriesCount(s.notifications, id);
      var drop := UnreadEntries(s.notifications) - UnreadEntries(marked);
      Store(marked, if s.unread < drop then 0 else s.unread - drop)
  }

  /** Marking never adds unread entries, and removes exactly the unread ones carrying
      the id. */
  lemma {:induction false} MarkEntriesCount(list: seq<Entry>, id: nat)
    ensures UnreadEntries(MarkEntries(list, id)) <= UnreadEntries(list)
    ensures UnreadEntries(MarkEntries(list, id)) == UnreadEntries(list) <==> !HasUnread(list, id)
  {
    if |list| > 0 {
      var m := MarkEntries(list, id);
      assert m[1..] == MarkEntries(list[1..], id);
      MarkEntriesCount(list[1..], id);
      HasUnreadCons(list, id);
    }
  }

  /** A list has an unread entry with the id when its head is one or its tail has one. */
  lemma HasUnreadCons(list: seq<Entry>, id: nat)
    requires |list| > 0
    ensures HasUnread(list, id) <==> (list[0].id == Some(id) && !list[0].isRead) || HasUnread(list[1..], id)
  {
    if HasUnread(list, id) && !(list[0].id == Some(id) && !list[0].isRead) {
      var i :| 0 <= i < |list| && list[i].id == Some(id) && !list[i].isRead;
      assert list[1..][i - 1] == list[i];
    }
    if HasUnread(list[1..], id) {
      var i :| 0 <= i < |list[1..]| && list[1..][i].id == Some(id) && !list[1..][i].isRead;
      assert list[i + 1] == list[1..][i];
    }
  }

  /** A pushed frame is unread, so pushing keeps a matching counter matching. */
  lemma PushKeepsCounter(s: Store, frame: Entry)
    requires CounterMatches(s) && !frame.isRead
    ensures CounterMatches(Push(s, frame))
  {
    assert (Push(s, frame).notifications)[1..] == s.notifications;
  }

  /** As written, marking an id that is not listed still counts down: one unread
      notification 1, `markRead(2)`, and the badge says 0 while notification 1 is still
      unread. The fixed version keeps the badge at 1. */
  lemma MarkReadAbsentIdDesyncs()
    ensures var s := Store([Entry(Some(1), false, "Invoice #250101001 paid")], 1);
            CounterMatches(s) && MarkRead(s, 2, true).unread == 0
            && !CounterMatches(MarkRead(s, 2, true))
            && MarkReadFixed(s, 2, true).unread == 1
  {
    var s := Store([Entry(Some(1), false, "Invoice #250101001 paid")], 1);
    assert MarkEntries(s.notifications, 2) == s.notifications;
    assert UnreadEntries(s.notifications) == 1;
  }

  /** `markAllRead`: after a successful POST the counter is 0 and the list is fetched
      again; after a failed POST nothing changes. */
  function MarkAllRead(s: Store, posted: bool, refetch: Fetch<seq<Entry>>): (r: Store)
    ensures !posted ==> r == s
    ensures posted ==> r.unread == 0 && r == FetchNotifications(s.(unread := 0), refetch)
  {
    if !posted then s else FetchNotifications(s.(unread := 0), refetch)
  }

  /** When the server has marked every row read, the counter matches after
      `markAllRead`. */
  lemma MarkAllReadMatchesReadList(s: Store, rows: seq<Entry>)
    requires forall i :: 0 <= i < |rows| ==> rows[i].isRead
    ensures CounterMatches(MarkAllRead(s, true, Fetched(Some(rows))))
  {
    AllReadCount(rows);
  }

  lemma {:induction false} AllReadCount(rows: seq<Entry>)
    requires forall i :: 0 <= i < |rows| ==> rows[i].isRead
    ensures UnreadEntries(rows) == 0
  {
    if |rows| > 0 {
      AllReadCount(rows[1..]);
    }
  }

  // ---------------------------------------------------------------------------
  // Session gating

  /** The socket URL the provider opens, from the stored token and user email; nothing
      without both (empty strings count as missing). The group is the raw email. */
  function ProviderSocketPath(token: Option<string>, email: Option<string>): (r: Option<string>)
    ensures r.Some? <==> token.Some? && token.value != "" && email.Some? && email.value != ""
    ensures r.Some? ==> r.value == "/ws/notifications/" + email.value + "/?token=" + token.value
  {
    if token.Some? && token.value != "" && email.Some? && email.value != ""
    then Some("/ws/notifications/" + email.value + "/?token=" + token.value)
    else None
  }

  /** The group segment the provider's socket URL names, as written: the raw email. */
  function ProviderGroup(email: string): string
  {
    email
  }

  /** As written the provider joins the raw e-mail and `push_notification` publishes
      to it, but an e-mail has an '@', which the channel layer refuses in a group name:
      the socket's connect fails and every push raises. */
  lemma RawEmailGroupIsRejected(layer: Notifications.Membership, channel: string, email: string)
    requires Strings.HasChar(email, '@')
    ensures Notifications.Connect(layer, channel, ProviderGroup(email)).None?
    ensures Notifications.Publish(layer, Notifications.PushGroup(email)).None?
  {
    var i :| 0 <= i < |email| && email[i] == '@';
    assert !Notifications.IsGroupChar(email[i]);
  }

  /** The provider's group segment as the consumer expects it: the safe group. */
  function ProviderGroupFixed(hexdigest: string -> string, email: string): (r: string)
    requires |hexdigest(Strings.Lower(email))| == 64
    ensures |r| == 37 && Strings.StartsWith(r, "user_")
    ensures forall other :: Strings.EqualsIgnoreCase(email, other) ==> r == Notifications.SafeGroup(hexdigest, other)
  {
    forall other | Strings.EqualsIgnoreCase(email, other)
      ensures Notifications.SafeGroup(hexdigest, email) == Notifications.SafeGroup(hexdigest, other)
    {
      Notifications.SafeGroupIgnoresCase(hexdigest, email, other);
    }
    Notifications.SafeGroup(hexdigest, email)
  }

  /** With both sides on the safe group, a socket opened by a user whose e-mail equals
      the customer's ignoring case connects, and the customer's push reaches it. */
  lemma FixedGroupsMeet(hexdigest: string -> string, layer: Notifications.Membership, channel: string, userEmail: string, customerEmail: string)
    requires |hexdigest(Strings.Lower(userEmail))| == 64
    requires forall i :: 0 <= i < 64 ==> Notifications.IsHexDigit(hexdigest(Strings.Lower(userEmail))[i])
    requires Strings.EqualsIgnoreCase(userEmail, customerEmail)
    ensures Notifications.Connect(layer, channel, ProviderGroupFixed(hexdigest, userEmail)).Some?
    ensures var joined := Notifications.Connect(layer, channel, ProviderGroupFixed(hexdigest, userEmail)).value;
            Notifications.Publish(joined, Notifications.PushGroupFixed(hexdigest, customerEmail)).Some?
            && channel in Notifications.Publish(joined, Notifications.PushGroupFixed(hexdigest, customerEmail)).value
  {
    Notifications.SafeGroupIsValidName(hexdigest, userEmail);
    Notifications.SafeGroupIgnoresCase(hexdigest, userEmail, customerEmail);
  }

  /** The bell's state: the store, whether its socket is open. */
  datatype Bell = Bell(store: Store, socketOpen: bool)

  /** The bell's effect on an authentication change. Logged out: empty list, zero
      counter, socket closed and forgotten. Logged in: the counter fetch, and a socket
      only when a token is stored. */
  function BellOnAuth(b: Bell, authenticated: bool, token: Option<string>, unreadFetch: Fetch<nat>): (r: Bell)
    ensures !authenticated ==> r == Bell(Empty, false)
    ensures authenticated ==> r.store == FetchUnread(b.store, unreadFetch)
    ensures authenticated ==> (r.socketOpen <==> token.Some? && token.value != "")
  {
    if !authenticated then Bell(Empty, false)
    else Bell(FetchUnread(b.store, unreadFetch), token.Some? && token.value != "")
  }

  /** The bell renders only for a signed-in user. */
  function BellView(b: Bell, authenticated: bool): (r: Option<Store>)
    ensures r.Some? <==> authenticated
    ensures r.Some? ==> r.value == b.store
  {
    if authenticated then Some(b.store) else None
  }

  /** Logging out always leaves a matching, empty store. */
  lemma LogoutClearsStore(b: Bell, token: Option<string>, f: Fetch<nat>)
    ensures CounterMatches(BellOnAuth(b, false, token, f).store)
    ensures BellOnAuth(b, false, token, f).store.notifications == []
  {
  }
}

=== FILE: notifications.dfy ===
/** Server-side notifications: the age text of notifications/models.py, the socket
    consumer of notifications/consumers.py and the group push of notifications/ws.py. */
module Notifications {
  import opened Wrappers
  import opened Strings

  const MicrosPerSecond := 1_000_000
  const MicrosPerMinute := 60 * MicrosPerSecond
  const MicrosPerHour := 60 * MicrosPerMinute
  const MicrosPerDay := 24 * MicrosPerHour

  /** `timedelta.seconds` of a non-negative age: whole seconds within the last day. */
  function DeltaSeconds(ageMicros: nat): (r: nat)
    ensures r < 86400
    ensures ageMicros < MicrosPerDay ==> r * MicrosPerSecond <= ageMicros < (r + 1) * MicrosPerSecond
  {
    (ageMicros / MicrosPerSecond) % 86400
  }

  /** `timedelta.days` of a non-negative age. */
  function DeltaDays(ageMicros: nat): (r: nat)
    ensures r * MicrosPerDay <= ageMicros < (r + 1) * MicrosPerDay
  {
    ageMicros / MicrosPerDay
  }

  /** The text shown for 20 to 59 seconds: the f-prefix is missing, so the placeholder is
      printed as it stands. */
  const UninterpolatedSeconds := "{time_difference.seconds} seconds ago"

  /** `time_since`, as written; the age is `now - created_at` in microseconds and may be
      negative when the clock is behind. */
  function TimeSince(ageMicros: int): (r: string)
    ensures ageMicros < 20 * MicrosPerSecond ==> r == "just now"
    ensures 20 * MicrosPerSecond <= ageMicros < MicrosPerMinute ==> r == UninterpolatedSeconds
    ensures MicrosPerMinute <= ageMicros ==> r == AgeText(ageMicros)
  {
    if ageMicros < 20 * MicrosPerSecond then "just now"
    else if ageMicros < MicrosPerMinute then UninterpolatedSeconds
    else AgeText(ageMicros)
  }

  /** The minute, hour and day buckets shared by both versions. */
  function AgeText(ageMicros: int): (r: string)
    requires ageMicros >= MicrosPerMinute
    ensures ageMicros < MicrosPerHour ==> r == MinutesText(ageMicros)
    ensures MicrosPerHour <= ageMicros < MicrosPerDay ==> r == HoursText(ageMicros)
    ensures MicrosPerDay <= ageMicros ==> r == DaysText(ageMicros)
  {
    if ageMicros < MicrosPerHour then MinutesText(ageMicros)
    else if ageMicros < MicrosPerDay then HoursText(ageMicros)
    else DaysText(ageMicros)
  }

  /** "N minutes ago": N whole minutes have passed, and N is 1 to 59. */
  function MinutesText(ageMicros: int): (r: string)
    requires MicrosPerMinute <= ageMicros < MicrosPerHour
    ensures EndsWith(r, " minutes ago") && |r| > 12 && IsDecimal(r[..|r| - 12])
    ensures var n := ParseNat(r[..|r| - 12]);
            1 <= n <= 59 && n * MicrosPerMinute <= ageMicros < (n + 1) * MicrosPerMinute
  {
    var secs := DeltaSeconds(ageMicros);
    var n := secs / 60;
    assert n * 60 <= secs < (n + 1) * 60;
    CountText(n, " minutes ago")
  }

  /** "N hours ago": N whole hours have passed, and N is 1 to 23. */
  function HoursText(ageMicros: int): (r: string)
    requires MicrosPerHour <= ageMicros < MicrosPerDay
    ensures EndsWith(r, " hours ago") && |r| > 10 && IsDecimal(r[..|r| - 10])
    ensures var n := ParseNat(r[..|r| - 10]);
            1 <= n <= 23 && n * MicrosPerHour <= ageMicros < (n + 1) * MicrosPerHour
  {
    var secs := DeltaSeconds(ageMicros);
    var n := secs / 3600;
    assert n * 3600 <= secs < (n + 1) * 3600;
    CountText(n, " hours ago")
  }

  /** "N days ago": N whole days have passed, and N is at least 1. */
  function DaysText(ageMicros: int): (r: string)
    requires MicrosPerDay <= ageMicros
    ensures EndsWith(r, " days ago") && |r| > 9 && IsDecimal(r[..|r| - 9])
    ensures var n := ParseNat(r[..|r| - 9]);
            n >= 1 && n * MicrosPerDay <= ageMicros < (n + 1) * MicrosPerDay
  {
    CountText(DeltaDays(ageMicros), " days ago")
  }

  /** All characters are decimal digits. */
  predicate IsDecimal(s: string)
  {
    forall i :: 0 <= i < |s| ==> IsDigit(s[i])
  }

  /** `f"{n}{unit}"`, with the number readable back from the front. */
  function CountText(n: nat, unit: string): (r: string)
    ensures EndsWith(r, unit) && |r| > |unit|
    ensures IsDecimal(r[..|r| - |unit|]) && ParseNat(r[..|r| - |unit|]) == n
  {
    var digits := NatToString(n);
    ParseNatToString(n);
    var r := digits + unit;
    assert r[..|r| - |unit|] == digits;
    assert r[|r| - |unit|..] == unit;
    r
  }

  /** `time_since` with the seconds bucket interpolated, as the other buckets are. */
  function TimeSinceFixed(ageMicros: int): (r: string)
    ensures 20 * MicrosPerSecond <= ageMicros < MicrosPerMinute ==>
              EndsWith(r, " seconds ago") && |r| > 12 && IsDecimal(r[..|r| - 12])
              && 20 <= ParseNat(r[..|r| - 12]) <= 59
              && ParseNat(r[..|r| - 12]) * MicrosPerSecond <= ageMicros < (ParseNat(r[..|r| - 12]) + 1) * MicrosPerSecond
    ensures !(20 * MicrosPerSecond <= ageMicros < MicrosPerMinute) ==> r == TimeSince(ageMicros)
  {
    if 20 * MicrosPerSecond <= ageMicros < MicrosPerMinute
    then CountText(DeltaSeconds(ageMicros), " seconds ago")
    else TimeSince(ageMicros)
  }

  /** As written, every age from 20 to 59 seconds reads the same, so the text does not
      tell 21 seconds from 58; the fixed text does. */
  lemma SecondsBucketIsConstant()
    ensures TimeSince(21 * MicrosPerSecond) == TimeSince(58 * MicrosPerSecond)
    ensures TimeSinceFixed(21 * MicrosPerSecond) != TimeSinceFixed(58 * MicrosPerSecond)
  {
  }

  // ---------------------------------------------------------------------------
  // Socket consumer

  /** `safe_group(email)`: "user_" and the first 32 hex digits of the SHA-256 of the
      lower-cased email. The hash is a parameter: `hexdigest(t)` is the 64-digit hex
      digest of `t`. */
  function SafeGroup(hexdigest: string -> string, email: string): (r: string)
    requires |hexdigest(Lower(email))| == 64
    ensures |r| == 37 && StartsWith(r, "user_")
    ensures r[5..] == hexdigest(Lower(email))[..32]
  {
    var r := "user_" + hexdigest(Lower(email))[..32];
    assert r[..5] == "user_";
    r
  }

  /** The group depends on the email only up to case. */
  lemma SafeGroupIgnoresCase(hexdigest: string -> string, a: string, b: string)
    requires |hexdigest(Lower(a))| == 64
    requires EqualsIgnoreCase(a, b)
    ensures |hexdigest(Lower(b))| == 64
    ensures SafeGroup(hexdigest, a) == SafeGroup(hexdigest, b)
  {
  }

  /** A lower-case hexadecimal digit, the alphabet of `hexdigest()`. */
  predicate IsHexDigit(c: char)
  {
    '0' <= c <= '9' || 'a' <= c <= 'f'
  }

  /** A character the channel layer allows in a group name. */
  predicate IsGroupChar(c: char)
  {
    'a' <= c <= 'z' || 'A' <= c <= 'Z' || '0' <= c <= '9' || c == '-' || c == '_' || c == '.'
  }

  /** The channel layer's check on every group name it is handed: non-empty, shorter
      than 100 characters, and only ASCII letters, digits, '-', '_' and '.'. A name
      failing it makes `group_add` and `group_send` raise. */
  predicate ValidGroupName(name: string)
  {
    0 < |name| < 100 && forall i :: 0 <= i < |name| ==> IsGroupChar(name[i])
  }

  /** A safe group is a name the channel layer accepts. */
  lemma SafeGroupIsValidName(hexdigest: string -> string, email: string)
    requires |hexdigest(Lower(email))| == 64
    requires forall i :: 0 <= i < 64 ==> IsHexDigit(hexdigest(Lower(email))[i])
    ensures ValidGroupName(SafeGroup(hexdigest, email))
  {
    var g := SafeGroup(hexdigest, email);
    forall i | 0 <= i < |g|
      ensures IsGroupChar(g[i])
    {
      if i < 5 {
        assert g[..5] == "user_";
        assert g[i] == "user_"[i];
      } else {
        assert g[i] == g[5..][i - 5] == hexdigest(Lower(email))[i - 5];
      }
    }
  }

  /** The channel layer's group membership: pairs of group name and channel. */
  type Membership = set<(string, string)>

  /** `connect`: join the group named by the URL segment, unchanged; the layer refuses
      an invalid name, and the connection fails (None). */
  function Connect(layer: Membership, channel: string, segment: string): (r: Option<Membership>)
    ensures r.Some? <==> ValidGroupName(segment)
    ensures r.Some? ==> (segment, channel) in r.value
    ensures r.Some? ==> r.value - {(segment, channel)} == layer - {(segment, channel)}
  {
    if ValidGroupName(segment) then Some(layer + {(segment, channel)}) else None
  }

  /** `disconnect`: leave the group joined on connect. */
  function Disconnect(layer: Membership, channel: string, group: string): (r: Membership)
    ensures (group, channel) !in r
    ensures r <= layer
  {
    layer - {(group, channel)}
  }

  /** Connecting then disconnecting leaves the layer as it was when the channel was not
      already in that group. */
  lemma ConnectThenDisconnect(layer: Membership, channel: string, segment: string)
    requires ValidGroupName(segment)
    requires (segment, channel) !in layer
    ensures Disconnect(Connect(layer, channel, segment).value, channel, segment) == layer
  {
  }

  /** `group_send`: the channels of the group that receive the event; the layer refuses
      an invalid name and the send raises (None). */
  function Publish(layer: Membership, group: string): (r: Option<set<string>>)
    ensures r.Some? <==> ValidGroupName(group)
    ensures r.Some? ==> forall c :: c in r.value <==> (group, c) in layer
  {
    if ValidGroupName(group) then Some(set p | p in layer && p.0 == group :: p.1) else None
  }

  /** The group `push_notification` publishes to, as written: the customer's raw
      e-mail. */
  function PushGroup(email: string): string
  {
    email
  }

  /** The group the push should use: the customer's safe group. */
  function PushGroupFixed(hexdigest: string -> string, email: string): (r: string)
    requires |hexdigest(Lower(email))| == 64
    ensures r == SafeGroup(hexdigest, email)
  {
    SafeGroup(hexdigest, email)
  }

  /** The JSON text `{"type": <kind>, "payload": <data>}` that `json.dumps` gives, with
      the payload's own JSON text spliced in. */
  function Envelope(kind: string, payloadJson: string): (r: string)
    ensures StartsWith(r, "{\"type\": \"" + kind + "\", \"payload\": ")
    ensures EndsWith(r, "}") && |r| == |kind| + 25 + |payloadJson|
    ensures r[|kind| + 24..|r| - 1] == payloadJson
  {
    var prefix := "{\"type\": \"" + kind + "\", \"payload\": ";
    var r := prefix + payloadJson + "}";
    assert |prefix| == |kind| + 24;
    assert r[..|prefix|] == prefix;
    assert r[|prefix|..|r| - 1] == payloadJson;
    r
  }

  /** `notify`: a notification frame. */
  function Notify(dataJson: string): (r: string)
    ensures StartsWith(r, "{\"type\": \"notification\", ")
    ensures PayloadOf(r, "notification") == dataJson
  {
    var r := Envelope("notification", dataJson);
    assert r[..|"{\"type\": \"notification\", "|] == "{\"type\": \"notification\", ";
    r
  }

  /** `message_event`: a message frame. */
  function MessageEvent(dataJson: string): (r: string)
    ensures StartsWith(r, "{\"type\": \"message\", ")
    ensures PayloadOf(r, "message") == dataJson
  {
    var r := Envelope("message", dataJson);
    assert r[..|"{\"type\": \"message\", "|] == "{\"type\": \"message\", ";
    r
  }

  /** The payload text of a frame of the given kind: what a reader strips off. */
  function PayloadOf(frame: string, kind: string): string
  {
    if |frame| >= |kind| + 25 then frame[|kind| + 24..|frame| - 1] else ""
  }

  /** The two frame kinds never coincide, whatever the payloads. */
  lemma FrameKindsDiffer(a: string, b: string)
    ensures Notify(a) != MessageEvent(b)
  {
    var n, m := Notify(a), MessageEvent(b);
    assert n[10] == 'n' && m[10] == 'm';
  }
}

=== FILE: payments.dfy ===
/** Applying a payment to its invoice (`Payment.apply_to_invoice` and
    `Payment.outstanding_amount`, invoices/models.py). Payments and the stored amount
    are in cents. Both saves in `apply_to_invoice` are plain `save()` calls, so the
    invoice's post-save signal runs after each of them. */
module Payments {
  import opened Wrappers
  import Invoices
  import InvoiceSignals

  type Ledger = Invoices.Ledger

  /** The payment pays the whole stored amount. */
  predicate Covers(p: Invoices.Payment, inv: Invoices.Invoice)
    requires inv.amount.Some?
  {
    p.amount >= inv.amount.value
  }

  /** A plain `save()` of an existing invoice, followed by its post-save signal as
      written. */
  function FullSave(g: Ledger): Ledger {
    InvoiceSignals.UpdateInvoiceAmount(g, false, None)
  }

  /** The same save under the corrected signal. */
  function FullSaveFixed(g: Ledger): Ledger {
    InvoiceSignals.UpdateInvoiceAmountFixed(g, false, None)
  }

  /** `apply_to_invoice` as written: comparing with a NULL amount raises; a covering
      payment sets `paid` through `mark_as_paid` (a full save), and the invoice is then
      saved once more. Each full save leaves the amount NULL. */
  function ApplyToInvoice(p: Invoices.Payment, g: Ledger): (r: Result<Ledger, Invoices.InvoiceError>)
    ensures r.Err? <==> g.invoice.amount.None?
    ensures r.Ok? ==> r.value.invoice.paid == (g.invoice.paid || Covers(p, g.invoice))
    ensures r.Ok? ==> r.value.invoice.amount.None?
    ensures r.Ok? ==> r.value.invoice.(paid := g.invoice.paid, amount := g.invoice.amount) == g.invoice
    ensures r.Ok? ==> r.value.parts == g.parts && r.value.labor == g.labor
  {
    if g.invoice.amount.None? then Err(Invoices.AmountIsNull)
    else
      var marked := if Covers(p, g.invoice) then FullSave(g.(invoice := g.invoice.(paid := true))) else g;
      Ok(FullSave(marked))
  }

  /** As written, once a payment has been applied, applying any further payment to the
      same invoice raises, since its amount is now NULL. */
  lemma SecondPaymentRaises(p: Invoices.Payment, q: Invoices.Payment, g: Ledger)
    requires ApplyToInvoice(p, g).Ok?
    ensures ApplyToInvoice(q, ApplyToInvoice(p, g).value).Err?
  {
  }

  /** `apply_to_invoice` under the corrected signal: the same `paid` outcome, and the
      saves leave the amount matching the lines. */
  function ApplyToInvoiceFixed(p: Invoices.Payment, g: Ledger): (r: Result<Ledger, Invoices.InvoiceError>)
    ensures r.Err? <==> g.invoice.amount.None?
    ensures r.Ok? ==> r.value.invoice.paid == (g.invoice.paid || Covers(p, g.invoice))
    ensures r.Ok? ==> Invoices.AmountMatchesLines(r.value)
    ensures r.Ok? ==> r.value.invoice.(paid := g.invoice.paid, amount := g.invoice.amount) == g.invoice
    ensures r.Ok? ==> r.value.parts == g.parts && r.value.labor == g.labor
  {
    if g.invoice.amount.None? then Err(Invoices.AmountIsNull)
    else
      var marked := if Covers(p, g.invoice) then FullSaveFixed(g.(invoice := g.invoice.(paid := true))) else g;
      Ok(FullSaveFixed(marked))
  }

  /** With the corrected signal a second payment can be applied, and an invoice whose
      amount matched its lines keeps the same amount. */
  lemma FixedApplyKeepsAmount(p: Invoices.Payment, g: Ledger)
    requires Invoices.AmountMatchesLines(g)
    ensures ApplyToInvoiceFixed(p, g).Ok?
    ensures ApplyToInvoiceFixed(p, g).value.invoice.amount == g.invoice.amount
  {
  }

  /** `outstanding_amount`: what the payment leaves unpaid, never below zero. */
  function OutstandingAmount(p: Invoices.Payment, inv: Invoices.Invoice): (r: Result<int, Invoices.InvoiceError>)
    ensures r.Err? <==> inv.amount.None?
    ensures r.Ok? ==> r.value >= 0 && r.value >= inv.amount.value - p.amount
    ensures r.Ok? ==> r.value == 0 || r.value == inv.amount.value - p.amount
  {
    if inv.amount.None? then Err(Invoices.AmountIsNull)
    else if 0 >= inv.amount.value - p.amount then Ok(0)
    else Ok(inv.amount.value - p.amount)
  }

  /** Nothing is outstanding exactly when the payment would mark the invoice paid, in
      either version of the signal. */
  lemma OutstandingZeroIffCovers(p: Invoices.Payment, g: Ledger)
    requires g.invoice.amount.Some?
    ensures OutstandingAmount(p, g.invoice).value == 0 <==> Covers(p, g.invoice)
    ensures OutstandingAmount(p, g.invoice).value == 0 ==> ApplyToInvoice(p, g).value.invoice.paid
    ensures OutstandingAmount(p, g.invoice).value == 0 ==> ApplyToInvoiceFixed(p, g).value.invoice.paid
  {
  }

  /** A labor line of 1.25 hours at $33.33 comes to $41.6625, stored as $41.66; a payment
      of $41.66 then covers the invoice and leaves nothing outstanding. */
  lemma CentsPaymentCoversRoundedAmount(g: Ledger)
    requires g.parts == [] && |g.labor| == 1 && g.labor[0].hours == 125 && g.labor[0].hourlyRate == 3333
    ensures var stored := Invoices.RecalculateAmount(g).invoice;
            stored.amount == Some(4166)
            && OutstandingAmount(Invoices.Payment(4166, g.invoice.issueDate, "cash"), stored) == Ok(0)
  {
    assert Invoices.LaborSum(g.labor) == 416625 + Invoices.LaborSum([]);
  }
}

=== FILE: reviews.dfy ===
/** The review serializer of reviews/serializers.py: rating and comment validation and
    partial update. `review_id` and `review_time` are read-only, so the input type has
    no place for them. */
module Reviews {
  import opened Wrappers

  const MinRating: int := 1
  const MaxRating: int := 5
  const MaxCommentLength: nat := 1000

  datatype Review = Review(
    reviewId: string,
    reviewerName: Option<string>,
    rating: int,
    comment: Option<string>,
    reviewTime: int,
    profilePhotoUrl: Option<string>)

  /** A field of the request body: absent, explicitly null, or a value. */
  datatype Given<T> = Absent | Null | Value(v: T)

  datatype ReviewInput = ReviewInput(
    reviewerName: Given<string>,
    rating: Option<int>,
    comment: Given<string>,
    profilePhotoUrl: Given<string>)

  /** A fault one field's own validator finds. The field validators that
      `ModelSerializer` derives from the model run first: `reviewer_name` is a
      `CharField(max_length=255)`, `rating` a required `IntegerField` with
      `validate_rating`, `profile_photo_url` a `URLField` (200 characters at most and
      accepted by the URL validator). */
  datatype FieldFault = RatingMissing | RatingOutOfRange | NameTooLong | BadUrl

  /** Every field fault found is reported together as one 400; `CommentTooLong` is the
      400 of `validate`; `Crash` is an exception the serializer does not catch, a 500. */
  datatype Rejection = Invalid(faults: set<FieldFault>) | CommentTooLong | Crash

  const MaxNameLength: nat := 255
  const MaxUrlLength: nat := 200

  /** `validate_rating`. */
  function ValidateRating(value: int): (r: Result<int, FieldFault>)
    ensures r.Ok? <==> MinRating <= value <= MaxRating
    ensures r.Ok? ==> r.value == value
    ensures r.Err? ==> r.error == RatingOutOfRange
  {
    if value < MinRating || value > MaxRating then Err(RatingOutOfRange) else Ok(value)
  }

  /** The faults of the per-field pass. A partial update may leave `rating` out; a full
      write may not. The URL validator's pattern is the parameter `isUrl`. */
  function FieldFaults(input: ReviewInput, partial: bool, isUrl: string -> bool): (r: set<FieldFault>)
    ensures RatingMissing in r <==> input.rating.None? && !partial
    ensures RatingOutOfRange in r <==> input.rating.Some? && !(MinRating <= input.rating.value <= MaxRating)
    ensures NameTooLong in r <==> input.reviewerName.Value? && |input.reviewerName.v| > MaxNameLength
    ensures BadUrl in r <==> input.profilePhotoUrl.Value?
                             && (|input.profilePhotoUrl.v| > MaxUrlLength || !isUrl(input.profilePhotoUrl.v))
  {
    (if input.rating.None? && !partial then {RatingMissing} else {})
    + (if input.rating.Some? && ValidateRating(input.rating.value).Err? then {RatingOutOfRange} else {})
    + (if input.reviewerName.Value? && |input.reviewerName.v| > MaxNameLength then {NameTooLong} else {})
    + (if input.profilePhotoUrl.Value? && (|input.profilePhotoUrl.v| > MaxUrlLength || !isUrl(input.profilePhotoUrl.v))
       then {BadUrl} else {})
  }

  /** The field validators run first and `validate` only on data they pass. As written,
      `len(data['comment'])` is taken of an explicit null too, which raises. */
  function Validate(input: ReviewInput, partial: bool, isUrl: string -> bool): (r: Result<ReviewInput, Rejection>)
    ensures input.rating.Some? && !(MinRating <= input.rating.value <= MaxRating) ==>
              r.Err? && r.error.Invalid? && RatingOutOfRange in r.error.faults
    ensures input.rating.None? && !partial ==> r.Err? && r.error.Invalid? && RatingMissing in r.error.faults
    ensures r.Ok? ==> r.value == input
    ensures r.Ok? <==> && (input.rating.None? ==> partial)
                       && (input.rating.Some? ==> MinRating <= input.rating.value <= MaxRating)
                       && !(input.reviewerName.Value? && |input.reviewerName.v| > MaxNameLength)
                       && !(input.profilePhotoUrl.Value?
                            && (|input.profilePhotoUrl.v| > MaxUrlLength || !isUrl(input.profilePhotoUrl.v)))
                       && (input.comment.Absent? || (input.comment.Value? && |input.comment.v| <= MaxCommentLength))
    ensures r == Err(Crash) <==> FieldFaults(input, partial, isUrl) == {} && input.comment.Null?
  {
    var faults := FieldFaults(input, partial, isUrl);
    if faults != {} then Err(Invalid(faults))
    else match input.comment
      case Absent => Ok(input)
      case Null => Err(Crash)
      case Value(c) => if |c| > MaxCommentLength then Err(CommentTooLong) else Ok(input)
  }

  /** A review whose comment is explicitly null, which the model's nullable column
      allows, is refused with a server error as written. */
  lemma NullCommentCrashes(rating: int, partial: bool, isUrl: string -> bool)
    requires MinRating <= rating <= MaxRating
    ensures Validate(ReviewInput(Absent, Some(rating), Null, Absent), partial, isUrl) == Err(Crash)
    ensures ValidateFixed(ReviewInput(Absent, Some(rating), Null, Absent), partial, isUrl).Ok?
  {
  }

  /** The evidently intended check: only a present comment is measured. */
  function ValidateFixed(input: ReviewInput, partial: bool, isUrl: string -> bool): (r: Result<ReviewInput, Rejection>)
    ensures r.Ok? <==> FieldFaults(input, partial, isUrl) == {}
                       && !(input.comment.Value? && |input.comment.v| > MaxCommentLength)
    ensures r.Err? ==> r.error != Crash
    ensures r.Ok? ==> r.value == input
  {
    var faults := FieldFaults(input, partial, isUrl);
    if faults != {} then Err(Invalid(faults))
    else if input.comment.Value? && |input.comment.v| > MaxCommentLength then Err(CommentTooLong)
    else Ok(input)
  }

  /** The two agree on every input that does not carry a null comment. */
  lemma ValidateFixedAgrees(input: ReviewInput, partial: bool, isUrl: string -> bool)
    requires !input.comment.Null?
    ensures Validate(input, partial, isUrl) == ValidateFixed(input, partial, isUrl)
  {
  }

  /** The limits are inclusive: ratings 1 and 5, a 255-character name and a
      1000-character comment pass; 0, 6, 256 and 1001 do not, and a full write without
      a rating is refused while a partial one is not. */
  lemma BoundsAreInclusive(comment: string, name: string, isUrl: string -> bool)
    requires |comment| == MaxCommentLength && |name| == MaxNameLength
    ensures Validate(ReviewInput(Value(name), Some(1), Value(comment), Absent), false, isUrl).Ok?
    ensures Validate(ReviewInput(Absent, Some(5), Absent, Absent), false, isUrl).Ok?
    ensures Validate(ReviewInput(Absent, Some(0), Absent, Absent), false, isUrl) == Err(Invalid({RatingOutOfRange}))
    ensures Validate(ReviewInput(Absent, Some(6), Absent, Absent), false, isUrl) == Err(Invalid({RatingOutOfRange}))
    ensures Validate(ReviewInput(Value(name + "x"), Some(3), Absent, Absent), false, isUrl) == Err(Invalid({NameTooLong}))
    ensures Validate(ReviewInput(Absent, None, Absent, Absent), false, isUrl) == Err(Invalid({RatingMissing}))
    ensures Validate(ReviewInput(Absent, None, Absent, Absent), true, isUrl).Ok?
    ensures Validate(ReviewInput(Absent, None, Value(comment + "x"), Absent), true, isUrl) == Err(CommentTooLong)
  {
    var none := ReviewInput(Absent, None, Absent, Absent);
    assert FieldFaults(none, false, isUrl) == {RatingMissing};
    assert FieldFaults(ReviewInput(Absent, Some(0), Absent, Absent), false, isUrl) == {RatingOutOfRange};
    assert FieldFaults(ReviewInput(Absent, Some(6), Absent, Absent), false, isUrl) == {RatingOutOfRange};
    assert FieldFaults(ReviewInput(Value(name + "x"), Some(3), Absent, Absent), false, isUrl) == {NameTooLong};
  }

  /** The new value of a nullable field: absent keeps the old one. */
  function Merge<T>(current: Option<T>, given: Given<T>): (r: Option<T>)
    ensures given.Absent? ==> r == current
    ensures given.Null? ==> r == None
    ensures given.Value? ==> r == Some(given.v)
  {
    match given
    case Absent => current
    case Null => None
    case Value(v) => Some(v)
  }

  /** `update`: each field given takes its new value, each absent one keeps its old
      value, and the read-only identifier and time never change. */
  function Update(instance: Review, input: ReviewInput): (r: Review)
    ensures r.reviewId == instance.reviewId && r.reviewTime == instance.reviewTime
    ensures input.rating.None? ==> r.rating == instance.rating
    ensures input.rating.Some? ==> r.rating == input.rating.value
    ensures input.reviewerName.Absent? ==> r.reviewerName == instance.reviewerName
    ensures input.comment.Absent? ==> r.comment == instance.comment
    ensures input.profilePhotoUrl.Absent? ==> r.profilePhotoUrl == instance.profilePhotoUrl
    ensures input.comment.Value? ==> r.comment == Some(input.comment.v)
  {
    instance.(
      reviewerName := Merge(instance.reviewerName, input.reviewerName),
      rating := if input.rating.Some? then input.rating.value else instance.rating,
      comment := Merge(instance.comment, input.comment),
      profilePhotoUrl := Merge(instance.profilePhotoUrl, input.profilePhotoUrl))
  }

  /** An empty body changes nothing, and applying the same body twice is applying it once. */
  lemma UpdateIsIdempotent(instance: Review, input: ReviewInput)
    ensures Update(instance, ReviewInput(Absent, None, Absent, Absent)) == instance
    ensures Update(Update(instance, input), input) == Update(instance, input)
  {
  }

  /** A validated update keeps the stored rating within the allowed range. */
  lemma ValidatedUpdateKeepsRatingInRange(instance: Review, input: ReviewInput, partial: bool, isUrl: string -> bool)
    requires MinRating <= instance.rating <= MaxRating
    requires Validate(input, partial, isUrl).Ok?
    ensures MinRating <= Update(instance, input).rating <= MaxRating
  {
  }
}

=== FILE: scheduling.dfy ===
/** Hour-long appointment slots (appointments/scheduling.py): the per-weekday business
    hours, minus blackout dates and the times already held by accepted appointments. */
module Scheduling {
  import opened Wrappers
  import Dates
  import Clock
  import Appointments

  /** `APPOINTMENT_DURATION`: one hour, in minutes. */
  const Duration: int := 60

  /** `BUSINESS_HOURS_BY_WEEKDAY`: Monday to Friday 09:00 to 19:00, Saturday and Sunday
      12:00 to 17:00, as (open, close) minutes after midnight; weekday 0 is Monday. */
  function BusinessHours(weekday: int): (int, int)
    requires 0 <= weekday < 7
  {
    if weekday < 5 then (9 * 60, 19 * 60) else (12 * 60, 17 * 60)
  }

  /** The row an `exclude_appointment_id` argument removes from the booking query: the
      argument is used only when truthy, so an integer id of 0 removes nothing. */
  function ExcludeId(id: nat): (r: Option<nat>)
    ensures r.Some? <==> id != 0
    ensures r.Some? ==> r.value == id
  {
    if id == 0 then None else Some(id)
  }

  predicate Excludes(exclude: Option<nat>, b: Appointments.Appointment) {
    exclude.Some? && b.pk == exclude
  }

  /** A stored row that holds its time on `date`: accepted, and not the excluded row. */
  predicate Blocks(b: Appointments.Appointment, date: Dates.Date, exclude: Option<nat>) {
    b.date == date && b.status == Appointments.Accepted && !Excludes(exclude, b)
  }

  /** `booked_times`: the requested times of the blocking rows. */
  function BookedTimes(table: seq<Appointments.Appointment>, date: Dates.Date, exclude: Option<nat>): (r: set<int>)
    ensures forall t :: t in r <==> exists i :: 0 <= i < |table| && Blocks(table[i], date, exclude) && table[i].time == t
  {
    set i | 0 <= i < |table| && Blocks(table[i], date, exclude) :: table[i].time
  }

  /** `t` lies a whole number of hours after `cur`. */
  predicate OnHourGrid(t: int, cur: int) {
    (t - cur) % Duration == 0
  }

  lemma GridStep(t: int, cur: int)
    ensures OnHourGrid(t, cur + Duration) <==> OnHourGrid(t, cur)
  {
  }

  lemma CountStep(cur: int, close: int)
    requires cur + Duration <= close
    ensures (close - (cur + Duration)) / Duration + 1 == (close - cur) / Duration
  {
  }

  /** The loop of `generate_time_slots` from `cur`: every whole hour that still ends by
      `close`, skipping booked start times. */
  function SlotTimes(cur: int, close: int, booked: set<int>): (r: seq<int>)
    decreases close - cur
    ensures forall i :: 0 <= i < |r| ==> cur <= r[i] && r[i] + Duration <= close && r[i] !in booked
    ensures forall i :: 0 <= i < |r| ==> OnHourGrid(r[i], cur)
    ensures forall i, j :: 0 <= i < j < |r| ==> r[i] < r[j]
    ensures forall t :: cur <= t && t + Duration <= close && OnHourGrid(t, cur) && t !in booked ==> t in r
    ensures cur <= close ==> |r| <= (close - cur) / Duration
  {
    if cur + Duration <= close then
      var rest := SlotTimes(cur + Duration, close, booked);
      forall t ensures OnHourGrid(t, cur + Duration) <==> OnHourGrid(t, cur) {
        GridStep(t, cur);
      }
      CountStep(cur, close);
      if cur in booked then rest else [cur] + rest
    else
      []
  }

  /** With nothing booked, the slots start at `cur` and are exactly one hour apart, and
      there are (close - cur) / 1 h of them. */
  lemma {:induction false} UnbookedSlots(cur: int, close: int)
    requires cur <= close
    decreases close - cur
    ensures |SlotTimes(cur, close, {})| == (close - cur) / Duration
    ensures forall i :: 0 <= i < |SlotTimes(cur, close, {})| ==> SlotTimes(cur, close, {})[i] == cur + Duration * i
  {
    if cur + Duration <= close {
      UnbookedSlots(cur + Duration, close);
      var rest := SlotTimes(cur + Duration, close, {});
      assert SlotTimes(cur, close, {}) == [cur] + rest;
    }
  }

  /** The start times `generate_time_slots` offers on `date`: none on a blackout date,
      otherwise the free hours of that weekday's business hours. */
  function AvailableTimes(blackouts: set<Dates.Date>, table: seq<Appointments.Appointment>, date: Dates.Date, exclude: Option<nat>): (r: seq<int>)
    requires Dates.Valid(date)
    ensures date in blackouts ==> r == []
    ensures forall i :: 0 <= i < |r| ==> Clock.IsTimeOfDay(r[i])
  {
    if date in blackouts then []
    else
      var (open, close) := BusinessHours(Dates.Weekday(date));
      SlotTimes(open, close, BookedTimes(table, date, exclude))
  }

  /** A start time is offered exactly when the date is not blacked out, the hour lies
      within business hours on the hour grid, and no blocking row holds it. Pending and
      declined rows, and the excluded row, never remove a time. */
  lemma AvailableTimesExactly(blackouts: set<Dates.Date>, table: seq<Appointments.Appointment>, date: Dates.Date, exclude: Option<nat>, t: int)
    requires Dates.Valid(date)
    ensures t in AvailableTimes(blackouts, table, date, exclude) <==>
      && date !in blackouts
      && BusinessHours(Dates.Weekday(date)).0 <= t
      && t + Duration <= BusinessHours(Dates.Weekday(date)).1
      && OnHourGrid(t, BusinessHours(Dates.Weekday(date)).0)
      && !(exists i :: 0 <= i < |table| && Blocks(table[i], date, exclude) && table[i].time == t)
  {
  }

  /** At most ten slots Monday to Friday and at most five at weekends; with no blackout
      and no blocking row, exactly that many, one hour apart from opening time. */
  lemma SlotCounts(blackouts: set<Dates.Date>, table: seq<Appointments.Appointment>, date: Dates.Date, exclude: Option<nat>)
    requires Dates.Valid(date)
    ensures Dates.Weekday(date) < 5 ==> |AvailableTimes(blackouts, table, date, exclude)| <= 10
    ensures Dates.Weekday(date) >= 5 ==> |AvailableTimes(blackouts, table, date, exclude)| <= 5
    ensures date !in blackouts && BookedTimes(table, date, exclude) == {} ==>
      var r := AvailableTimes(blackouts, table, date, exclude);
      && |r| == (if Dates.Weekday(date) < 5 then 10 else 5)
      && forall i :: 0 <= i < |r| ==> r[i] == BusinessHours(Dates.Weekday(date)).0 + Duration * i
  {
    SlotCountBound(blackouts, table, date, exclude);
    if date !in blackouts && BookedTimes(table, date, exclude) == {} {
      FullDaySlots(blackouts, table, date, exclude);
    }
  }

  lemma SlotCountBound(blackouts: set<Dates.Date>, table: seq<Appointments.Appointment>, date: Dates.Date, exclude: Option<nat>)
    requires Dates.Valid(date)
    ensures |AvailableTimes(blackouts, table, date, exclude)| <= (if Dates.Weekday(date) < 5 then 10 else 5)
  {
  }

  lemma FullDaySlots(blackouts: set<Dates.Date>, table: seq<Appointments.Appointment>, date: Dates.Date, exclude: Option<nat>)
    requires Dates.Valid(date)
    requires date !in blackouts && BookedTimes(table, date, exclude) == {}
    ensures var r := AvailableTimes(blackouts, table, date, exclude);
      && |r| == (if Dates.Weekday(date) < 5 then 10 else 5)
      && forall i :: 0 <= i < |r| ==> r[i] == BusinessHours(Dates.Weekday(date)).0 + Duration * i
  {
    var hours := BusinessHours(Dates.Weekday(date));
    assert AvailableTimes(blackouts, table, date, exclude) == SlotTimes(hours.0, hours.1, {});
    UnbookedSlots(hours.0, hours.1);
  }

  /** One entry of the slot list: ISO date, `%H:%M` time and `%I:%M %p` label. */
  datatype Slot = Slot(date: string, time: string, labelText: string)

  function MakeSlot(date: Dates.Date, t: int): Slot
    requires Dates.Valid(date) && Clock.IsTimeOfDay(t)
  {
    Slot(Dates.IsoFormat(date), Clock.FormatHHMM(t), Clock.FormatLabel(t))
  }

  /** `generate_time_slots(date, exclude_appointment_id)`. */
  function GenerateTimeSlots(blackouts: set<Dates.Date>, table: seq<Appointments.Appointment>, date: Dates.Date, exclude: Option<nat>): (r: seq<Slot>)
    requires Dates.Valid(date)
    ensures date in blackouts ==> r == []
    ensures |r| == |AvailableTimes(blackouts, table, date, exclude)|
    ensures forall i :: 0 <= i < |r| ==> r[i].date == Dates.IsoFormat(date)
    ensures forall i :: 0 <= i < |r| ==> |r[i].time| == 5 && r[i].time[2] == ':'
  {
    var times := AvailableTimes(blackouts, table, date, exclude);
    seq(|times|, i requires 0 <= i < |times| => MakeSlot(date, times[i]))
  }

  /** The `time` strings of a slot list, as the reschedule views collect them. */
  function SlotTimeStrings(slots: seq<Slot>): (r: seq<string>)
    ensures |r| == |slots| && forall i :: 0 <= i < |slots| ==> r[i] == slots[i].time
  {
    seq(|slots|, i requires 0 <= i < |slots| => slots[i].time)
  }

  /** A rendered time is among the slot strings exactly when that time is offered:
      the membership test the reschedule views perform decides availability. */
  lemma SlotStringMatchesTime(blackouts: set<Dates.Date>, table: seq<Appointments.Appointment>, date: Dates.Date, exclude: Option<nat>, t: int)
    requires Dates.Valid(date) && Clock.IsTimeOfDay(t)
    ensures Clock.FormatHHMM(t) in SlotTimeStrings(GenerateTimeSlots(blackouts, table, date, exclude))
      <==> t in AvailableTimes(blackouts, table, date, exclude)
  {
    var times := AvailableTimes(blackouts, table, date, exclude);
    SlotStringsAreFormattedTimes(blackouts, table, date, exclude);
    FormattedMembership(times, t);
  }

  /** Each time of a list rendered as `%H:%M`. */
  function FormattedTimes(times: seq<int>): (r: seq<string>)
    requires forall i :: 0 <= i < |times| ==> Clock.IsTimeOfDay(times[i])
    ensures |r| == |times|
  {
    seq(|times|, i requires 0 <= i < |times| => Clock.FormatHHMM(times[i]))
  }

  lemma SlotStringsAreFormattedTimes(blackouts: set<Dates.Date>, table: seq<Appointments.Appointment>, date: Dates.Date, exclude: Option<nat>)
    requires Dates.Valid(date)
    ensures SlotTimeStrings(GenerateTimeSlots(blackouts, table, date, exclude)) == FormattedTimes(AvailableTimes(blackouts, table, date, exclude))
  {
  }

  /** Rendering is injective, so a rendered time is in the rendered list exactly when the
      time is in the list. */
  lemma FormattedMembership(times: seq<int>, t: int)
    requires forall i :: 0 <= i < |times| ==> Clock.IsTimeOfDay(times[i])
    requires Clock.IsTimeOfDay(t)
    ensures Clock.FormatHHMM(t) in FormattedTimes(times) <==> t in times
  {
    var strs := FormattedTimes(times);
    if Clock.FormatHHMM(t) in strs {
      var i :| 0 <= i < |strs| && strs[i] == Clock.FormatHHMM(t);
      Clock.FormatHHMMInjective(times[i], t);
    }
    if t in times {
      var i :| 0 <= i < |times| && times[i] == t;
      assert strs[i] == Clock.FormatHHMM(t);
    }
  }

  /** An accepted appointment on the date, other than the excluded one, removes its own
      time from the offered slots. */
  lemma AcceptedTimeNeverOffered(blackouts: set<Dates.Date>, table: seq<Appointments.Appointment>, date: Dates.Date, exclude: Option<nat>, k: nat)
    requires Dates.Valid(date) && k < |table|
    requires table[k].date == date && table[k].status == Appointments.Accepted && !Excludes(exclude, table[k])
    ensures table[k].time !in AvailableTimes(blackouts, table, date, exclude)
  {
    assert Blocks(table[k], date, exclude);
  }
}

=== FILE: seqs.dfy ===
/** Order-preserving filtering of sequences, the `Array.prototype.filter` and
    `QuerySet.filter` of the modelled code. */
module Seqs {

  /** The elements of `s` satisfying `keep`, in their original order. */
  function Filter<T>(s: seq<T>, keep: T -> bool): (r: seq<T>)
    ensures |r| <= |s|
    ensures forall i :: 0 <= i < |r| ==> keep(r[i]) && r[i] in s
    ensures forall i :: 0 <= i < |s| && keep(s[i]) ==> s[i] in r
  {
    if |s| == 0 then []
    else if keep(s[0]) then [s[0]] + Filter(s[1..], keep)
    else Filter(s[1..], keep)
  }

  /** `r` is `s` with some elements dropped, the rest in their original order. */
  predicate IsSubsequence<T(==)>(r: seq<T>, s: seq<T>)
    decreases |s|
  {
    if |r| == 0 then true
    else if |s| == 0 then false
    else if r[0] == s[0] then IsSubsequence(r[1..], s[1..])
    else IsSubsequence(r, s[1..])
  }

  /** A filter keeps its input's order. */
  lemma {:induction false} FilterIsSubsequence<T>(s: seq<T>, keep: T -> bool)
    ensures IsSubsequence(Filter(s, keep), s)
  {
    if |s| > 0 {
      FilterIsSubsequence(s[1..], keep);
    }
  }

  /** Filtering by two predicates one after the other is filtering by their conjunction:
      the result is the order-preserving intersection of the two selections. */
  lemma {:induction false} FilterFilter<T>(s: seq<T>, p: T -> bool, q: T -> bool, both: T -> bool)
    requires forall i :: 0 <= i < |s| ==> both(s[i]) == (p(s[i]) && q(s[i]))
    ensures Filter(Filter(s, p), q) == Filter(s, both)
  {
    if |s| > 0 {
      FilterFilter(s[1..], p, q, both);
    }
  }

  /** A filter that keeps everything returns its input unchanged. */
  lemma {:induction false} FilterAll<T>(s: seq<T>, keep: T -> bool)
    requires forall i :: 0 <= i < |s| ==> keep(s[i])
    ensures Filter(s, keep) == s
  {
    if |s| > 0 {
      FilterAll(s[1..], keep);
    }
  }

  /** Filters by predicates that agree on every element give the same result. */
  lemma {:induction false} FilterCongruent<T>(s: seq<T>, p: T -> bool, q: T -> bool)
    requires forall i :: 0 <= i < |s| ==> p(s[i]) == q(s[i])
    ensures Filter(s, p) == Filter(s, q)
  {
    if |s| > 0 {
      FilterCongruent(s[1..], p, q);
    }
  }

  /** A filter that keeps nothing returns the empty sequence. */
  lemma {:induction false} FilterNone<T>(s: seq<T>, keep: T -> bool)
    requires forall i :: 0 <= i < |s| ==> !keep(s[i])
    ensures Filter(s, keep) == []
  {
    if |s| > 0 {
      FilterNone(s[1..], keep);
    }
  }

  /** When no two elements both pass, at most one survives the filter. */
  lemma {:induction false} FilterAtMostOne<T>(s: seq<T>, keep: T -> bool)
    requires forall i, j :: 0 <= i < j < |s| && keep(s[i]) ==> !keep(s[j])
    ensures |Filter(s, keep)| <= 1
  {
    if |s| > 0 {
      if keep(s[0]) {
        assert forall j :: 0 <= j < |s[1..]| ==> !keep(s[1..][j]) by {
          forall j | 0 <= j < |s[1..]| ensures !keep(s[1..][j]) {
            assert s[1..][j] == s[j + 1];
          }
        }
        FilterNone(s[1..], keep);
      } else {
        FilterAtMostOne(s[1..], keep);
      }
    }
  }

  /** Filtering distributes over concatenation. */
  lemma {:induction false} FilterConcat<T>(a: seq<T>, b: seq<T>, keep: T -> bool)
    ensures Filter(a + b, keep) == Filter(a, keep) + Filter(b, keep)
  {
    if |a| > 0 {
      assert (a + b)[1..] == a[1..] + b;
      FilterConcat(a[1..], b, keep);
    } else {
      assert a + b == b;
    }
  }

  /** A weaker filter keeps no fewer elements. */
  lemma {:induction false} FilterMonotone<T>(s: seq<T>, p: T -> bool, q: T -> bool)
    requires forall i :: 0 <= i < |s| && p(s[i]) ==> q(s[i])
    ensures |Filter(s, p)| <= |Filter(s, q)|
  {
    if |s| > 0 {
      var t := s[1..];
      assert forall i :: 0 <= i < |t| ==> t[i] == s[i + 1];
      FilterMonotone(t, p, q);
    }
  }

  /** A filter that drops exactly the element at `k` removes it and keeps the rest in
      order. */
  lemma {:induction false} FilterDropsOne<T>(s: seq<T>, keep: T -> bool, k: nat)
    requires k < |s| && !keep(s[k])
    requires forall i :: 0 <= i < |s| && i != k ==> keep(s[i])
    ensures Filter(s, keep) == s[..k] + s[k + 1..]
  {
    var t := s[1..];
    if k == 0 {
      assert forall i :: 0 <= i < |t| ==> keep(t[i]) by {
        forall i | 0 <= i < |t| ensures keep(t[i]) {
          assert t[i] == s[i + 1];
        }
      }
      FilterAll(t, keep);
    } else {
      assert forall i :: 0 <= i < |t| && i != k - 1 ==> keep(t[i]) by {
        forall i | 0 <= i < |t| && i != k - 1 ensures keep(t[i]) {
          assert t[i] == s[i + 1];
        }
      }
      FilterDropsOne(t, keep, k - 1);
      assert s[..k] + s[k + 1..] == [s[0]] + (t[..k - 1] + t[k..]);
    }
  }

  /** `Array.prototype.findIndex`: the first index whose element satisfies `p`, or -1. */
  function FindIndex<T>(s: seq<T>, p: T -> bool): (r: int)
    ensures -1 <= r < |s|
    ensures r >= 0 ==> p(s[r]) && forall i :: 0 <= i < r ==> !p(s[i])
    ensures r == -1 <==> forall i :: 0 <= i < |s| ==> !p(s[i])
  {
    if |s| == 0 then -1
    else if p(s[0]) then 0
    else var k := FindIndex(s[1..], p); if k == -1 then -1 else k + 1
  }
}

=== FILE: states.dfy ===
/** The two-letter state codes offered by the appointment and customer models and by the
    add-customer form, in the order they are listed there. */
module UsStates {

  const Codes: seq<string> := [
    "AK", "AL", "AR", "AZ", "CA", "CO", "CT", "DE", "FL", "GA",
    "HI", "ID", "IL", "IN", "IA", "KS", "KY", "LA", "ME", "MD",
    "MA", "MI", "MN", "MS", "MO", "MT", "NE", "NV", "NH", "NJ",
    "NM", "NY", "NC", "ND", "OH", "OK", "OR", "PA", "RI", "SC",
    "SD", "TN", "TX", "UT", "VT", "VA", "WA", "WV", "WI", "WY"
  ]

  /** `code` is one of the listed state codes. */
  predicate IsStateCode(code: string) {
    code in Codes
  }
}

=== FILE: strings.dfy ===
/** Character and string helpers used by the model: ASCII case folding, substring
    search, whitespace trimming, splitting and decimal formatting. */
module Strings {

  /** An ASCII upper-case letter. */
  predicate IsUpper(c: char) {
    'A' <= c <= 'Z'
  }

  /** ASCII lower-casing of one character; every other character is unchanged. */
  function LowerChar(c: char): (r: char)
    ensures !IsUpper(r)
    ensures !IsUpper(c) ==> r == c
  {
    if IsUpper(c) then (c as int - 'A' as int + 'a' as int) as char else c
  }

  /** ASCII lower-casing of a string (`str.lower()`, `String.prototype.toLowerCase`). */
  function Lower(s: string): (r: string)
    ensures |r| == |s|
    ensures forall i :: 0 <= i < |s| ==> r[i] == LowerChar(s[i])
  {
    seq(|s|, i requires 0 <= i < |s| => LowerChar(s[i]))
  }

  /** Lower-casing twice is lower-casing once. */
  lemma LowerIdempotent(s: string)
    ensures Lower(Lower(s)) == Lower(s)
  {
    assert forall i :: 0 <= i < |s| ==> Lower(Lower(s))[i] == Lower(s)[i];
  }

  /** Case-insensitive equality, as Django's `iexact` and `a.lower() == b.lower()`. */
  predicate EqualsIgnoreCase(a: string, b: string) {
    Lower(a) == Lower(b)
  }

  /** `s` starts with `p` (`str.startswith`, `String.prototype.startsWith`). */
  predicate StartsWith(s: string, p: string) {
    |p| <= |s| && s[..|p|] == p
  }

  /** `s` ends with `p`. */
  predicate EndsWith(s: string, p: string) {
    |p| <= |s| && s[|s| - |p|..] == p
  }

  /** `sub` occurs somewhere in `s` (`String.prototype.includes`, Python `in`). */
  predicate Contains(s: string, sub: string) {
    exists i | 0 <= i <= |s| :: OccursAt(s, sub, i)
  }

  /** `sub` occurs in `s` starting at index `i`. */
  predicate OccursAt(s: string, sub: string, i: int) {
    0 <= i <= |s| - |sub| && s[i..i + |sub|] == sub
  }

  /** Every string contains the empty string. */
  lemma ContainsEmpty(s: string)
    ensures Contains(s, "")
  {
    assert OccursAt(s, "", 0);
  }

  /** `c` occurs in `s`. */
  predicate HasChar(s: string, c: char) {
    exists i :: 0 <= i < |s| && s[i] == c
  }

  /** The ASCII whitespace removed by `str.strip()` and `String.prototype.trim`. */
  predicate IsSpace(c: char) {
    c == ' ' || c == '\t' || c == '\n' || c == '\r' || c == '\U{000B}' || c == '\U{000C}'
  }

  /** `s` without its leading whitespace. */
  function TrimStart(s: string): (r: string)
    ensures |r| <= |s| && r == s[|s| - |r|..]
    ensures |r| > 0 ==> !IsSpace(r[0])
    ensures forall i :: 0 <= i < |s| - |r| ==> IsSpace(s[i])
  {
    if |s| > 0 && IsSpace(s[0]) then TrimStart(s[1..]) else s
  }

  /** `s` without its trailing whitespace. */
  function TrimEnd(s: string): (r: string)
    ensures |r| <= |s| && r == s[..|r|]
    ensures |r| > 0 ==> !IsSpace(r[|r| - 1])
    ensures forall i :: |r| <= i < |s| ==> IsSpace(s[i])
  {
    if |s| > 0 && IsSpace(s[|s| - 1]) then TrimEnd(s[..|s| - 1]) else s
  }

  /** `s` without leading and trailing whitespace. */
  function Trim(s: string): (r: string)
    ensures |r| <= |s|
    ensures |r| > 0 ==> !IsSpace(r[0]) && !IsSpace(r[|r| - 1])
  {
    TrimEnd(TrimStart(s))
  }

  /** A string that is empty or all whitespace trims to the empty string. */
  predicate IsBlank(s: string) {
    forall i :: 0 <= i < |s| ==> IsSpace(s[i])
  }

  /** Trimming leaves nothing exactly when every character is whitespace. */
  lemma TrimEmptyIffBlank(s: string)
    ensures Trim(s) == [] <==> IsBlank(s)
  {
    var t := TrimStart(s);
    if |t| > 0 {
      assert t[0] == s[|s| - |t|];
    }
  }

  /** The text before the first `sep` (`s.split(sep)[0]`); all of `s` when `sep` is absent. */
  function BeforeFirst(s: string, sep: char): (r: string)
    ensures |r| <= |s| && r == s[..|r|]
    ensures forall i :: 0 <= i < |r| ==> r[i] != sep
    ensures |r| < |s| ==> s[|r|] == sep
  {
    if |s| == 0 || s[0] == sep then [] else [s[0]] + BeforeFirst(s[1..], sep)
  }

  /** The text after the last `sep` (`s.split(sep).pop()`); all of `s` when `sep` is absent. */
  function AfterLast(s: string, sep: char): (r: string)
    ensures |r| <= |s| && r == s[|s| - |r|..]
    ensures forall i :: 0 <= i < |r| ==> r[i] != sep
    ensures |r| < |s| ==> s[|s| - |r| - 1] == sep
  {
    if |s| == 0 || s[|s| - 1] == sep then [] else AfterLast(s[..|s| - 1], sep) + [s[|s| - 1]]
  }

  /** Without `sep`, the text after the last `sep` is all of `s`. */
  lemma {:induction false} AfterLastAbsent(s: string, sep: char)
    requires !HasChar(s, sep)
    ensures AfterLast(s, sep) == s
  {
    if |s| > 0 {
      var t := s[..|s| - 1];
      assert !HasChar(t, sep) by {
        forall i | 0 <= i < |t| ensures t[i] != sep {
          assert t[i] == s[i];
        }
      }
      AfterLastAbsent(t, sep);
    }
  }

  /** `s` split at every `sep` (`s.split(sep)`); never empty. */
  function Split(s: string, sep: char): (r: seq<string>)
    ensures |r| >= 1
    ensures r[0] == BeforeFirst(s, sep)
    decreases |s|
  {
    var head := BeforeFirst(s, sep);
    if |head| == |s| then [s] else [head] + Split(s[|head| + 1..], sep)
  }

  // ---------------------------------------------------------------------------
  // Decimal numbers
  // ---------------------------------------------------------------------------

  /** The character of a decimal digit. */
  function DigitChar(d: nat): char
    requires d < 10
  {
    ('0' as int + d) as char
  }

  predicate IsDigit(c: char) {
    '0' <= c <= '9'
  }

  /** The value of a decimal digit character. */
  function DigitValue(c: char): nat
    requires IsDigit(c)
  {
    c as int - '0' as int
  }

  /** Decimal representation without leading zeros (`str(n)`, `f"{n}"`). */
  function NatToString(n: nat): (r: string)
    ensures |r| >= 1
    ensures forall i :: 0 <= i < |r| ==> IsDigit(r[i])
    ensures n < 10 ==> |r| == 1
    ensures 10 <= n < 100 ==> |r| == 2
    ensures 100 <= n < 1000 ==> |r| == 3
    ensures n >= 10 ==> |r| >= 2
  {
    if n < 10 then [DigitChar(n)] else NatToString(n / 10) + [DigitChar(n % 10)]
  }

  /** The value of a string of decimal digits; the reference reading of every number the model prints. */
  function ParseNat(s: string): nat
    requires forall i :: 0 <= i < |s| ==> IsDigit(s[i])
  {
    if |s| == 0 then 0 else ParseNat(s[..|s| - 1]) * 10 + DigitValue(s[|s| - 1])
  }

  /** Printing then reading a number gives the number back. */
  lemma {:induction false} ParseNatToString(n: nat)
    ensures ParseNat(NatToString(n)) == n
  {
    if n >= 10 {
      var s := NatToString(n);
      var a := NatToString(n / 10);
      assert s == a + [DigitChar(n % 10)];
      assert s[..|s| - 1] == a;
      ParseNatToString(n / 10);
    }
  }

  /** Printing is injective: different numbers print differently. */
  lemma NatToStringInjective(m: nat, n: nat)
    requires NatToString(m) == NatToString(n)
    ensures m == n
  {
    ParseNatToString(m);
    ParseNatToString(n);
  }

  /** `k` zero characters. */
  function Zeros(k: nat): (r: string)
    ensures |r| == k
    ensures forall i :: 0 <= i < k ==> r[i] == '0'
  {
    if k == 0 then [] else ['0'] + Zeros(k - 1)
  }

  /** Zero-padded decimal representation of at least `width` characters (`f"{n:0{width}d}"`, `%02d`). */
  function Pad(n: nat, width: nat): (r: string)
    ensures |r| == if |NatToString(n)| >= width then |NatToString(n)| else width
    ensures forall i :: 0 <= i < |r| ==> IsDigit(r[i])
  {
    var s := NatToString(n);
    if |s| >= width then s else Zeros(width - |s|) + s
  }

  /** Leading zeros do not change the value read back. */
  lemma {:induction false} ParseNatLeadingZeros(k: nat, s: string)
    requires forall i :: 0 <= i < |s| ==> IsDigit(s[i])
    ensures ParseNat(Zeros(k) + s) == ParseNat(s)
    decreases |s|
  {
    if |s| == 0 {
      assert Zeros(k) + s == Zeros(k);
      ParseNatZeros(k);
    } else {
      var t := Zeros(k) + s;
      assert t[..|t| - 1] == Zeros(k) + s[..|s| - 1];
      ParseNatLeadingZeros(k, s[..|s| - 1]);
    }
  }

  lemma {:induction false} ParseNatZeros(k: nat)
    ensures ParseNat(Zeros(k)) == 0
  {
    if k > 0 {
      assert Zeros(k)[..k - 1] == Zeros(k - 1);
      ParseNatZeros(k - 1);
    }
  }

  /** Reading a padded number gives the number back. */
  lemma ParsePad(n: nat, width: nat)
    ensures ParseNat(Pad(n, width)) == n
  {
    var s := NatToString(n);
    var k := if |s| >= width then 0 else width - |s|;
    assert Pad(n, width) == Zeros(k) + s;
    ParseNatLeadingZeros(k, s);
    ParseNatToString(n);
  }

  /** Two-digit padding of numbers below 100 is exactly two characters and injective. */
  lemma Pad2Injective(m: nat, n: nat)
    requires m < 100 && n < 100
    requires Pad(m, 2) == Pad(n, 2)
    ensures m == n
  {
    ParsePad(m, 2);
    ParsePad(n, 2);
  }
}

=== FILE: swipe.dfy ===
/** The swipe-to-delete gesture of web_app/src/hooks/useSwipeToDelete.js: per-row state
    keyed by row id, driven by pointer events. Coordinates are CSS pixels, which may be
    fractional. */
module Swipe {
  import opened Wrappers

  const SwipeThreshold: real := 60.0
  const MaxSwipe: real := 80.0

  /** One row's gesture: where the pointer went down, how far left it is dragged
      (never positive), and whether the delete button is revealed. */
  datatype RowSwipe = RowSwipe(startX: real, deltaX: real, open: bool)

  type Swipes = map<nat, RowSwipe>

  /** Every row's offset lies between fully revealed and closed. */
  predicate WellFormed(m: Swipes)
  {
    forall id :: id in m ==> -MaxSwipe <= m[id].deltaX <= 0.0
  }

  /** `getState(id)`: the row's state, or nothing (the hook's `{}`). */
  function GetState(m: Swipes, id: nat): (r: Option<RowSwipe>)
    ensures r.Some? <==> id in m
    ensures r.Some? ==> r.value == m[id]
  {
    if id in m then Some(m[id]) else None
  }

  /** `onPointerDown(id, x)`: start a fresh, closed gesture at x. */
  function PointerDown(m: Swipes, id: nat, x: real): (r: Swipes)
    ensures GetState(r, id) == Some(RowSwipe(x, 0.0, false))
    ensures forall other :: other != id ==> GetState(r, other) == GetState(m, other)
  {
    m[id := RowSwipe(x, 0.0, false)]
  }

  /** `onPointerMove(id, x)`: the leftward distance from the start, capped at the full
      reveal; a rightward drag gives 0. No state, no change. */
  function PointerMove(m: Swipes, id: nat, x: real): (r: Swipes)
    ensures id !in m ==> r == m
    ensures id in m ==> id in r && r[id].startX == m[id].startX && r[id].open == m[id].open
    ensures id in m ==> -MaxSwipe <= r[id].deltaX <= 0.0
    ensures id in m && x >= m[id].startX ==> r[id].deltaX == 0.0
    ensures id in m && m[id].startX - MaxSwipe <= x <= m[id].startX ==> r[id].deltaX == x - m[id].startX
    ensures id in m && x < m[id].startX - MaxSwipe ==> r[id].deltaX == -MaxSwipe
    ensures forall other :: other != id ==> GetState(r, other) == GetState(m, other)
  {
    if id !in m then m
    else
      var s := m[id];
      var delta := if x - s.startX < 0.0 then x - s.startX else 0.0;
      m[id := s.(deltaX := if delta < -MaxSwipe then -MaxSwipe else delta)]
  }

  /** `onPointerUp(id)`: open exactly when dragged strictly past the threshold, then snap
      to fully revealed or closed. No state, no change. */
  function PointerUp(m: Swipes, id: nat): (r: Swipes)
    ensures id !in m ==> r == m
    ensures id in m ==> id in r && r[id].startX == m[id].startX
    ensures id in m ==> (r[id].open <==> m[id].deltaX < -SwipeThreshold || m[id].deltaX > SwipeThreshold)
    ensures id in m ==> r[id].deltaX == (if r[id].open then -MaxSwipe else 0.0)
    ensures forall other :: other != id ==> GetState(r, other) == GetState(m, other)
  {
    if id !in m then m
    else
      var s := m[id];
      var magnitude := if s.deltaX < 0.0 then -s.deltaX else s.deltaX;
      var open := magnitude > SwipeThreshold;
      m[id := s.(open := open, deltaX := if open then -MaxSwipe else 0.0)]
  }

  /** `reset(id)`: forget the row's gesture. */
  function Reset(m: Swipes, id: nat): (r: Swipes)
    ensures GetState(r, id) == None
    ensures forall other :: other != id ==> GetState(r, other) == GetState(m, other)
  {
    m - {id}
  }

  datatype Event = Down(id: nat, x: real) | Move(id: nat, x: real) | Up(id: nat) | Clear(id: nat)

  function EventId(e: Event): nat
  {
    match e
    case Down(id, _) => id
    case Move(id, _) => id
    case Up(id) => id
    case Clear(id) => id
  }

  /** One pointer event: only the event's own row changes, and a row gains a gesture
      only by a pointer-down. */
  function Step(m: Swipes, e: Event): (r: Swipes)
    ensures forall other :: other != EventId(e) ==> GetState(r, other) == GetState(m, other)
    ensures forall id :: id in r && id !in m ==> e.Down? && e.id == id
  {
    match e
    case Down(id, x) => PointerDown(m, id, x)
    case Move(id, x) => PointerMove(m, id, x)
    case Up(id) => PointerUp(m, id)
    case Clear(id) => Reset(m, id)
  }

  /** A run of events: a row has a gesture afterwards only if it had one before or some
      event was a pointer-down on it. */
  function Run(m: Swipes, events: seq<Event>): (r: Swipes)
    ensures forall id :: id in r && id !in m ==> exists i :: 0 <= i < |events| && events[i].Down? && events[i].id == id
    decreases |events|
  {
    if |events| == 0 then m
    else
      var m' := Step(m, events[0]);
      var r := Run(m', events[1..]);
      forall id | id in r && id !in m
        ensures exists i :: 0 <= i < |events| && events[i].Down? && events[i].id == id
      {
        if id in m' {
          assert events[0].Down? && events[0].id == id;
        } else {
          var j :| 0 <= j < |events[1..]| && events[1..][j].Down? && events[1..][j].id == id;
          assert events[j + 1] == events[1..][j];
        }
      }
      r
  }

  /** Every event keeps each row's offset within [-80, 0]. */
  lemma {:induction false} RunKeepsWellFormed(m: Swipes, events: seq<Event>)
    requires WellFormed(m)
    ensures WellFormed(Run(m, events))
    decreases |events|
  {
    if |events| > 0 {
      var m' := Step(m, events[0]);
      assert WellFormed(m') by {
        forall id | id in m' ensures -MaxSwipe <= m'[id].deltaX <= 0.0 {
          assert GetState(m', id) == Some(m'[id]);
          if id != EventId(events[0]) {
            assert GetState(m, id) == Some(m'[id]);
          }
        }
      }
      RunKeepsWellFormed(m', events[1..]);
    }
  }

  /** Events about other rows leave a row's gesture alone. */
  lemma {:induction false} RunIsolatesRows(m: Swipes, events: seq<Event>, id: nat)
    requires forall i :: 0 <= i < |events| ==> EventId(events[i]) != id
    ensures GetState(Run(m, events), id) == GetState(m, id)
    decreases |events|
  {
    if |events| > 0 {
      RunIsolatesRows(Step(m, events[0]), events[1..], id);
    }
  }

  /** Releasing twice is releasing once: the snapped offset keeps its verdict. */
  lemma PointerUpIdempotent(m: Swipes, id: nat)
    ensures PointerUp(PointerUp(m, id), id) == PointerUp(m, id)
  {
  }

  /** Releasing without moving leaves the row closed. */
  lemma TapStaysClosed(m: Swipes, id: nat, x: real)
    ensures GetState(PointerUp(PointerDown(m, id, x), id), id) == Some(RowSwipe(x, 0.0, false))
  {
  }
}

=== FILE: undo_snackbar.dfy ===
/** The undo snackbar of web_app/src/hooks/useUndoSnackbar.js as a discrete event
    machine. Each `showUndo` schedules one timer (numbered in call order) and opens one
    message with an UNDO button; time passing is the `Fire` and `Expire` events. */
module UndoSnackbar {
  import opened Wrappers

  const DefaultTimeoutMs := 5000

  /** The message stays up for `timeout / 1000` seconds. */
  function DurationSeconds(timeoutMs: nat): (r: real)
    ensures r * 1000.0 == timeoutMs as real
  {
    timeoutMs as real / 1000.0
  }

  /** `pending` is the hook's `pendingRef` (the timer it would cancel); `live` the timers
      scheduled and not cleared; `shown` the messages whose UNDO can still be clicked;
      `item` which deletion each timer belongs to; `committed` and `undone` the
      `onCommit`/`onUndo` calls made so far, by timer. */
  datatype Snackbar = Snackbar(
    pending: Option<nat>,
    live: set<nat>,
    shown: set<nat>,
    item: map<nat, nat>,
    next: nat,
    committed: seq<nat>,
    undone: seq<nat>)

  const Initial := Snackbar(None, {}, {}, map[], 0, [], [])

  /** Timers are numbered below `next`, and every number in use has its item. */
  predicate Coherent(s: Snackbar)
  {
    && (forall t :: t in s.live ==> t < s.next && t in s.item)
    && (forall t :: t in s.shown ==> t < s.next && t in s.item)
    && (s.pending.Some? ==> s.pending.value < s.next)
  }

  /** At most one commit is waiting, and it is the one the hook would cancel. */
  predicate AtMostOnePending(s: Snackbar)
  {
    forall t :: t in s.live ==> s.pending == Some(t)
  }

  /** `showUndo` for deletion `item`: cancel the pending timer, schedule a new one and
      open its message. */
  function ShowUndo(s: Snackbar, item: nat): (r: Snackbar)
    ensures Coherent(s) && s.pending.Some? ==> s.pending.value !in r.live
    ensures r.pending == Some(s.next) && s.next in r.live && s.next in r.shown
    ensures Coherent(s) ==> r.live - {s.next} == (if s.pending.Some? then s.live - {s.pending.value} else s.live)
    ensures r.committed == s.committed && r.undone == s.undone
  {
    var live := if s.pending.Some? then s.live - {s.pending.value} else s.live;
    Snackbar(Some(s.next), live + {s.next}, s.shown + {s.next}, s.item[s.next := item], s.next + 1, s.committed, s.undone)
  }

  /** The timer of `t` fires: close its message, commit, clear `pendingRef`.
      A cleared timer never fires. */
  function Fire(s: Snackbar, t: nat): (r: Snackbar)
    ensures t !in s.live ==> r == s
    ensures t in s.live && t in s.item ==> r.committed == s.committed + [t] && t !in r.live && r.pending.None?
    ensures r.undone == s.undone && r.live <= s.live
  {
    if t !in s.live || t !in s.item then s
    else s.(pending := None, live := s.live - {t}, shown := s.shown - {t}, committed := s.committed + [t])
  }

  /** Message `t` closes by itself at the end of its duration. */
  function Expire(s: Snackbar, t: nat): (r: Snackbar)
    ensures t !in r.shown
    ensures r.pending == s.pending && r.live == s.live && r.committed == s.committed && r.undone == s.undone
  {
    s.(shown := s.shown - {t})
  }

  /** `showUndo` as it should be: the superseded deletion's commit is carried out at
      once, with its message closed, instead of being cancelled. */
  function ShowUndoFixed(s: Snackbar, item: nat): (r: Snackbar)
    ensures r.pending == Some(s.next) && s.next in r.live && s.next in r.shown
    ensures Coherent(s) && s.pending.Some? && s.pending.value in s.live ==>
              r.committed == s.committed + [s.pending.value] && s.pending.value !in r.live
    ensures s.pending.None? || s.pending.value !in s.live ==> r.committed == s.committed
    ensures r.undone == s.undone
  {
    var flushed := if s.pending.Some? then Fire(s, s.pending.value) else s;
    Snackbar(Some(s.next), flushed.live + {s.next}, flushed.shown + {s.next}, s.item[s.next := item], s.next + 1, flushed.committed, s.undone)
  }

  /** UNDO on message `t`, as written: clear `t`'s timer, close the message, set
      `pendingRef` to null whatever it refers to, call `onUndo`. */
  function ClickUndo(s: Snackbar, t: nat): (r: Snackbar)
    ensures t !in s.shown ==> r == s
    ensures t in s.shown ==> t !in r.live && r.pending.None? && r.undone == s.undone + [t]
    ensures r.committed == s.committed
  {
    if t !in s.shown then s
    else s.(pending := None, live := s.live - {t}, shown := s.shown - {t}, undone := s.undone + [t])
  }

  /** UNDO on message `t`, forgetting `pendingRef` only when it is `t`'s own timer. */
  function ClickUndoFixed(s: Snackbar, t: nat): (r: Snackbar)
    ensures t !in s.shown ==> r == s
    ensures t in s.shown ==> t !in r.live && r.undone == s.undone + [t]
    ensures t in s.shown ==> (r.pending.None? <==> s.pending.None? || s.pending == Some(t))
    ensures r.committed == s.committed
  {
    if t !in s.shown then s
    else
      var pending := if s.pending == Some(t) then None else s.pending;
      s.(pending := pending, live := s.live - {t}, shown := s.shown - {t}, undone := s.undone + [t])
  }

  datatype Event = Show(item: nat) | FireTimer(t: nat) | ExpireMessage(t: nat) | Undo(t: nat)

  /** `a` is a prefix of `b`: a log that only grew. */
  predicate Extends(a: seq<nat>, b: seq<nat>)
  {
    |a| <= |b| && b[..|a|] == a
  }

  lemma ExtendsTransitive(a: seq<nat>, b: seq<nat>, c: seq<nat>)
    requires Extends(a, b) && Extends(b, c)
    ensures Extends(a, c)
  {
    assert c[..|a|] == c[..|b|][..|a|];
  }

  /** One event as written: the commit and undo logs only grow, and timer numbers are
      never reused. */
  function Step(s: Snackbar, e: Event): (r: Snackbar)
    ensures Extends(s.committed, r.committed) && Extends(s.undone, r.undone) && s.next <= r.next
  {
    match e
    case Show(item) => ShowUndo(s, item)
    case FireTimer(t) => Fire(s, t)
    case ExpireMessage(t) => Expire(s, t)
    case Undo(t) => ClickUndo(s, t)
  }

  /** One event with both corrections: the logs only grow, and timer numbers are never
      reused. */
  function StepFixed(s: Snackbar, e: Event): (r: Snackbar)
    ensures Extends(s.committed, r.committed) && Extends(s.undone, r.undone) && s.next <= r.next
  {
    match e
    case Show(item) => ShowUndoFixed(s, item)
    case FireTimer(t) => Fire(s, t)
    case ExpireMessage(t) => Expire(s, t)
    case Undo(t) => ClickUndoFixed(s, t)
  }

  /** A run of events as written: nothing committed or undone is ever taken back. */
  function Run(s: Snackbar, events: seq<Event>): (r: Snackbar)
    ensures Extends(s.committed, r.committed) && Extends(s.undone, r.undone) && s.next <= r.next
    decreases |events|
  {
    if |events| == 0 then s
    else
      var s' := Step(s, events[0]);
      var r := Run(s', events[1..]);
      ExtendsTransitive(s.committed, s'.committed, r.committed);
      ExtendsTransitive(s.undone, s'.undone, r.undone);
      r
  }

  /** The same for the corrected hook. */
  function RunFixed(s: Snackbar, events: seq<Event>): (r: Snackbar)
    ensures Extends(s.committed, r.committed) && Extends(s.undone, r.undone) && s.next <= r.next
    decreases |events|
  {
    if |events| == 0 then s
    else
      var s' := StepFixed(s, events[0]);
      var r := RunFixed(s', events[1..]);
      ExtendsTransitive(s.committed, s'.committed, r.committed);
      ExtendsTransitive(s.undone, s'.undone, r.undone);
      r
  }

  /** With the fixed UNDO, every event keeps at most one commit pending. */
  lemma {:induction false} RunFixedKeepsOnePending(s: Snackbar, events: seq<Event>)
    requires Coherent(s) && AtMostOnePending(s)
    ensures Coherent(RunFixed(s, events)) && AtMostOnePending(RunFixed(s, events))
    decreases |events|
  {
    if |events| > 0 {
      var s' := StepFixed(s, events[0]);
      assert Coherent(s') && AtMostOnePending(s') by {
        match events[0]
        case Show(item) =>
        case FireTimer(t) =>
        case ExpireMessage(t) =>
        case Undo(t) =>
      }
      RunFixedKeepsOnePending(s', events[1..]);
    }
  }

  /** A stale UNDO breaks the hook's guarantee: delete 10, delete 11, click UNDO on the
      first message while it is still up, delete 12. The second deletion's timer is no
      longer referenced, so the third `showUndo` cannot reach it and two commits are
      waiting. The corrected hook closes the first message when the second deletion
      supersedes it, so that UNDO is no longer there to click, and the third `showUndo`
      settles the second deletion: one commit is waiting. */
  lemma StaleUndoLeavesTwoPending()
    ensures var s := Run(Initial, [Show(10), Show(11), Undo(0), Show(12)]);
            s.live == {1, 2} && !AtMostOnePending(s)
    ensures RunFixed(Initial, [Show(10), Show(11), Undo(0), Show(12)]).live == {2}
  {
    var s1 := ShowUndo(Initial, 10);
    var s2 := ShowUndo(s1, 11);
    assert s2.live == {1} && 0 in s2.shown;
    var s3 := ClickUndo(s2, 0);
    assert s3.live == {1} && s3.pending.None?;
    var s4 := ShowUndo(s3, 12);
    assert s4.live == {1, 2};
    assert Run(Initial, [Show(10), Show(11), Undo(0), Show(12)]) == s4 by {
      assert [Show(10), Show(11), Undo(0), Show(12)][1..] == [Show(11), Undo(0), Show(12)];
      assert [Show(11), Undo(0), Show(12)][1..] == [Undo(0), Show(12)];
      assert [Undo(0), Show(12)][1..] == [Show(12)];
    }
    var f2 := ShowUndoFixed(ShowUndoFixed(Initial, 10), 11);
    assert f2.live == {1} && 0 !in f2.shown;
    var f3 := ClickUndoFixed(f2, 0);
    assert f3 == f2 && f3.pending == Some(1);
    assert RunFixed(Initial, [Show(10), Show(11), Undo(0), Show(12)]) == ShowUndoFixed(f3, 12) by {
      assert [Show(10), Show(11), Undo(0), Show(12)][1..] == [Show(11), Undo(0), Show(12)];
      assert [Show(11), Undo(0), Show(12)][1..] == [Undo(0), Show(12)];
      assert [Undo(0), Show(12)][1..] == [Show(12)];
    }
  }

  /** A timer that has fired, or whose UNDO was clicked, never commits again. */
  lemma NoSecondCommit(s: Snackbar, t: nat, e: Event)
    requires t in s.live && t in s.item
    ensures Fire(Fire(s, t), t) == Fire(s, t)
    ensures t in s.shown ==> Fire(ClickUndo(s, t), t).committed == s.committed
  {
  }

  /** As written, a later `showUndo` cancels the pending timer outright, so firing it
      afterwards does nothing: the superseded deletion is not committed. */
  lemma SupersededNeverCommits(s: Snackbar, item: nat)
    requires Coherent(s) && s.pending.Some?
    ensures Fire(ShowUndo(s, item), s.pending.value) == ShowUndo(s, item)
  {
  }

  /** Every deletion so far is still waiting, committed or undone. */
  predicate Accounted(s: Snackbar)
  {
    forall t :: 0 <= t < s.next ==> t in s.live || t in s.committed || t in s.undone
  }

  /** Hence a deletion can be lost: delete 10, delete 11, let the first message close
      without UNDO, and let the second timer fire. Deletion 10 (timer 0) is neither
      committed nor undone, and nothing left can do either; the row stays hidden but is
      never deleted on the server. The corrected hook commits it when 11 supersedes it. */
  lemma SupersededDeletionIsLost()
    ensures var s := Run(Initial, [Show(10), Show(11), ExpireMessage(0), FireTimer(1)]);
            s.committed == [1] && s.undone == [] && 0 !in s.live && 0 !in s.shown && !Accounted(s)
    ensures RunFixed(Initial, [Show(10), Show(11), ExpireMessage(0), FireTimer(1)]).committed == [0, 1]
  {
    var evs := [Show(10), Show(11), ExpireMessage(0), FireTimer(1)];
    assert evs[1..] == [Show(11), ExpireMessage(0), FireTimer(1)];
    assert evs[1..][1..] == [ExpireMessage(0), FireTimer(1)];
    assert evs[1..][1..][1..] == [FireTimer(1)];
    var s2 := ShowUndo(ShowUndo(Initial, 10), 11);
    assert s2.live == {1} && s2.item[1] == 11;
    var s4 := Fire(Expire(s2, 0), 1);
    assert Run(Initial, evs) == s4;
    assert s4.committed == [1];
    var f2 := ShowUndoFixed(ShowUndoFixed(Initial, 10), 11);
    assert f2.committed == [0] && f2.live == {1} && f2.item[1] == 11;
    assert RunFixed(Initial, evs) == Fire(Expire(f2, 0), 1);
  }

  /** With both corrections every deletion stays accounted for: each one is still
      waiting on its timer, or has been committed or undone. */
  lemma {:induction false} RunFixedAccountsForEveryDeletion(s: Snackbar, events: seq<Event>)
    requires Coherent(s) && AtMostOnePending(s) && Accounted(s)
    ensures Accounted(RunFixed(s, events))
    decreases |events|
  {
    if |events| > 0 {
      var s' := StepFixed(s, events[0]);
      assert Coherent(s') && AtMostOnePending(s') && Accounted(s') by {
        match events[0]
        case Show(item) =>
          forall t | 0 <= t < s'.next
            ensures t in s'.live || t in s'.committed || t in s'.undone
          {
            if t < s.next && t !in s'.live {
              if t in s.committed {
                assert s'.committed[..|s.committed|] == s.committed;
                assert s.committed[IndexIn(s.committed, t)] == t;
                assert s'.committed[IndexIn(s.committed, t)] == t;
              } else if t in s.live {
                assert s'.committed == s.committed + [t];
                assert s'.committed[|s.committed|] == t;
              }
            }
          }
        case FireTimer(t) =>
        case ExpireMessage(t) =>
        case Undo(t) =>
      }
      RunFixedAccountsForEveryDeletion(s', events[1..]);
    }
  }

  /** The index of a member of a log. */
  function IndexIn(xs: seq<nat>, t: nat): (i: nat)
    requires t in xs
    ensures i < |xs| && xs[i] == t
  {
    if xs[0] == t then 0 else 1 + IndexIn(xs[1..], t)
  }
}

=== FILE: users.dfy ===
/** Accounts: the user manager, `CustomUser.save` and the creation hook of
    users/models.py, the verification and user endpoints of users/views.py, and the
    login backend of users/authentication.py. Token values are parameters. */
module Users {
  import opened Wrappers
  import opened Strings
  import Seqs

  datatype User = User(
    pk: nat,
    email: string,
    username: string,
    isActive: bool,
    isStaff: bool,
    isSuperuser: bool,
    emailConfirmed: bool,
    lastActive: string,
    ipAddress: Option<string>)

  /** The user table, the API token per user, and the pending email-verification tokens. */
  datatype Accounts = Accounts(users: seq<User>, authTokens: map<nat, string>, verifications: map<string, nat>, nextPk: nat)

  /** Keyword flags passed to the manager; None when not given. */
  datatype Flags = Flags(isStaff: Option<bool>, isSuperuser: Option<bool>)

  datatype UserError = EmailRequired | UsernameRequired | SuperuserNeedsStaff | SuperuserNeedsSuperuser | AlreadyTaken

  /** No upper-case letter. */
  predicate IsLowercase(s: string)
  {
    forall i :: 0 <= i < |s| ==> !IsUpper(s[i])
  }

  /** `normalize_email(email).lower()`: an address with an '@' is stripped of surrounding
      whitespace; then everything is lower-cased. */
  function NormalizeEmail(email: string): (r: string)
    ensures IsLowercase(r)
    ensures HasChar(email, '@') ==> r == Lower(Trim(email))
    ensures !HasChar(email, '@') ==> r == Lower(email)
  {
    if HasChar(email, '@') then Lower(Trim(email)) else Lower(email)
  }

  /** The email or the username is already stored (both columns are unique). */
  predicate Taken(users: seq<User>, email: string, username: string)
  {
    exists k :: 0 <= k < |users| && (users[k].email == email || users[k].username == username)
  }

  /** The link mailed on sign-up. */
  function VerificationLink(frontendUrl: string, token: string): (r: string)
    ensures StartsWith(r, frontendUrl + "/verify-email/") && EndsWith(r, token + "/")
    ensures |r| == |frontendUrl| + 14 + |token| + 1
  {
    var r := frontendUrl + "/verify-email/" + token + "/";
    assert r[..|frontendUrl| + 14] == frontendUrl + "/verify-email/";
    assert r[|r| - |token| - 1..] == token + "/";
    r
  }

  /** `create_user`: refuse a missing email or username, store both lower-cased, the
      account inactive and unconfirmed; the creation hook adds the API token and the
      verification token. */
  function CreateUser(acc: Accounts, email: string, username: string, flags: Flags, authKey: string, verifyToken: string): (r: Result<(Accounts, User), UserError>)
    ensures email == "" ==> r == Err(EmailRequired)
    ensures email != "" && username == "" ==> r == Err(UsernameRequired)
    ensures r.Ok? ==> var (acc', u) := r.value;
      && u.email == NormalizeEmail(email) && IsLowercase(u.email)
      && IsLowercase(u.username) && u.username == Lower(username)
      && u.pk == acc.nextPk && acc'.nextPk == acc.nextPk + 1
      && !u.isActive && !u.emailConfirmed && u.lastActive == "." && u.ipAddress == None
      && u.isStaff == flags.isStaff.GetOr(false) && u.isSuperuser == flags.isSuperuser.GetOr(false)
      && acc'.users == acc.users + [u] && acc'.authTokens == acc.authTokens[u.pk := authKey]
      && acc'.verifications == acc.verifications[verifyToken := u.pk]
    ensures email != "" && username != "" ==> (r.Ok? <==> !Taken(acc.users, NormalizeEmail(email), Lower(username)))
  {
    if email == "" then Err(EmailRequired)
    else if username == "" then Err(UsernameRequired)
    else
      var e, n := NormalizeEmail(email), Lower(username);
      if Taken(acc.users, e, n) then Err(AlreadyTaken)
      else
        var u := User(acc.nextPk, e, n, false, flags.isStaff.GetOr(false), flags.isSuperuser.GetOr(false), false, ".", None);
        Ok((Accounts(acc.users + [u], acc.authTokens[u.pk := authKey], acc.verifications[verifyToken := u.pk], acc.nextPk + 1), u))
  }

  /** `create_superuser`: both flags default to true and must be true. */
  function CreateSuperuser(acc: Accounts, email: string, username: string, flags: Flags, authKey: string, verifyToken: string): (r: Result<(Accounts, User), UserError>)
    ensures flags.isStaff == Some(false) ==> r == Err(SuperuserNeedsStaff)
    ensures flags.isStaff != Some(false) && flags.isSuperuser == Some(false) ==> r == Err(SuperuserNeedsSuperuser)
    ensures r.Ok? ==> r.value.1.isStaff && r.value.1.isSuperuser
    ensures flags.isStaff != Some(false) && flags.isSuperuser != Some(false) ==>
              r == CreateUser(acc, email, username, Flags(Some(true), Some(true)), authKey, verifyToken)
  {
    if flags.isStaff.GetOr(true) != true then Err(SuperuserNeedsStaff)
    else if flags.isSuperuser.GetOr(true) != true then Err(SuperuserNeedsSuperuser)
    else CreateUser(acc, email, username, Flags(Some(true), Some(true)), authKey, verifyToken)
  }

  /** The stored email of the row with that key, if any. */
  function StoredEmail(users: seq<User>, pk: nat): (r: Option<string>)
    ensures r.Some? <==> exists k :: 0 <= k < |users| && users[k].pk == pk
    ensures r.Some? ==> exists k :: 0 <= k < |users| && users[k].pk == pk && users[k].email == r.value
  {
    if |users| == 0 then None
    else if users[0].pk == pk then Some(users[0].email)
    else
      var rest := StoredEmail(users[1..], pk);
      assert rest.Some? ==> users[1..][0].pk == pk || exists k :: 1 <= k < |users| && users[k].pk == pk && users[k].email == rest.value;
      rest
  }

  /** `CustomUser.save` of an existing account: email and username lower-cased, and the
      confirmation dropped when the email differs from the stored one. */
  function PrepareSave(users: seq<User>, u: User): (r: User)
    ensures r.email == Lower(u.email) && r.username == Lower(u.username)
    ensures StoredEmail(users, u.pk) != Some(Lower(u.email)) ==> !r.emailConfirmed
    ensures StoredEmail(users, u.pk) == Some(Lower(u.email)) ==> r.emailConfirmed == u.emailConfirmed
    ensures r.(email := u.email, username := u.username, emailConfirmed := u.emailConfirmed) == u
  {
    var e := Lower(u.email);
    u.(email := e, username := Lower(u.username),
       emailConfirmed := if StoredEmail(users, u.pk) != Some(e) then false else u.emailConfirmed)
  }

  /** Store an account: replace the row with its key, or append. */
  function Store(users: seq<User>, u: User): (r: seq<User>)
    ensures u in r
    ensures forall k :: 0 <= k < |users| && users[k].pk != u.pk ==> users[k] in r
    ensures forall k :: 0 <= k < |r| ==> r[k] == u || r[k] in users
  {
    var k := Seqs.FindIndex(users, (x: User) => x.pk == u.pk);
    if k >= 0 then
      assert users[k := u][k] == u;
      assert forall j :: 0 <= j < |users| && users[j].pk != u.pk ==> users[k := u][j] == users[j];
      users[k := u]
    else
      assert (users + [u])[|users|] == u;
      users + [u]
  }

  /** Changing an account's email drops its confirmation; re-saving the same address,
      in any case, keeps it. */
  lemma EmailChangeUnconfirms(users: seq<User>, u: User, k: nat)
    requires k < |users| && users[k].pk == u.pk && IsLowercase(users[k].email)
    requires forall j :: 0 <= j < |users| && users[j].pk == u.pk ==> j == k
    ensures !EqualsIgnoreCase(users[k].email, u.email) ==> !PrepareSave(users, u).emailConfirmed
    ensures EqualsIgnoreCase(users[k].email, u.email) ==> PrepareSave(users, u).emailConfirmed == u.emailConfirmed
  {
    LowerOfLowercase(users[k].email);
    var stored := StoredEmail(users, u.pk);
    var j :| 0 <= j < |users| && users[j].pk == u.pk && users[j].email == stored.value;
    assert j == k;
  }

  lemma LowerOfLowercase(s: string)
    requires IsLowercase(s)
    ensures Lower(s) == s
  {
  }

  // ---------------------------------------------------------------------------
  // Endpoints

  /** The row with that key. */
  predicate UserAt(users: seq<User>, pk: nat, k: nat)
  {
    k < |users| && users[k].pk == pk
  }

  /** `verify_email(request, token)`, written for the link's `/verify-email/<token>/`
      but routed by no URL pattern: a known token activates and confirms its account and
      is deleted; every other account, token and verification is left as it was.
      Anything else is 400 with no change. */
  function VerifyEmail(acc: Accounts, token: string): (r: (int, Accounts))
    ensures token !in acc.verifications ==> r == (400, acc)
    ensures r.0 == 200 ==> token in acc.verifications && token !in r.1.verifications
    ensures r.0 == 200 ==> exists k: nat :: UserAt(r.1.users, acc.verifications[token], k) && r.1.users[k].isActive
    ensures r.0 == 200 ==> r.1.verifications == acc.verifications - {token}
    ensures r.0 == 200 ==> r.1.authTokens == acc.authTokens && r.1.nextPk == acc.nextPk && |r.1.users| == |acc.users|
    ensures r.0 == 200 ==> forall j :: 0 <= j < |acc.users| && acc.users[j].pk != acc.verifications[token] ==> r.1.users[j] == acc.users[j]
    ensures r.0 != 200 ==> r == (400, acc)
  {
    if token !in acc.verifications then (400, acc)
    else
      var pk := acc.verifications[token];
      var k := Seqs.FindIndex(acc.users, (x: User) => x.pk == pk);
      if k < 0 then (400, acc)
      else
        var saved := PrepareSave(acc.users, acc.users[k].(isActive := true, emailConfirmed := true));
        var users' := acc.users[k := saved];
        assert UserAt(users', pk, k);
        (200, acc.(users := users', verifications := acc.verifications - {token}))
  }

  /** Re-saving a row's own lower-case email keeps its confirmation. */
  lemma SaveKeepsConfirmation(users: seq<User>, k: nat, u: User)
    requires k < |users| && u.pk == users[k].pk && u.email == users[k].email
    requires forall j :: 0 <= j < k ==> users[j].pk != u.pk
    requires IsLowercase(u.email)
    ensures PrepareSave(users, u).emailConfirmed == u.emailConfirmed
  {
    LowerOfLowercase(u.email);
    StoredEmailFirst(users, k, u.pk);
  }

  lemma {:induction false} StoredEmailFirst(users: seq<User>, k: nat, pk: nat)
    requires k < |users| && users[k].pk == pk
    requires forall j :: 0 <= j < k ==> users[j].pk != pk
    ensures StoredEmail(users, pk) == Some(users[k].email)
  {
    if k > 0 {
      StoredEmailFirst(users[1..], k - 1, pk);
    }
  }

  /** On lower-case accounts, as the manager stores them, a successful verification
      also confirms the address. */
  lemma VerifyEmailConfirms(acc: Accounts, token: string)
    requires forall k :: 0 <= k < |acc.users| ==> IsLowercase(acc.users[k].email)
    requires VerifyEmail(acc, token).0 == 200
    ensures exists k: nat :: UserAt(VerifyEmail(acc, token).1.users, acc.verifications[token], k)
                           && VerifyEmail(acc, token).1.users[k].isActive && VerifyEmail(acc, token).1.users[k].emailConfirmed
  {
    var pk := acc.verifications[token];
    var k := Seqs.FindIndex(acc.users, (x: User) => x.pk == pk);
    var u := acc.users[k].(isActive := true, emailConfirmed := true);
    SaveKeepsConfirmation(acc.users, k, u);
    assert UserAt(VerifyEmail(acc, token).1.users, pk, k);
  }

  /** A verification link works once: the second visit is refused. */
  lemma VerifyEmailIsOneShot(acc: Accounts, token: string)
    requires VerifyEmail(acc, token).0 == 200
    ensures VerifyEmail(VerifyEmail(acc, token).1, token).0 == 400
  {
  }

  /** Token authentication accepts the key in the `Authorization: Token <key>` header:
      some API token has that key and its account exists and is active. */
  predicate TokenAuthenticates(acc: Accounts, key: string)
  {
    exists pk :: pk in acc.authTokens && acc.authTokens[pk] == key
                 && exists k :: 0 <= k < |acc.users| && acc.users[k].pk == pk && acc.users[k].isActive
  }

  /** Some API token has that key, whoever it belongs to. */
  predicate KeyExists(acc: Accounts, key: string)
  {
    exists pk :: pk in acc.authTokens && acc.authTokens[pk] == key
  }

  /** `POST /users/verify/`. The viewset demands an authenticated caller, so a missing
      header or one whose key does not authenticate is 401 before the view runs; the view
      then answers 200 when some API token has the body's key and 400 otherwise. */
  function VerifyAuthToken(acc: Accounts, header: Option<string>, key: Option<string>): (r: int)
    ensures r == 401 <==> header.None? || !TokenAuthenticates(acc, header.value)
    ensures r == 200 <==> header.Some? && TokenAuthenticates(acc, header.value) && key.Some? && KeyExists(acc, key.value)
    ensures r == 200 || r == 400 || r == 401
  {
    if header.None? || !TokenAuthenticates(acc, header.value) then 401
    else if key.Some? && KeyExists(acc, key.value) then 200
    else 400
  }

  /** The web client sends its stored key both in the header and in the body. A key that
      still authenticates is 200; a stale one (deleted, or its account deactivated) is
      401, never the 400 on which the client drops the stored key. */
  lemma OwnKeyNeverRefusedWith400(acc: Accounts, key: string)
    ensures VerifyAuthToken(acc, Some(key), Some(key)) == 200 <==> TokenAuthenticates(acc, key)
    ensures VerifyAuthToken(acc, Some(key), Some(key)) != 400
  {
    if TokenAuthenticates(acc, key) {
      var pk :| pk in acc.authTokens && acc.authTokens[pk] == key
                && exists k :: 0 <= k < |acc.users| && acc.users[k].pk == pk && acc.users[k].isActive;
      assert KeyExists(acc, key);
    }
  }

  /** `UserViewSet.get_queryset`: all accounts for a superuser, only one's own otherwise. */
  function UserQueryset(caller: User, users: seq<User>): (r: seq<User>)
    ensures caller.isSuperuser ==> r == users
    ensures !caller.isSuperuser ==> forall k :: 0 <= k < |r| ==> r[k].pk == caller.pk && r[k] in users
    ensures !caller.isSuperuser ==> forall k :: 0 <= k < |users| && users[k].pk == caller.pk ==> users[k] in r
  {
    if caller.isSuperuser then users else Seqs.Filter(users, (u: User) => u.pk == caller.pk)
  }

  /** `destroy`: a soft delete of an account the caller can see: 404 otherwise, else the
      account is deactivated, kept, and 204 returned. */
  function DestroyUser(caller: User, users: seq<User>, pk: nat): (r: (int, seq<User>))
    ensures r.0 == 204 || r == (404, users)
    ensures r.0 == 204 <==> (exists k :: UserAt(users, pk, k)) && (caller.isSuperuser || caller.pk == pk)
    ensures r.0 == 204 ==> |r.1| == |users|
    ensures r.0 == 204 ==> forall k :: 0 <= k < |users| ==>
              r.1[k] == (if k == Seqs.FindIndex(users, (x: User) => x.pk == pk) then users[k].(isActive := false) else users[k])
  {
    var k := Seqs.FindIndex(users, (x: User) => x.pk == pk);
    if k < 0 || !(caller.isSuperuser || caller.pk == pk) then (404, users)
    else
      assert UserAt(users, pk, k);
      (204, users[k := users[k].(isActive := false)])
  }

  // ---------------------------------------------------------------------------
  // Login

  /** The backend's result; a lookup that matches several rows raises. */
  datatype AuthResult = NoUser | Authenticated(user: User) | MultipleMatches

  /** The accounts an identifier names: by email when it has an '@', else by username,
      ignoring case either way. */
  function Candidates(users: seq<User>, identifier: string): (r: seq<User>)
    ensures forall k :: 0 <= k < |r| ==> r[k] in users
    ensures HasChar(identifier, '@') ==> forall k :: 0 <= k < |r| ==> EqualsIgnoreCase(r[k].email, identifier)
    ensures !HasChar(identifier, '@') ==> forall k :: 0 <= k < |r| ==> EqualsIgnoreCase(r[k].username, identifier)
    ensures HasChar(identifier, '@') ==> forall k :: 0 <= k < |users| && EqualsIgnoreCase(users[k].email, identifier) ==> users[k] in r
    ensures !HasChar(identifier, '@') ==> forall k :: 0 <= k < |users| && EqualsIgnoreCase(users[k].username, identifier) ==> users[k] in r
  {
    if HasChar(identifier, '@')
    then Seqs.Filter(users, (u: User) => EqualsIgnoreCase(u.email, identifier))
    else Seqs.Filter(users, (u: User) => EqualsIgnoreCase(u.username, identifier))
  }

  /** `EmailOrUsernameBackend.authenticate`. The password hash check is a parameter;
      `user_can_authenticate` is the active flag. */
  function Authenticate(users: seq<User>, identifier: Option<string>, password: Option<string>, checkPassword: (User, string) -> bool): (r: AuthResult)
    ensures identifier.None? || password.None? ==> r == NoUser
    ensures r.Authenticated? ==> r.user.isActive && checkPassword(r.user, password.value) && r.user in users
    ensures r.Authenticated? && HasChar(identifier.value, '@') ==> EqualsIgnoreCase(r.user.email, identifier.value)
    ensures r.Authenticated? && !HasChar(identifier.value, '@') ==> EqualsIgnoreCase(r.user.username, identifier.value)
    ensures identifier.Some? && password.Some? ==> var found := Candidates(users, identifier.value);
      && (|found| == 0 ==> r == NoUser)
      && (|found| > 1 ==> r == MultipleMatches)
      && (|found| == 1 ==> (r.Authenticated? <==> checkPassword(found[0], password.value) && found[0].isActive))
      && (|found| == 1 && r.Authenticated? ==> r.user == found[0])
      && (|found| == 1 && !r.Authenticated? ==> r == NoUser)
  {
    if identifier.None? || password.None? then NoUser
    else
      var found := Candidates(users, identifier.value);
      if |found| == 0 then NoUser
      else if |found| > 1 then MultipleMatches
      else if checkPassword(found[0], password.value) && found[0].isActive then Authenticated(found[0])
      else NoUser
  }

  /** `login_view`: 200 with a session for a recognised account, 400 otherwise, 500 when
      the lookup raises. No URL pattern routes it; the backend is reached through the
      routed `/auth/` token view instead. */
  function LoginStatus(result: AuthResult): (r: int)
    ensures r == 200 <==> result.Authenticated?
    ensures r == 400 <==> result.NoUser?
  {
    match result
    case Authenticated(_) => 200
    case NoUser => 400
    case MultipleMatches => 500
  }

  /** Accounts as the manager stores them: lower-case, with unique emails and usernames. */
  predicate Canonical(users: seq<User>)
  {
    && (forall k :: 0 <= k < |users| ==> IsLowercase(users[k].email) && IsLowercase(users[k].username))
    && (forall i, j :: 0 <= i < j < |users| ==> users[i].email != users[j].email && users[i].username != users[j].username)
  }

  /** An identifier that names no stored account logs nobody in, whatever the password. */
  lemma UnknownIdentifierIsNoUser(users: seq<User>, identifier: string, password: Option<string>, checkPassword: (User, string) -> bool)
    requires HasChar(identifier, '@') ==> forall k :: 0 <= k < |users| ==> !EqualsIgnoreCase(users[k].email, identifier)
    requires !HasChar(identifier, '@') ==> forall k :: 0 <= k < |users| ==> !EqualsIgnoreCase(users[k].username, identifier)
    ensures Authenticate(users, Some(identifier), password, checkPassword) == NoUser
  {
    if HasChar(identifier, '@') {
      Seqs.FilterNone(users, (u: User) => EqualsIgnoreCase(u.email, identifier));
    } else {
      Seqs.FilterNone(users, (u: User) => EqualsIgnoreCase(u.username, identifier));
    }
  }

  /** On canonical accounts an identifier names at most one account, so the backend
      never raises. */
  lemma CanonicalLookupIsUnique(users: seq<User>, identifier: Option<string>, password: Option<string>, checkPassword: (User, string) -> bool)
    requires Canonical(users)
    ensures Authenticate(users, identifier, password, checkPassword) != MultipleMatches
  {
    if identifier.Some? {
      CandidatesAtMostOne(users, identifier.value);
    }
  }

  lemma CandidatesAtMostOne(users: seq<User>, identifier: string)
    requires Canonical(users)
    ensures |Candidates(users, identifier)| <= 1
  {
    forall k | 0 <= k < |users|
      ensures Lower(users[k].email) == users[k].email && Lower(users[k].username) == users[k].username
    {
      LowerOfLowercase(users[k].email);
      LowerOfLowercase(users[k].username);
    }
    if HasChar(identifier, '@') {
      Seqs.FilterAtMostOne(users, (u: User) => EqualsIgnoreCase(u.email, identifier));
    } else {
      Seqs.FilterAtMostOne(users, (u: User) => EqualsIgnoreCase(u.username, identifier));
    }
  }
}

=== FILE: verify_email_page.dfy ===
/** The resend-verification page of web_app/src/pages/VerifyEmail.js: a cooldown that
    counts down once per interval tick, and the guards around the resend request. The
    one-second interval is a discrete `Tick`; the request is split into its start and its
    completion. */
module VerifyEmailPage {
  import opened Wrappers
  import opened Strings

  const CooldownSeconds: nat := 30

  datatype Page = Page(cooldown: int, loading: bool)

  const Initial: Page := Page(0, false)

  /** One interval tick: the countdown only runs while the cooldown is positive. */
  function Tick(p: Page): (r: Page)
    ensures p.cooldown > 0 ==> r.cooldown == p.cooldown - 1
    ensures p.cooldown <= 0 ==> r == p
    ensures r.loading == p.loading
  {
    if p.cooldown <= 0 then p else p.(cooldown := p.cooldown - 1)
  }

  /** `n` ticks in a row. */
  function Ticks(p: Page, n: nat): Page
    decreases n
  {
    if n == 0 then p else Ticks(Tick(p), n - 1)
  }

  function Max(a: int, b: int): int {
    if a >= b then a else b
  }

  /** The countdown never goes below zero and ends after exactly as many ticks as it
      started with. */
  lemma {:induction false} TicksCountDown(p: Page, n: nat)
    requires p.cooldown >= 0
    ensures Ticks(p, n).cooldown == Max(p.cooldown - n, 0)
    ensures Ticks(p, n).loading == p.loading
    decreases n
  {
    if n > 0 {
      TicksCountDown(Tick(p), n - 1);
    }
  }

  /** The resend button is disabled while cooling down or while a request is in flight. */
  function ButtonDisabled(p: Page): (r: bool)
    ensures r <==> p.cooldown > 0 || p.loading
    ensures p.loading ==> r
    ensures !r ==> ButtonLabel(p) == "Resend verification email"
    ensures ButtonLabel(p) != "Resend verification email" ==> r
  {
    p.cooldown > 0 || p.loading
  }

  /** The button's text. */
  function ButtonLabel(p: Page): (r: string)
    ensures p.cooldown > 0 ==> StartsWith(r, "Resend available in ") && EndsWith(r, "s")
    ensures p.cooldown > 0 ==> |r| > 21 && (forall i :: 20 <= i < |r| - 1 ==> IsDigit(r[i]))
                               && ParseNat(r[20..|r| - 1]) == p.cooldown
    ensures p.cooldown <= 0 ==> r == "Resend verification email"
  {
    if p.cooldown > 0 then
      var n := NatToString(p.cooldown as nat);
      var r := "Resend available in " + n + "s";
      assert r[..20] == "Resend available in ";
      assert r[20..|r| - 1] == n;
      ParseNatToString(p.cooldown as nat);
      r
    else "Resend verification email"
  }

  /** What a click on resend does before the request comes back. */
  datatype Click = MissingUsername | Ignored | Requested(username: string)

  /** `resendVerification` up to the request: a missing username is an error and no
      request; a running cooldown makes it a no-op; otherwise the request goes out and
      the page is loading. */
  function StartResend(p: Page, username: Option<string>): (r: (Page, Click))
    ensures username.None? || username == Some("") ==> r == (p, MissingUsername)
    ensures r.1.Requested? <==> username.Some? && username.value != "" && p.cooldown <= 0
    ensures r.1.Requested? ==> r.0 == p.(loading := true) && r.1.username == username.value
    ensures !r.1.Requested? ==> r.0 == p
  {
    if username.None? || username.value == "" then (p, MissingUsername)
    else if p.cooldown > 0 then (p, Ignored)
    else (p.(loading := true), Requested(username.value))
  }

  /** The end of the request: success starts the 30-second cooldown; failure leaves
      the cooldown as it was; either way loading stops. */
  function FinishResend(p: Page, succeeded: bool): (r: Page)
    ensures !r.loading
    ensures succeeded ==> r.cooldown == CooldownSeconds
    ensures !succeeded ==> r.cooldown == p.cooldown
  {
    Page(if succeeded then CooldownSeconds else p.cooldown, false)
  }

  /** A successful resend disables the button for exactly 30 ticks. */
  lemma {:induction false} ResendCooldownLasts(p: Page, n: nat)
    ensures var q := FinishResend(p, true);
            ButtonDisabled(Ticks(q, n)) <==> n < CooldownSeconds
  {
    TicksCountDown(FinishResend(p, true), n);
  }

  /** A click during the cooldown, which the disabled button would also block, sends
      nothing and changes nothing. */
  lemma ClickDuringCooldownIsIgnored(p: Page, username: Option<string>)
    requires p.cooldown > 0
    ensures StartResend(p, username).0 == p
    ensures !StartResend(p, username).1.Requested?
  {
  }
}

=== FILE: wrappers.dfy ===
/** Failure-carrying result types shared by every module of the model. */
module Wrappers {

  /** A value that may be absent: a Python `None`, a JavaScript `null` or `undefined`. */
  datatype Option<+T> = None | Some(value: T) {
    /** The wrapped value, or `default` when absent. */
    function GetOr(default: T): T {
      match this
      case Some(v) => v
      case None => default
    }
  }

  /** The outcome of an operation that can raise or return an error response. */
  datatype Result<+T, +E> = Ok(value: T) | Err(error: E)
}
